=== FILE: README.md ===
# FloralPro3 access-control and marketplace logic, modelled in Dafny

FloralPro3 is a Next.js marketplace in which florists (`floreria`) buy from
suppliers (`proveedor`), producers (`productor`) and agents (`agente`). This
project models the parts of it that decide things:

- the two edge gates that guard `/dashboard/...`: `middleware.ts` at the root
  and `src/middleware.ts`;
- the `fp-role` cookie, as issued and cleared by `/api/auth/session`, written
  by the login page through `document.cookie`, and read back by the login
  page and the dashboard navigation;
- the login page, the two registration flows, and the two navigation bars;
- the florist's cart and checkout, the supplier's store filter, and the
  florist's calendar;
- the supplier catalogue editor and the branch form (client form state);
- the API route handlers over the backend tables: the public product list,
  the florist's orders and branches, and the supplier's catalogue, branches,
  orders, flash requests, profile and metrics.

The backend is a `Db` of tables. Each table is a `seq<Row>`, and a row is a
`map<string, Json>` of scalar JSON values. The chained `.eq(column, value)`
calls of a query become a conjunctive `Filter`. `.order("created_at",
{ascending: false})` becomes a sort newest first. A `created_at` held as
milliseconds orders by that number; one held as the ISO-8601 text the
backend returns orders by its date, time and first six fraction digits
(`Timestamps`). A row without a usable timestamp sorts first, as nulls do
in a descending SQL order. `.single()` succeeds only when exactly one row matches. Every handler
is a pure function from request, session (`Anonymous | SignedIn(userId)`),
tables (or the rows a call fetched) and the failures of its backend calls to a
response and new tables.
Browser cookies are a jar with the storage rules of RFC 6265: expiry by
`Max-Age=0` or a past `Expires` (section 5.2.2), and refusal of a script
write over an `httpOnly` cookie (section 5.3, step 11). `document.cookie` is
the jar's script-visible entries joined with `"; "`.

Modules follow the source files: `RootMiddleware`, `SrcMiddleware`,
`SessionRoute`, `LoginPage`, `RegisterForm`, `RegisterPage`, `DashboardNav`,
`BottomNav`, `FloristStore`, `SupplierStore`, `FloristCalendar`,
`CatalogEditor`, `BranchForm`, `ProductosApi`, `OrdersApi`,
`FloristBranchesApi`, `SupplierCatalogApi`, `SupplierBranchesApi`,
`SupplierOrdersApi`, `SupplierFlashApi`, `SupplierProfileApi` and
`SupplierMetrics`. They share:

- `Text`: JavaScript whitespace, `trim`, `split`, `startsWith`, ASCII
  lower-casing;
- `Seqs`: filter, find, prefix, and a sort newest first;
- `Timestamps`: the ordering key of an ISO-8601 `created_at`;
- `Json` and `Tables`: rows, filters and queries;
- `Api`: session, profile lookup and responses;
- `Cookies`, `Paths` and `Edge`: the cookie jar, path segments, and the
  middleware decision `Next | Redirect(target)`;
- `RoleTables`: lemmas comparing the role tables of the different files.

Where the code does something other than its comments and page texts suggest,
the model follows the code. Two examples:

- The root gate lets a bare `/dashboard` through when a role cookie is set,
  because it has no second segment (`RootMiddleware.DashboardRootPassesThrough`).
- The source-tree gate lets every rooted path through; see Findings.

## Model

| member | source | states |
|---|---|---|
| RootMiddleware.RoleRedirect | middleware.ts:7-9 | the target is "/dashboard/" followed by the role, whatever the role is |
| RootMiddleware.RoleRedirectInjective | middleware.ts:7-9 | different roles never share a redirect target |
| RootMiddleware.Middleware | middleware.ts:11-35 | a dashboard path without a role cookie goes to /login; with one, it passes iff it has no second segment or that segment equals the cookie; /login and /register bounce to the role's dashboard iff a cookie is set; everything else passes; every redirect goes to /login or to the cookie's dashboard |
| RootMiddleware.Handle | middleware.ts:37-39 | paths outside the matcher pass untouched; matched paths get the middleware's decision |
| RootMiddleware.DashboardRootPassesThrough | middleware.ts:22-24 | with a role cookie, a bare /dashboard is not redirected |
| RootMiddleware.RoleOfRoleDashboard | middleware.ts:22-23 | the second segment of a role's dashboard path is that role, for a non-empty role without "/" |
| RootMiddleware.OwnDashboardPassesThrough | middleware.ts:22-26 | a user whose cookie names a URL-safe role (unreserved characters only, not "." or "..") reaches that role's dashboard: the redirect does not loop |
| RootMiddleware.ForeignDashboardBounces | middleware.ts:22-26 | a user who opens another role's dashboard is sent to their own |
| RootMiddleware.RedirectTargetIsFinal | middleware.ts:16-32 | for a URL-safe role, following a redirect once ends at a page the gate lets through |
| RootMiddleware.SlashRoleLoops | middleware.ts:22-26 | a cookie role that contains "/" makes its own dashboard redirect to itself, an endless loop |
| SrcMiddleware.RoleDashboard | src/middleware.ts:5-10 | exactly floreria, proveedor, agente and admin have an entry, each "/dashboard/" + role |
| SrcMiddleware.Guard | src/middleware.ts:20-39 | a missing token or role cookie goes to /login; otherwise it redirects iff the path starts with /dashboard and not with the role's entry, and the target is that entry |
| SrcMiddleware.Decide | src/middleware.ts:12-40 | a path that the public prefix test accepts passes; any other path gets the guard's decision |
| SrcMiddleware.DecideLetsEverythingThrough | src/middleware.ts:15-18 | as written, every path starting with "/" passes, whatever the cookies |
| SrcMiddleware.AnonymousDashboardPassesAsWritten | src/middleware.ts:15-18 | as written, an anonymous request for /dashboard/proveedor passes |
| SrcMiddleware.DecideCorrected | src/middleware.ts:12-40 | with "/" matched exactly: public paths pass; a guarded path without both cookies goes to /login; every redirect goes to /login or to the role's entry; guarded paths outside /dashboard pass |
| SrcMiddleware.DashboardIsNotPublic | src/middleware.ts:4 | no dashboard path is public once "/" is matched exactly |
| SrcMiddleware.DashboardNeedsCookies | src/middleware.ts:24-29 | corrected gate: a dashboard path without both cookies goes to /login |
| SrcMiddleware.RedirectTargetIsFinal | src/middleware.ts:31-37 | corrected gate: for a tabled role, the redirect target itself passes |
| SrcMiddleware.PrefixTestAdmitsLongerNames | src/middleware.ts:33 | the prefix test lets a florist into /dashboard/floreriaX |
| SrcMiddleware.ProducerIsSentToUndefined | src/middleware.ts:32-36 | a producer, who has no entry, is sent from every dashboard path to "/undefined" |
| SrcMiddleware.Handle | src/middleware.ts:42-47 | paths outside the matcher pass; because of the public prefix test, so does every rooted path |
| SessionRoute.RoleOf | src/app/api/auth/session/route.ts:6-7 | a role is read iff the body has a non-empty string `role`, and it is that string |
| SessionRoute.Post | src/app/api/auth/session/route.ts:5-25 | 400 "Rol inválido" and no cookie iff there is no valid role; otherwise 200 and an httpOnly, lax, 7-day, path "/" fp-role cookie holding exactly the role, secure iff NODE_ENV is production |
| SessionRoute.Delete | src/app/api/auth/session/route.ts:27-36 | always 200, with an fp-role cookie that expires at once |
| SessionRoute.PostStoresRole | src/app/api/auth/session/route.ts:13-24 | after a valid POST the jar holds the role as an httpOnly fp-role and every other cookie is unchanged |
| SessionRoute.PostIdempotent | src/app/api/auth/session/route.ts:5-25 | posting the same body twice leaves the jar as posting once |
| SessionRoute.DeleteClears | src/app/api/auth/session/route.ts:27-36 | after DELETE no fp-role remains, and DELETE is idempotent |
| SessionRoute.LastWriteWins | src/app/api/auth/session/route.ts:27-36 | POST then DELETE leaves no fp-role; DELETE then a valid POST leaves the posted role |
| SessionRoute.IssuedRoleIsHiddenFromScripts | src/app/api/auth/session/route.ts:17 | the role that the session route issues cannot be read from document.cookie |
| Cookies.ReceiveHttp | src/app/api/auth/session/route.ts:14-22 | a Set-Cookie stores its value and httpOnly flag, or removes the cookie when it expires; other cookies are unchanged |
| Cookies.ReceiveScript | src/app/login/page.tsx:79 | a script write is dropped over an httpOnly cookie of that name, and otherwise stores a non-httpOnly value or removes an expired one; other cookies are unchanged |
| Cookies.ReceiveScriptKeepsWellFormed | src/app/login/page.tsx:79 | a script write keeps names as tokens and values free of ";" |
| Cookies.ReadCookie | src/components/DashboardNav.tsx:24-27 | the value read never contains "=" |
| Cookies.FindListed | src/components/DashboardNav.tsx:24-26 | the first "; " entry starting with "name=" is the script-visible cookie of that name, if any |
| Cookies.RowsOfDocumentCookie | src/components/DashboardNav.tsx:25 | splitting document.cookie at "; " gives back its entries |
| Cookies.PairStartsWithName | src/components/DashboardNav.tsx:26 | an entry starts with "name=" iff its cookie has that name |
| Cookies.SplitPair | src/components/DashboardNav.tsx:27 | splitting an entry at "=" gives its name and value |
| Cookies.EmptyCookieReadsNothing | src/components/DashboardNav.tsx:24-27 | an empty document.cookie reads as no cookie |
| Cookies.ReadListedCookie | src/components/DashboardNav.tsx:24-27 | reading a name from document.cookie gives the jar's script-visible value, or nothing |
| DashboardNav.RoleOf | src/components/DashboardNav.tsx:22-30 | the cookie's value when it is non-empty, otherwise floreria |
| DashboardNav.Menu | src/components/DashboardNav.tsx:33-65 | a menu exists exactly for floreria, proveedor, agente and productor |
| DashboardNav.NavItems | src/components/DashboardNav.tsx:67 | the role's menu, or the floreria menu for a role without one |
| DashboardNav.Brand | src/components/DashboardNav.tsx:98 | the brand link is "/dashboard/" + role, and floreria's for an empty role |
| DashboardNav.MenuShape | src/components/DashboardNav.tsx:37-64 | each menu has five distinct links, the first is the role's dashboard and all lie under it |
| DashboardNav.AtMostOneActive | src/components/DashboardNav.tsx:78-79 | at most one item is active for any path |
| DashboardNav.AdminGetsFloristMenu | src/components/DashboardNav.tsx:67-98 | admin gets the floreria menu while the brand links to /dashboard/admin |
| DashboardNav.IssuedRoleShowsFloristMenu | src/components/DashboardNav.tsx:24-28 | after the session route issues a role, the nav cannot see it and shows the floreria menu |
| BottomNav.Render | src/components/BottomNav.tsx:14-40 | nothing iff the path starts with /dashboard or is /login or /register; otherwise the four items in order, each active iff its link equals the path, with a missing path read as "/" |
| BottomNav.AtMostOneActive | src/components/BottomNav.tsx:38-39 | at most one item is active |
| BottomNav.UnknownPathShowsHome | src/components/BottomNav.tsx:15 | without a path the bar shows with only Home active |
| BottomNav.HidingIsPrefixOnlyForDashboard | src/components/BottomNav.tsx:18-24 | /dashboards is hidden and /login/ is shown |
| LoginPage.RoleDashboard | src/app/login/page.tsx:9-14 | the four tabled roles go to "/dashboard/" + role; any other goes to /dashboard/floreria |
| LoginPage.CheckSession | src/app/login/page.tsx:24-40 | a non-empty fp-role cookie wins over session metadata; with neither, no navigation |
| LoginPage.Submit | src/app/login/page.tsx:43-82 | blank email or password stops before sign-in; sign-in gets the trimmed email and the raw password; an error leaves jar and page unchanged; success iff sign-in and role lookup succeed, and then fp-role is written and the role's dashboard pushed |
| LoginPage.AdminFallsBack | src/app/login/page.tsx:81 | admin resolves to the florist dashboard |
| LoginPage.SignInFailureMessage | src/app/login/page.tsx:59-63 | a failed sign-in shows its message or the fallback text |
| LoginPage.SupplierPageBouncesFlorist | middleware.ts:22-26 | with a floreria cookie, the root gate sends /dashboard/proveedor back to /dashboard/floreria |
| LoginPage.TabledRoleIsSegment | src/app/login/page.tsx:9-14 | every tabled role is a non-empty, URL-safe path segment |
| LoginPage.LoginCannotReplaceIssuedRole | src/app/login/page.tsx:78-81 | with the root gate in force and a login form loaded before the session route issued an http-only floreria cookie: a supplier login pushes /dashboard/proveedor, the cookie stays floreria and the gate bounces the page; a fresh load of /login would itself be bounced |
| LoginPage.ScriptWriteIsDropped | src/app/login/page.tsx:79 | over an httpOnly fp-role, a successful login leaves the jar unchanged |
| LoginPage.SessionStoresRole | src/app/api/auth/session/route.ts:13-22 | the corrected login's session call stores the role |
| LoginPage.SubmitCorrected | src/app/login/page.tsx:43-82 | the same outcomes as the page, but on success the fp-role cookie holds the looked-up role |
| LoginPage.CorrectedLoginReachesDashboard | src/app/login/page.tsx:78-81 | with the correction, a tabled role's login ends on a page the root gate lets through |
| RegisterForm.DashboardByRole | src/app/register/RegisterForm.tsx:12-17 | exactly the four roles have a dashboard, "/dashboard/" + role |
| RegisterForm.EmailIsUnanchored | src/app/register/RegisterForm.tsx:19 | text around a valid address keeps it valid |
| RegisterForm.NoAtNoEmail | src/app/register/RegisterForm.tsx:19 | without "@" nothing is an address |
| RegisterForm.TrailingTextPasses | src/app/register/RegisterForm.tsx:19 | "a@b.c x" is accepted |
| RegisterForm.MinIgnoresPadding | src/app/register/RegisterForm.tsx:20 | surrounding whitespace never counts toward a minimum length |
| RegisterForm.Validate | src/app/register/RegisterForm.tsx:65-72 | no error iff all four checks pass; otherwise the first failing check's message, in the order role, email, name, password |
| RegisterForm.TempRole | src/app/register/RegisterForm.tsx:60 | nothing iff no "fp-role-temp=" entry starts the cookie or follows "; "; otherwise the first such entry's value up to ";" |
| RegisterForm.Adopt | src/app/register/RegisterForm.tsx:58-63 | a chosen role stays; otherwise the decoded temp value is taken without checking it is a role |
| RegisterForm.LoneTempCookieIsRead | src/app/register/RegisterForm.tsx:60 | a document.cookie holding only the temp cookie yields its value |
| RegisterForm.UserRow | src/app/register/RegisterForm.tsx:89-94 | the inserted user row has exactly id, nombre, email and rol |
| RegisterForm.Shown | src/app/register/RegisterForm.tsx:102-103 | a non-empty message is shown as is, an empty one as the fallback |
| RegisterForm.Submit | src/app/register/RegisterForm.tsx:74-107 | a validation error stops before sign-up; the user row is inserted iff sign-up succeeds; on success the temp cookie expires and the page moves to the role's dashboard |
| RegisterForm.SuccessExpiresTempCookie | src/app/register/RegisterForm.tsx:97-98 | after success no temp cookie remains |
| RegisterForm.UncheckedTempRoleIsRecorded | src/app/register/RegisterForm.tsx:100-101 | a temp cookie holding "admin" is recorded as the user's role and the page moves to "undefined" |
| RegisterPage.Metadata | src/app/register/page.tsx:24-33 | sign-up metadata always carries role floreria |
| RegisterPage.Submit | src/app/register/page.tsx:19-59 | a sign-up error is shown and the session route is not called; a failed session call shows an error and stays; otherwise it moves to /dashboard/floreria iff sign-up returned a session, else to /login |
| RegisterPage.SessionAcceptsDefaultRole | src/app/register/page.tsx:41-58 | the session route accepts floreria and stores it as an httpOnly fp-role |
| RoleTables.SharedRolesAgree | src/app/register/RegisterForm.tsx:12-17 | floreria, proveedor and agente have the same dashboard in the edge gate, login, registration and navigation |
| RoleTables.ProducerUnknownToEdgeGate | src/middleware.ts:5-10 | productor has a dashboard everywhere except in the source-tree gate |
| RoleTables.AdminKnownOnlyToEdgeGate | src/middleware.ts:5-10 | admin has a dashboard only in the source-tree gate |
| FloristStore.Add | src/app/dashboard/floreria/tienda/page.tsx:48-61 | a product already in the cart gets one more unit; a new one is appended with quantity 1 |
| FloristStore.Remove | src/app/dashboard/floreria/tienda/page.tsx:64-66 | no line for the id remains and every other line stays |
| FloristStore.AddKeepsValid | src/app/dashboard/floreria/tienda/page.tsx:48-61 | adding keeps product ids unique and quantities positive |
| FloristStore.RemoveKeepsValid | src/app/dashboard/floreria/tienda/page.tsx:64-66 | removing keeps the cart valid and in order |
| FloristStore.AddExistingBumpsOneLine | src/app/dashboard/floreria/tienda/page.tsx:50-56 | adding a present product changes only its line, by one unit |
| FloristStore.RemoveDeletesOneLine | src/app/dashboard/floreria/tienda/page.tsx:65 | removing a present product deletes exactly its line |
| FloristStore.RemoveAbsentIsNoop | src/app/dashboard/floreria/tienda/page.tsx:65 | removing an absent id changes nothing |
| FloristStore.TotalAppend | src/app/dashboard/floreria/tienda/page.tsx:233-238 | the total of two carts joined is the sum of their totals |
| FloristStore.AddNewRaisesTotal | src/app/dashboard/floreria/tienda/page.tsx:233-238 | adding a new product raises the total by its price |
| FloristStore.AddExistingRaisesTotal | src/app/dashboard/floreria/tienda/page.tsx:233-238 | adding a present product raises the total by its price |
| FloristStore.OrderBody | src/app/dashboard/floreria/tienda/page.tsx:80-84 | each order goes to the product's seller with total price times quantity |
| FloristStore.HandlePedido | src/app/dashboard/floreria/tienda/page.tsx:69-93 | an empty cart sends nothing; otherwise one order per line in order, then the cart is emptied, unless a request fails, which keeps the cart |
| FloristStore.FreeLineIsRefusedButCartEmptied | src/app/dashboard/floreria/tienda/page.tsx:76-88 | a free product's order is refused with 400, yet the cart is emptied and success reported |
| SupplierStore.Visible | src/app/dashboard/proveedor/tienda/page.tsx:64-70 | no visible product is the supplier's own |
| SupplierStore.NoProfileShowsAll | src/app/dashboard/proveedor/tienda/page.tsx:65 | without a profile id every product is visible |
| SupplierStore.HidesExactlyOwnProducts | src/app/dashboard/proveedor/tienda/page.tsx:66-69 | an in-order subsequence from which exactly the supplier's own products are missing |
| SupplierStore.OtherSellerKindsStay | src/app/dashboard/proveedor/tienda/page.tsx:67 | producer and agent products stay even under the same seller id |
| FloristCalendar.Fallback | src/app/dashboard/floreria/calendario/page.tsx:24-37 | two demo events, an order and a flash request |
| FloristCalendar.FromOrder | src/app/dashboard/floreria/calendario/page.tsx:67-73 | an order event keeps the order's id and delivery date |
| FloristCalendar.FromFlash | src/app/dashboard/floreria/calendario/page.tsx:75-81 | a flash event keeps the request's id and delivery date |
| FloristCalendar.Load | src/app/dashboard/floreria/calendario/page.tsx:39-93 | no session or a failed query gives the fallback and an error; otherwise the user's orders then flash requests, or the fallback when both are empty |
| FloristCalendar.OrdersBeforeFlash | src/app/dashboard/floreria/calendario/page.tsx:83 | every event before an order event is an order event |
| FloristCalendar.CalendarMissesOrdersUnderFloristId | src/app/dashboard/floreria/calendario/page.tsx:51-54 | an order placed through /api/pedidos, keyed by the florist row id, is not found by the calendar's user-id query |
| CatalogEditor.HandleChange | src/app/dashboard/proveedor/catalog/page.tsx:53-63 | price becomes Number(value); stock becomes null for "" and Number(value) otherwise; any other field is set verbatim; nothing else changes |
| CatalogEditor.ResetForm | src/app/dashboard/proveedor/catalog/page.tsx:65-67 | whatever the form held, it returns to the initial product: empty name, price 0, no stock |
| CatalogEditor.SubmitError | src/app/dashboard/proveedor/catalog/page.tsx:71-74 | refused iff the trimmed name is empty or the price is 0 or NaN |
| CatalogEditor.NumberJson | src/app/dashboard/proveedor/catalog/page.tsx:82 | a number is sent as itself and NaN as null |
| CatalogEditor.CreateBody | src/app/dashboard/proveedor/catalog/page.tsx:79-83 | the POST body carries the form's name and price, and an id only when the form has one |
| CatalogEditor.AcceptedFormPassesServerCheck | src/app/dashboard/proveedor/catalog/page.tsx:71-82 | a form the page accepts also passes the route's name and price check |
| CatalogEditor.ZeroPriceRefusedOnlyHere | src/app/dashboard/proveedor/catalog/page.tsx:71 | the page refuses price 0 although the route would accept it |
| CatalogEditor.EditRow | src/app/dashboard/proveedor/catalog/page.tsx:284-325 | only the products with the edited id change |
| CatalogEditor.EditRowKeepsOtherFields | src/app/dashboard/proveedor/catalog/page.tsx:284-325 | a row edit changes only the edited field |
| CatalogEditor.UpdatePayload | src/app/dashboard/proveedor/catalog/page.tsx:96-107 | nothing is sent without an id; otherwise only id, precio, stock and descripcion |
| CatalogEditor.SavedRowKeepsOwner | src/app/dashboard/proveedor/catalog/page.tsx:99-107 | saving a row never changes any product's seller id or seller kind |
| BranchForm.HandleChange | src/app/dashboard/proveedor/sucursales/page.tsx:57-59 | only the named field changes |
| BranchForm.Reset | src/app/dashboard/proveedor/sucursales/page.tsx:61-64 | the initial form and no edited id |
| BranchForm.HandleEdit | src/app/dashboard/proveedor/sucursales/page.tsx:99-102 | the edited id is the branch's id or none; the form is the initial form overlaid with the branch |
| BranchForm.RequestFor | src/app/dashboard/proveedor/sucursales/page.tsx:78-79 | PATCH with the form plus id iff an id is being edited, otherwise POST with the form |
| BranchForm.Submit | src/app/dashboard/proveedor/sucursales/page.tsx:66-97 | a blank name or city is refused with nothing sent; otherwise the request is sent and success resets the form while failure keeps it with the message |
| BranchForm.AcceptedFormPassesServerCheck | src/app/dashboard/proveedor/sucursales/page.tsx:71-75 | a form the page accepts passes the route's name and city check |
| BranchForm.SaveTargetsEditedBranch | src/app/dashboard/proveedor/sucursales/page.tsx:78-83 | saving an edit updates only the edited branch of the caller, with the form's fields |
| Api.Authorize | src/app/api/proveedor/catalogo/route.ts:18-34 | no session gives 401; no single profile row gives 404; otherwise the caller's own profile row |
| Api.ApplyLimit | src/app/api/proveedor/catalogo/route.ts:36-48 | NaN or 0 keeps all rows; a positive limit keeps the first min(limit, rows) rows; the result is always a prefix |
| Api.PrefixOfQuery | src/app/api/proveedor/catalogo/route.ts:46-48 | a prefix of a newest-first listing of all admitted rows lists only admitted rows, in order, and no admitted row left out is newer than a listed one |
| Api.DeleteWhereIsScoped | src/app/api/proveedor/catalogo/route.ts:168-173 | a delete leaves no matching row, keeps every other row in its order, adds nothing, and removes exactly as many rows as matched |
| Tables.Where | src/app/api/sucursales/route.ts:34-38 | the rows of the table that match every equality filter |
| Tables.Single | src/app/api/pedidos/route.ts:23-27 | a row iff exactly one row matches, and then that row |
| Tables.Query | src/app/api/pedidos/route.ts:37-52 | exactly the matching rows, projected, each as many times as stored (the same multiset), newest first |
| Tables.Stamp | src/app/api/pedidos/route.ts:52 | a numeric created_at orders by its value, a text one by its ISO-8601 clock reading, anything else has no key |
| Timestamps.DigitsOrder | src/app/api/pedidos/route.ts:52 | digit runs of one width compare as numbers the way they compare as text |
| Timestamps.LaterClockHasLargerKey | src/app/api/pedidos/route.ts:52 | of two ISO-8601 timestamps, the one whose clock reading is later has the larger ordering key |
| Timestamps.FractionBreaksTies | src/app/api/pedidos/route.ts:52 | within one second, a timestamp with a non-zero fraction is newer than the same second written without one |
| Tables.UpdateWhereIdempotent | src/app/api/pedidos/route.ts:135-138 | repeating an update changes nothing more |
| Tables.DeleteWhereIdempotent | src/app/api/pedidos/route.ts:159 | repeating a delete changes nothing more |
| Tables.DeletePartitions | src/app/api/pedidos/route.ts:159 | the rows deleted and the rows kept add up to the table |
| SupplierCatalogApi.Get | src/app/api/proveedor/catalogo/route.ts:18-57 | 401/404 as authorized, then a failed query gives 500 with the backend's message; 200 iff authorized and the query succeeds, listing only the caller's supplier products, newest first; with NaN or 0 as limit all of them, with a positive limit the first min(limit, total); no product left out is newer than one listed |
| SupplierCatalogApi.NewProduct | src/app/api/proveedor/catalogo/route.ts:87-95 | the new product is of kind proveedor and owned by the caller, with the body's fields |
| SupplierCatalogApi.Post | src/app/api/proveedor/catalogo/route.ts:59-102 | a falsy name or non-number price gives 400 before the session check, then 401/404 as authorized, then 500 when the write fails; 200 iff the input is valid, the caller is authorized and the write succeeds; success appends one product of kind proveedor owned by the caller and nothing else changes |
| SupplierCatalogApi.Patch | src/app/api/proveedor/catalogo/route.ts:104-141 | no id gives 400, then 401/404 as authorized, then 500 when the write fails; 200 iff the input is valid, the caller is authorized and the write succeeds; success writes every body field but id into the caller's product with that id only |
| SupplierCatalogApi.Delete | src/app/api/proveedor/catalogo/route.ts:143-180 | no id gives 400, then 401/404 as authorized, then 500 when the write fails; 200 iff the input is valid, the caller is authorized and the write succeeds; success removes only the caller's product with that id |
| SupplierCatalogApi.PatchSparesOthers | src/app/api/proveedor/catalogo/route.ts:129-134 | products of other owners are never changed |
| SupplierCatalogApi.PatchCanRewriteOwner | src/app/api/proveedor/catalogo/route.ts:105-131 | a body carrying vendedor_id hands the product to another seller |
| SupplierBranchesApi.Get | src/app/api/proveedor/sucursales/route.ts:15-42 | 401/404 as authorized, then a failed query gives 500 with the backend's message; 200 iff authorized and the query succeeds, listing exactly the caller's branches (the multiset of the matching rows, projected), newest first |
| SupplierBranchesApi.NewBranch | src/app/api/proveedor/sucursales/route.ts:69-80 | the new branch belongs to the caller and carries the body's fields |
| SupplierBranchesApi.Post | src/app/api/proveedor/sucursales/route.ts:44-86 | a falsy name or city gives 400 first, then 401/404 as authorized, then 500 when the write fails; 200 iff the input is valid, the caller is authorized and the write succeeds; success appends one branch owned by the caller and nothing else changes |
| SupplierBranchesApi.Patch | src/app/api/proveedor/sucursales/route.ts:88-120 | no id gives 400, then 401/404 as authorized, then 500 when the write fails; 200 iff the input is valid, the caller is authorized and the write succeeds; success writes every body field but id into the caller's branch with that id only |
| SupplierBranchesApi.Delete | src/app/api/proveedor/sucursales/route.ts:122-154 | no id gives 400, then 401/404 as authorized, then 500 when the write fails; 200 iff the input is valid, the caller is authorized and the write succeeds; success removes only the caller's branch with that id |
| SupplierBranchesApi.DeleteSparesOthers | src/app/api/proveedor/sucursales/route.ts:144-148 | branches of other suppliers survive a delete |
| SupplierOrdersApi.Get | src/app/api/proveedor/pedidos/route.ts:15-50 | 401/404 as authorized, then a failed query gives 500 with the backend's message; 200 iff authorized and the query succeeds, listing only orders addressed to the caller, newest first; with NaN or 0 as limit all of them, with a positive limit the first min(limit, total); no order left out is newer than one listed |
| SupplierOrdersApi.Patch | src/app/api/proveedor/pedidos/route.ts:52-90 | no id, or neither status nor notes, gives 400 before the session check, then 401/404 as authorized, then 500 when the write fails; 200 iff the input is valid, the caller is authorized and the write succeeds; success writes only status and notes, only on the caller's order with that id |
| SupplierOrdersApi.PatchTouchesOnlyStatusAndNotes | src/app/api/proveedor/pedidos/route.ts:80-84 | every column other than estado and notas is unchanged on every order |
| SupplierFlashApi.Get | src/app/api/proveedor/flash/route.ts:15-43 | 401/404 as authorized, then a failed query gives 500 with the backend's message; 200 iff authorized and the query succeeds, listing exactly the caller's flash requests (the multiset of the matching rows, projected), newest first |
| SupplierFlashApi.Patch | src/app/api/proveedor/flash/route.ts:45-77 | no id gives 400 first, then 401/404 as authorized, then 500 when the write fails; 200 iff the input is valid, the caller is authorized and the write succeeds; success writes only estado and cotizacion, only on the caller's request with that id |
| SupplierFlashApi.EmptyAnswerChangesNothing | src/app/api/proveedor/flash/route.ts:67-71 | a body with only an id succeeds without changing any table |
| SupplierProfileApi.Get | src/app/api/proveedor/perfil/route.ts:18-35 | 401/404 as authorized; otherwise the caller's row projected onto the profile columns |
| SupplierProfileApi.Patch | src/app/api/proveedor/perfil/route.ts:37-92 | 401/404 as authorized, then 500 when the write fails; 200 iff authorized and the write succeeds; success writes only the ten editable columns, only on the caller's row |
| SupplierProfileApi.PatchKeepsOwnership | src/app/api/proveedor/perfil/route.ts:72-86 | no supplier row's id or user_id ever changes |
| SupplierMetrics.Percent | src/app/api/proveedor/metrics/route.ts:98-100 | 0 without orders, otherwise 100·c/n rounded half up, always within 0..100 |
| SupplierMetrics.PercentIsUnique | src/app/api/proveedor/metrics/route.ts:98-100 | half-up rounding has exactly one value |
| SupplierMetrics.Summarize | src/app/api/proveedor/metrics/route.ts:78-105 | products published is the product count; the percentage is the rounded share of fulfilled orders; fulfilled, review and cancelled counts together fit within the orders; low stock and today's orders are bounded by their lists |
| SupplierMetrics.NothingToCount | src/app/api/proveedor/metrics/route.ts:78-105 | no orders and no products give six zero counters |
| SupplierMetrics.OneMoreOrder | src/app/api/proveedor/metrics/route.ts:78-97 | one more order adds one to today's orders, cancellations, reviews and fulfilled orders exactly when it is of that class, and leaves the product counters alone |
| SupplierMetrics.ClassesIgnoreCase | src/app/api/proveedor/metrics/route.ts:85-97 | a status and its lower-cased form fall in the same classes |
| SupplierMetrics.EmptyStatusHasNoClass | src/app/api/proveedor/metrics/route.ts:86 | a null or empty status falls in no class |
| SupplierMetrics.LowStockCountsOnlyNumbers | src/app/api/proveedor/metrics/route.ts:84-105 | one more product adds one to the published count, and one to low stock iff its stock is a number below 50; the order counters stay |
| SupplierMetrics.UndatedOrderNotToday | src/app/api/proveedor/metrics/route.ts:78-82 | an order without a usable date never counts as today's |
| SupplierMetrics.CreatedOf | src/app/api/proveedor/metrics/route.ts:79-81 | a falsy created_at (absent, null, 0, "", false) is absent, so the order is skipped |
| SupplierMetrics.StringDateCountsWhenParsedToday | src/app/api/proveedor/metrics/route.ts:78-82 | an order dated by text counts as today's iff the text is non-empty and parses to an instant at or after today's midnight |
| SupplierMetrics.FalsyDateNeverToday | src/app/api/proveedor/metrics/route.ts:79 | an order with a falsy created_at is never today's |
| SupplierMetrics.Report | src/app/api/proveedor/metrics/route.ts:107-115 | the body holds exactly the six counters with their values, plus `proveedor` with the profile's commercial name iff the profile has that key |
| SupplierMetrics.Get | src/app/api/proveedor/metrics/route.ts:19-116 | 401/404 as authorized; a failed orders query gives 500 with its message, then a failed products query 500 with its message; 200 iff both queries succeed, with the metrics of exactly the caller's orders, dated by the given date parser, and published products |
| ProductosApi.SellerRelation | src/app/api/productos/route.ts:38-44 | the relation matching the seller kind, or none for an unknown kind |
| ProductosApi.SellerName | src/app/api/productos/route.ts:38-54 | never null; the first related row's name whenever it is present and not null (an empty name included), otherwise "Sin nombre" |
| ProductosApi.Present | src/app/api/productos/route.ts:35-56 | one output per product, with exactly the listed columns copied and the seller name added |
| ProductosApi.Get | src/app/api/productos/route.ts:8-66 | a failed query gives 500; otherwise every product, newest first, each presented |
| ProductosApi.SellerId | src/app/api/productos/route.ts:95-119 | whenever the seller kind is known and the caller has exactly one row in its table, that row's id field; nothing otherwise |
| ProductosApi.Post | src/app/api/productos/route.ts:72-156 | a falsy name, price or kind gives 400 first, then 401 without a session, then 404 without a seller profile, then 500 when the insert fails; 200 iff all of those pass; success appends one product whose seller id comes from the profile |
| ProductosApi.Delete | src/app/api/productos/route.ts:162-192 | no id gives 400; otherwise the product with that id is deleted with no session or ownership check |
| ProductosApi.UnknownSellerKindIsNotFound | src/app/api/productos/route.ts:112-126 | an unknown seller kind is answered 404 |
| ProductosApi.SupplierPostLandsInCatalog | src/app/api/productos/route.ts:98-138 | a supplier's product created here is one the supplier catalogue owns |
| OrdersApi.Get | src/app/api/pedidos/route.ts:9-59 | 401/404 as authorized, then a failed query gives 500 with the backend's message; 200 iff authorized and the query succeeds, listing exactly the orders the caller's florist placed (the multiset of the matching rows, projected), newest first |
| OrdersApi.NewOrder | src/app/api/pedidos/route.ts:103-111 | the new order is placed by the caller's florist, status pendiente, with the body's fields |
| OrdersApi.Post | src/app/api/pedidos/route.ts:65-118 | a falsy supplier or total gives 400 before the session check, then 401/404 as authorized, then 500 when the write fails; 200 iff the input is valid, the caller is authorized and the write succeeds; success appends one pending order placed by the caller's florist |
| OrdersApi.Patch | src/app/api/pedidos/route.ts:124-145 | no id gives 400; a failed update gives 500 with the backend's message and changes nothing; 200 iff an id is given and the update succeeds, and then status and notes are written on the order with that id, with no session or ownership check |
| OrdersApi.Delete | src/app/api/pedidos/route.ts:151-166 | no id gives 400; a failed delete gives 500 with the backend's message and changes nothing; 200 iff an id is given and the delete succeeds, and then the orders with that id are deleted and the rest kept in order, with no session or ownership check |
| OrdersApi.PatchIgnoresBuyer | src/app/api/pedidos/route.ts:124-138 | anyone can set the status of any order, and its other columns stay |
| OrdersApi.DeleteIgnoresBuyer | src/app/api/pedidos/route.ts:151-159 | anyone can delete any order |
| FloristBranchesApi.Get | src/app/api/sucursales/route.ts:8-45 | 401/404 as authorized, then a failed query gives 500 with the backend's message; 200 iff authorized and the query succeeds, listing exactly the caller's branches with every column (the multiset of the matching rows), newest first |
| FloristBranchesApi.Post | src/app/api/sucursales/route.ts:51-103 | no field check; 401/404 as authorized; a failed insert gives 500 with the backend's message and changes nothing; 200 iff authorized and the insert succeeds, and then one branch owned by the caller's florist, with the body's fields, is appended |
| FloristBranchesApi.Delete | src/app/api/sucursales/route.ts:109-127 | no id gives 400; a failed delete gives 500 with the backend's message and changes nothing; 200 iff an id is given and the delete succeeds, and then the branches with that id are deleted and the rest kept in order |
| FloristBranchesApi.DeleteIgnoresOwner | src/app/api/sucursales/route.ts:113-120 | anyone can delete any florist's branch |

## Left out

- Backend calls are parameters: authentication (`getSession`, sign-in,
  sign-up), the outcome of the main query of each handler, and the role
  lookup of the login page. A row lookup error is folded into "not found",
  which the handlers answer the same way.
- Embedded relations (`proveedores ( nombre_comercial )`) in the buyer order
  list are not projected; the public product list takes them as an input.
- `try`/`catch` around handlers: invalid JSON bodies and thrown exceptions,
  which the source answers with 500 or not at all, are not modelled.
- Network failures of `fetch` are modelled only for the checkout loop; the
  other client pages model the response they get.
- Loading and saving flags, `window.confirm`, the delete buttons of the
  client pages, and list refreshes after a save are presentation.
- The Next.js `matcher` glob syntax is taken as a predicate on paths.
- Cookie values containing ";" or whitespace, cookie domains, and the
  `path` and `expires` attributes of a script write other than expiry.
- `decodeURIComponent` is a parameter; its exception on a malformed value is
  not modelled.
- `router.replace(undefined)` is modelled as navigation to "undefined".
- Form fields that are not strings (`.trim()` on `null`) are not modelled.
- Dates: "start of today" and `toISOString` are integer or string
  parameters, and `new Date(text)` is the parse function the metrics
  handler takes; time zones are not modelled.
- Tables.Stamp: ISO-8601 text is ordered by its digits, which is the order
  of instants only for timestamps written with one UTC offset, as the
  backend writes them.
- `Promise.all` in the metrics route is modelled as two sequential queries.
- Prices and quantities are integers. `Number(...)` is an opaque parse
  function giving NaN or an integer.
- JavaScript prototype keys (`constructor`, `__proto__`) are not looked up
  in the `Record` role tables.
- `toLowerCase` is ASCII-only; no status word contains a letter whose
  Unicode lower case is ASCII.
- SupplierMetrics.Percent: computes exact half-up rounding; the source's
  floating-point `Math.round(c / n * 100)` can differ when the quotient is
  not exact (29 of 200 gives 14.499… in floating point).
- FloristCalendar.FromOrder: states the id, delivery date and kind of an
  event, not the title text.
- FloristCalendar.FromFlash: states the id, delivery date and kind of an
  event, not the title text.
- Api.ApplyLimit: a negative limit (`?limit=-3`) is truthy, so the source
  passes it to `.limit()`; the backend's answer to that is not modelled and
  the model keeps every row.
- RootMiddleware.OwnDashboardPassesThrough: stated for URL-safe roles only;
  `new URL` percent-encoding, "?" and "#" cutting the path, and dot-segment
  resolution of other roles are not modelled. Every role the application
  issues is URL-safe (`LoginPage.TabledRoleIsSegment`).
- RootMiddleware.RedirectTargetIsFinal: stated for URL-safe roles only, for
  the same reason.
- Cookies.ReadCookie: states only that the value has no "="; the full read is
  stated by `ReadListedCookie` for the cookies a jar can produce.
- Server actions, presentational components, the fetch-and-render pages, and
  configuration files are not part of this model.

## Findings

| source | as written | input that shows it | evidently intended | confidence | as-written member | corrected member |
|---|---|---|---|---|---|---|
| src/middleware.ts:16-18 | `"/"` is in the public list and the test is `startsWith`, so every path beginning with "/" is public and the cookie and role checks never run | `/dashboard/proveedor` with no cookies passes | "/" public only as an exact match; dashboard paths need both cookies and the role's prefix | high, not executed | SrcMiddleware.AnonymousDashboardPassesAsWritten | SrcMiddleware.DashboardNeedsCookies |
| src/app/login/page.tsx:79 | the login page sets `fp-role` through `document.cookie`; when `/api/auth/session` has already issued an httpOnly `fp-role`, the browser drops that write (RFC 6265, section 5.3, step 11) | with the root `middleware.ts` as the gate in force: a login form loaded before registration in another tab issued the httpOnly `fp-role=floreria`, then submitted for a user whose role row is `proveedor` (a fresh load of /login would be bounced by middleware.ts:30-31) | the login page stores the looked-up role so the gate lets the pushed dashboard through | low, not executed | LoginPage.LoginCannotReplaceIssuedRole | LoginPage.CorrectedLoginReachesDashboard |

=== FILE: api.dfy ===
/** What every route handler shares: the caller's session, the JSON
    response it answers with, the backend tables it reads and writes, and
    the "session, then profile row" prelude of the owner-scoped handlers. */
module Api {
  import opened Wrappers
  import opened Json
  import opened Tables
  import Seqs

  /** `supabase.auth.getSession()`: a failed call or a session without a
      user both read as `Anonymous`. */
  datatype Auth = Anonymous | SignedIn(userId: string)

  /** The JSON body of a response: `{ error }`, `{ success: true }`, a list
      of rows, or a single record. */
  datatype Payload = Failure(error: string) | Done | Listing(rows: seq<Row>) | Record(row: Row)

  datatype Response = Response(status: int, payload: Payload)

  /** The backend tables the handlers touch. */
  datatype Db = Db(
    proveedores: Table,
    productores: Table,
    agentes: Table,
    florerias: Table,
    productos: Table,
    pedidos: Table,
    sucursales: Table,
    sucursalesFloreria: Table,
    flash: Table)

  /** A handler's answer together with the tables after it ran. */
  datatype Outcome = Outcome(response: Response, db: Db)

  const NotAuthenticated := Response(401, Failure("No autenticado"))

  const Succeeded := Response(200, Done)

  /** `from(profiles).select(...).eq("user_id", userId).single()`. */
  function ProfileOf(profiles: Table, userId: string): Option<Row> {
    Single(profiles, [("user_id", JStr(userId))])
  }

  /** `data.id` of a profile row; a missing id filters as null. */
  function IdOf(row: Row): Json {
    if "id" in row then row["id"] else JNull
  }

  /** Result of the session check followed by the profile lookup. */
  datatype Gate = Denied(response: Response) | Granted(profile: Row)

  /** The prelude shared by the owner-scoped handlers: 401 without a
      session, 404 (with the handler's own message) without exactly one
      profile row for the user. */
  function Authorize(auth: Auth, profiles: Table, notFound: string): (g: Gate)
    ensures auth.Anonymous? ==> g == Denied(NotAuthenticated)
    ensures auth.SignedIn? && ProfileOf(profiles, auth.userId).None? ==> g == Denied(Response(404, Failure(notFound)))
    ensures g.Granted? <==> auth.SignedIn? && ProfileOf(profiles, auth.userId).Some?
    ensures g.Granted? ==> g.profile in profiles && "user_id" in g.profile && g.profile["user_id"] == JStr(auth.userId)
  {
    match auth
    case Anonymous => Denied(NotAuthenticated)
    case SignedIn(uid) =>
      match ProfileOf(profiles, uid)
      case None => Denied(Response(404, Failure(notFound)))
      case Some(p) =>
        assert EqHolds(p, [("user_id", JStr(uid))][0].0, [("user_id", JStr(uid))][0].1);
        Granted(p)
  }

  /** The owner id a granted caller's queries are scoped to. */
  function OwnerOf(auth: Auth, profiles: Table): Option<Json> {
    match auth
    case Anonymous => None
    case SignedIn(uid) =>
      match ProfileOf(profiles, uid)
      case None => None
      case Some(p) => Some(IdOf(p))
  }

  /** The outcome of JavaScript's `Number(...)` on a query parameter;
      an absent parameter is `Number(null)`, that is `Finite(0)`. */
  datatype Number = NaN | Finite(v: int)

  /** `const limit = Number(param) || undefined; if (limit) query.limit(limit)`:
      NaN and 0 mean no limit. */
  function ApplyLimit(rows: seq<Row>, limit: Number): (r: seq<Row>)
    ensures limit.NaN? || limit.v == 0 ==> r == rows
    ensures limit.Finite? && limit.v > 0 ==> |r| == (if limit.v < |rows| then limit.v else |rows|)
    ensures |r| <= |rows| && forall i :: 0 <= i < |r| ==> r[i] == rows[i]
  {
    match limit
    case Finite(n) => if n > 0 then Seqs.Take(rows, n) else rows
    case NaN => rows
  }

  /** Every listed row is a projection of a table row the filter admits. */
  ghost predicate ListsOnly(rows: seq<Row>, t: Table, f: Filter, columns: Option<set<string>>) {
    forall row :: row in rows ==> exists j :: 0 <= j < |t| && Matches(t[j], f) && row == Picked(t[j], columns)
  }

  /** A listing holds exactly the admitted rows, projected, each as many
      times as the table stores it. */
  ghost predicate ListsExactly(rows: seq<Row>, t: Table, f: Filter, columns: Option<set<string>>) {
    multiset(rows) == multiset(Project(Where(t, f), columns))
  }

  /** A listing cut by `limit(n)` after a newest-first ordering: only
      admitted rows, and no admitted row left out is newer than a listed
      one. */
  ghost predicate ListsNewest(rows: seq<Row>, t: Table, f: Filter, columns: Option<set<string>>) {
    && multiset(rows) <= multiset(Project(Where(t, f), columns))
    && forall x, i :: x in multiset(Project(Where(t, f), columns)) - multiset(rows) && 0 <= i < |rows| ==>
         Seqs.NewerOrSame(Stamp(rows[i]), Stamp(x))
  }

  /** A prefix of a query result still lists only admitted rows in
      newest-first order, and it lists the newest of them. */
  lemma PrefixOfQuery(rows: seq<Row>, r: seq<Row>, t: Table, f: Filter, columns: Option<set<string>>)
    requires ListsOnly(rows, t, f, columns) && ListsExactly(rows, t, f, columns) && Seqs.SortedNewest(rows, Stamp)
    requires |r| <= |rows| && forall i :: 0 <= i < |r| ==> r[i] == rows[i]
    ensures ListsOnly(r, t, f, columns) && Seqs.SortedNewest(r, Stamp)
    ensures ListsNewest(r, t, f, columns)
  {
    forall row | row in r ensures row in rows {
      var i :| 0 <= i < |r| && r[i] == row;
      assert rows[i] == row;
    }
    var k := |r|;
    assert r == rows[..k];
    Seqs.CutLeavesOlder(rows, k, Stamp);
  }

  /** The table after a filtered update: same length, matching rows take
      `fields`, all other rows unchanged. */
  ghost predicate ScopedUpdate(before: Table, after: Table, f: Filter, fields: Row) {
    && |after| == |before|
    && forall i :: 0 <= i < |before| ==> after[i] == if Matches(before[i], f) then before[i] + fields else before[i]
  }

  /** The table after a filtered delete: no matching row is left, every
      other row survives in its order, nothing new appears, and as many
      rows are gone as the filter matched. */
  ghost predicate ScopedDelete(before: Table, after: Table, f: Filter) {
    && (forall row :: row in after ==> row in before && !Matches(row, f))
    && (forall i :: 0 <= i < |before| && !Matches(before[i], f) ==> before[i] in after)
    && Seqs.IsSubsequence(after, before)
    && |after| + |Where(before, f)| == |before|
  }

  lemma DeleteWhereIsScoped(t: Table, f: Filter)
    ensures ScopedDelete(t, DeleteWhere(t, f), f)
  {
    DeleteWhereKeepsOrder(t, f);
    DeletePartitions(t, f);
  }
}

=== FILE: bottom_nav.dfy ===
/** The public bottom bar (`src/components/BottomNav.tsx`): four fixed
    links, hidden on the dashboard and on the login and registration
    pages, with the link for the current path highlighted. */
module BottomNav {
  import opened Wrappers
  import Text

  /** A link and its label. */
  datatype Item = Item(href: string, title: string)

  const Items: seq<Item> := [Item("/", "Inicio"), Item("/orders", "Pedidos"), Item("/catalog", "Catálogo"), Item("/profile", "Perfil")]

  /** The bar is not rendered under "/dashboard" (any path with that
      prefix) nor on "/login" and "/register". */
  predicate Hidden(pathname: string) {
    Text.StartsWith(pathname, "/dashboard") || pathname == "/login" || pathname == "/register"
  }

  /** What is rendered for the router's pathname (absent before the router
      knows it, read then as "/"): nothing, or each link with whether it is
      highlighted. */
  function Render(pathname: Option<string>): (bar: Option<seq<(Item, bool)>>)
    ensures bar.None? <==> Hidden(pathname.GetOr("/"))
    ensures bar.Some? ==> |bar.value| == |Items|
    ensures bar.Some? ==> forall i :: 0 <= i < |Items| ==> bar.value[i] == (Items[i], Items[i].href == pathname.GetOr("/"))
  {
    var p := pathname.GetOr("/");
    if Hidden(p) then None
    else Some(seq(|Items|, i requires 0 <= i < |Items| => (Items[i], Items[i].href == p)))
  }

  /** The links are pairwise different, so at most one is highlighted. */
  lemma AtMostOneActive(pathname: Option<string>)
    requires Render(pathname).Some?
    ensures var bar := Render(pathname).value;
      forall i, j :: 0 <= i < |bar| && 0 <= j < |bar| && bar[i].1 && bar[j].1 ==> i == j
  {
    forall i, j | 0 <= i < j < |Items| ensures Items[i].href != Items[j].href {
      assert |Items[0].href| == 1 && |Items[1].href| == 7 && |Items[2].href| == 8 && |Items[3].href| == 8;
      assert Items[2].href[1] != Items[3].href[1];
    }
  }

  /** Before the router knows the path the bar is shown with "Inicio"
      highlighted. */
  lemma UnknownPathShowsHome()
    ensures Render(None).Some?
    ensures Render(None).value[0] == (Items[0], true)
    ensures forall i :: 1 <= i < |Items| ==> !Render(None).value[i].1
  {
    assert !Text.StartsWith("/", "/dashboard");
    assert forall i :: 1 <= i < |Items| ==> |Items[i].href| > 1;
  }

  /** The hiding test is a bare prefix test: "/dashboards" is hidden too,
      while "/login/" is shown. */
  lemma HidingIsPrefixOnlyForDashboard()
    ensures Hidden("/dashboards")
    ensures !Hidden("/login/")
  {
    assert "/dashboards"[..|"/dashboard"|] == "/dashboard";
    assert !Text.StartsWith("/login/", "/dashboard") by {
      assert "/login/"[1] != "/dashboard"[1];
    }
  }
}

=== FILE: branch_form.dfy ===
/** The supplier's branch form (`src/app/dashboard/proveedor/sucursales/page.tsx`):
    one form that creates a branch, or edits the branch it was loaded
    with, through the supplier branch endpoint. */
module BranchForm {
  import opened Wrappers
  import opened Json
  import opened Api
  import Text
  import SupplierBranchesApi

  const Required := "Nombre y ciudad son obligatorios"
  const SaveFallback := "No se pudo guardar"

  /** `initialForm`: the seven text fields, empty. */
  const Initial: Row := map["nombre" := JStr(""), "direccion" := JStr(""), "ciudad" := JStr(""),
                            "estado" := JStr(""), "pais" := JStr(""), "telefono" := JStr(""), "horario" := JStr("")]

  /** The page's state: the form, the branch being edited (if any), the
      saving flag and the error shown. */
  datatype State = State(form: Row, editingId: Option<Json>, saving: bool, error: Option<string>)

  datatype Verb = Post | Patch

  /** A request to the branch endpoint. */
  datatype Request = Request(verb: Verb, body: Row)

  /** `handleChange`: only the named field changes. */
  function HandleChange(st: State, field: string, value: string): (r: State)
    ensures r.form.Keys == st.form.Keys + {field} && r.form[field] == JStr(value)
    ensures forall k :: k in st.form && k != field ==> r.form[k] == st.form[k]
    ensures r.editingId == st.editingId && r.saving == st.saving && r.error == st.error
  {
    st.(form := st.form[field := JStr(value)])
  }

  /** `resetForm`: the empty form, and nothing being edited. */
  function Reset(st: State): (r: State)
    ensures r.form == Initial && r.editingId.None?
    ensures r.saving == st.saving && r.error == st.error
  {
    st.(form := Initial, editingId := None)
  }

  /** `handleEdit`: edit the given branch; its fields overlay the empty
      form. */
  function HandleEdit(st: State, branch: Row): (r: State)
    ensures r.editingId == (if "id" in branch && branch["id"] != JNull then Some(branch["id"]) else None)
    ensures r.form.Keys == Initial.Keys + branch.Keys
    ensures forall k :: k in branch ==> r.form[k] == branch[k]
    ensures forall k :: k in Initial && k !in branch ==> r.form[k] == JStr("")
  {
    st.(editingId := if "id" in branch && branch["id"] != JNull then Some(branch["id"]) else None,
        form := Initial + branch)
  }

  /** The text of a form field; the form only ever holds text in the
      fields the guard reads. */
  function TextOf(form: Row, key: string): string {
    if key in form && form[key].JStr? then form[key].s else ""
  }

  /** The submit guard: name and city must be non-blank. */
  predicate Accepted(form: Row) {
    Text.Trim(TextOf(form, "nombre")) != "" && Text.Trim(TextOf(form, "ciudad")) != ""
  }

  /** The request a submit sends: PATCH with the edited branch's id when
      one is being edited, POST with the form otherwise. */
  function RequestFor(st: State): (req: Request)
    ensures req.verb == Patch <==> Truthy(st.editingId)
    ensures req.verb == Patch ==> req.body == st.form["id" := st.editingId.value]
    ensures req.verb == Post ==> req.body == st.form
  {
    if Truthy(st.editingId) then Request(Patch, st.form["id" := st.editingId.value]) else Request(Post, st.form)
  }

  /** `handleSubmit`: a refused form shows the error and sends nothing;
      otherwise the request is sent, and `answer` is the endpoint's reply
      (`None` when it succeeded, else its error text). A success resets
      the form; saving always ends false. */
  function Submit(st: State, answer: Option<string>): (out: (Option<Request>, State))
    ensures !Accepted(st.form) ==> out == (None, st.(saving := false, error := Some(Required)))
    ensures Accepted(st.form) ==> out.0 == Some(RequestFor(st))
    ensures Accepted(st.form) && answer.None? ==> out.1 == State(Initial, None, false, None)
    ensures Accepted(st.form) && answer.Some? ==>
      out.1 == st.(saving := false, error := Some(if answer.value != "" then answer.value else SaveFallback))
  {
    if !Accepted(st.form) then (None, st.(saving := false, error := Some(Required)))
    else
      match answer
      case None => (Some(RequestFor(st)), Reset(st.(saving := false, error := None)))
      case Some(message) => (Some(RequestFor(st)), st.(saving := false, error := Some(if message != "" then message else SaveFallback)))
  }

  /** A form the page accepts passes the endpoint's own check on name and
      city. */
  lemma AcceptedFormPassesServerCheck(form: Row)
    requires Accepted(form)
    ensures Truthy(Field(form, "nombre")) && Truthy(Field(form, "ciudad"))
  {
    assert TextOf(form, "nombre") != "" && TextOf(form, "ciudad") != "";
  }

  /** Editing then saving targets exactly the edited branch: the PATCH
      body carries its id, and a successful PATCH writes the form onto the
      caller's branch with that id and nowhere else. */
  lemma SaveTargetsEditedBranch(st: State, auth: Auth, db: Db, dbError: Option<string>)
    requires Accepted(st.form) && Truthy(st.editingId)
    ensures var req := RequestFor(st);
      && req.verb == Patch
      && Truthy(Field(req.body, "id")) && req.body["id"] == st.editingId.value
      && req.body - {"id"} == st.form - {"id"}
    ensures var out := SupplierBranchesApi.Patch(RequestFor(st).body, auth, db, dbError);
      out.response.status == 200 ==>
        ScopedUpdate(db.sucursales, out.db.sucursales,
          SupplierBranchesApi.OwnedItem(st.editingId.value, IdOf(Authorize(auth, db.proveedores, SupplierBranchesApi.NotFound).profile)),
          st.form - {"id"})
  {
    var body := RequestFor(st).body;
    assert body - {"id"} == st.form - {"id"};
  }
}

=== FILE: catalog_editor.dfy ===
/** The supplier's catalogue editor (`src/app/dashboard/proveedor/catalog/page.tsx`):
    a create form with typed fields, and per-product rows whose price,
    stock and description are edited in place and saved with PATCH. */
module CatalogEditor {
  import opened Wrappers
  import opened Json
  import opened Api
  import Text
  import SupplierCatalogApi

  /** A product as the page holds it. Numbers are what `Number(...)`
      produced; `stock` is `None` for null. */
  datatype Producto = Producto(
    id: Option<string>, nombre: string, descripcion: Option<string>,
    precio: Number, stock: Option<Number>, imagenUrl: Option<string>, createdAt: Option<string>)

  /** The keys of `Producto`, as `handleChange` receives them. */
  datatype FieldName = Id | Nombre | Descripcion | Precio | Stock | ImagenUrl | CreatedAt

  const Required := "Nombre y precio son obligatorios"

  /** `initialProducto`. */
  const Initial := Producto(None, "", Some(""), Finite(0), None, Some(""), None)

  /** `handleChange`: the price is parsed, the stock is parsed unless the
      input is empty (then null), every other field takes the text as it
      is. `parse` stands for `Number(...)`. */
  function HandleChange(form: Producto, field: FieldName, value: string, parse: string -> Number): (r: Producto)
    ensures field == Precio ==> r == form.(precio := parse(value))
    ensures field == Stock ==> r == form.(stock := if value == "" then None else Some(parse(value)))
    ensures field == Nombre ==> r == form.(nombre := value)
    ensures field == Descripcion ==> r == form.(descripcion := Some(value))
    ensures field == Id ==> r == form.(id := Some(value))
    ensures field == ImagenUrl ==> r == form.(imagenUrl := Some(value))
    ensures field == CreatedAt ==> r == form.(createdAt := Some(value))
  {
    match field
    case Precio => form.(precio := parse(value))
    case Stock => form.(stock := if value != "" then Some(parse(value)) else None)
    case Nombre => form.(nombre := value)
    case Descripcion => form.(descripcion := Some(value))
    case Id => form.(id := Some(value))
    case ImagenUrl => form.(imagenUrl := Some(value))
    case CreatedAt => form.(createdAt := Some(value))
  }

  /** `resetForm`. */
  function ResetForm(form: Producto): (r: Producto)
    ensures r == Initial
  {
    Initial
  }

  /** A number is truthy unless it is NaN or 0. */
  predicate TruthyNumber(n: Number) {
    n.Finite? && n.v != 0
  }

  /** The submit guard: the error shown, if the form is refused. */
  function SubmitError(form: Producto): (err: Option<string>)
    ensures err.None? <==> !Text.Blank(form.nombre) && TruthyNumber(form.precio)
    ensures err.Some? ==> err.value == Required
  {
    if Text.Trim(form.nombre) == "" || !TruthyNumber(form.precio) then Some(Required) else None
  }

  /** A number as `JSON.stringify` writes it: NaN becomes null. */
  function NumberJson(n: Number): (j: Json)
    ensures n.Finite? ==> j == JNum(n.v)
    ensures n.NaN? ==> j == JNull
  {
    match n
    case NaN => JNull
    case Finite(v) => JNum(v)
  }

  /** `JSON.stringify(form)`: undefined fields are left out, a null stock is
      written as null. */
  function CreateBody(form: Producto): (body: Row)
    ensures "nombre" in body && body["nombre"] == JStr(form.nombre)
    ensures "precio" in body && body["precio"] == NumberJson(form.precio)
    ensures "id" in body <==> form.id.Some?
  {
    (if form.id.Some? then map["id" := JStr(form.id.value)] else map[])
    + map["nombre" := JStr(form.nombre), "precio" := NumberJson(form.precio),
          "stock" := if form.stock.Some? then NumberJson(form.stock.value) else JNull]
    + (if form.descripcion.Some? then map["descripcion" := JStr(form.descripcion.value)] else map[])
    + (if form.imagenUrl.Some? then map["imagen_url" := JStr(form.imagenUrl.value)] else map[])
    + (if form.createdAt.Some? then map["created_at" := JStr(form.createdAt.value)] else map[])
  }

  /** A form the page accepts also passes the catalogue endpoint's own
      field check, so its POST is never answered with that 400. */
  lemma AcceptedFormPassesServerCheck(form: Producto)
    requires SubmitError(form).None?
    ensures var body := CreateBody(form);
      Truthy(Field(body, "nombre")) && Field(body, "precio").Some? && body["precio"].JNum?
  {
    assert form.nombre != "" by {
      assert !Text.Blank(form.nombre);
    }
  }

  /** The page is stricter than the endpoint: a price of 0 is refused here
      although the endpoint would accept it. */
  lemma ZeroPriceRefusedOnlyHere(nombre: string)
    requires !Text.Blank(nombre)
    ensures SubmitError(Initial.(nombre := nombre)).Some?
    ensures var body := CreateBody(Initial.(nombre := nombre));
      Truthy(Field(body, "nombre")) && body["precio"].JNum?
  {
    assert nombre != "";
  }

  /** The fields a product row can edit in place. */
  datatype RowField = RowPrecio | RowStock | RowDescripcion

  /** One in-place edit of a listed product. */
  function EditOne(p: Producto, field: RowField, value: string, parse: string -> Number): Producto {
    match field
    case RowPrecio => p.(precio := parse(value))
    case RowStock => p.(stock := if value != "" then Some(parse(value)) else None)
    case RowDescripcion => p.(descripcion := Some(value))
  }

  /** An in-place edit: `prev.map(p => p.id === producto.id ? edited : p)`. */
  function EditRow(productos: seq<Producto>, id: Option<string>, field: RowField, value: string,
                   parse: string -> Number): (r: seq<Producto>)
    ensures |r| == |productos|
    ensures forall i :: 0 <= i < |productos| && productos[i].id != id ==> r[i] == productos[i]
    ensures forall i :: 0 <= i < |productos| && productos[i].id == id ==>
      r[i] == EditOne(productos[i], field, value, parse)
  {
    seq(|productos|, i requires 0 <= i < |productos| =>
      if productos[i].id == id then EditOne(productos[i], field, value, parse) else productos[i])
  }

  /** An in-place edit changes only the edited field of a matching row:
      name, id, image and timestamps are kept. */
  lemma EditRowKeepsOtherFields(productos: seq<Producto>, id: Option<string>, field: RowField, value: string,
                                parse: string -> Number, i: int)
    requires 0 <= i < |productos|
    ensures var q := EditRow(productos, id, field, value, parse)[i];
      var p := productos[i];
      && q.id == p.id && q.nombre == p.nombre && q.imagenUrl == p.imagenUrl && q.createdAt == p.createdAt
      && (field != RowPrecio ==> q.precio == p.precio)
      && (field != RowStock ==> q.stock == p.stock)
      && (field != RowDescripcion ==> q.descripcion == p.descripcion)
  {
  }

  /** `handleActualizar`'s body: id, price, stock and description, or no
      request at all when the product has no id. */
  function UpdatePayload(p: Producto): (body: Option<Row>)
    ensures body.None? <==> p.id.None? || p.id.value == ""
    ensures body.Some? ==> body.value.Keys <= {"id", "precio", "stock", "descripcion"}
    ensures body.Some? ==> "id" in body.value && body.value["id"] == JStr(p.id.value)
    ensures body.Some? ==> "precio" in body.value && body.value["precio"] == NumberJson(p.precio)
  {
    if p.id.None? || p.id.value == "" then None
    else
      Some(map["id" := JStr(p.id.value), "precio" := NumberJson(p.precio),
               "stock" := if p.stock.Some? then NumberJson(p.stock.value) else JNull]
           + (if p.descripcion.Some? then map["descripcion" := JStr(p.descripcion.value)] else map[]))
  }

  /** Saving a row through the catalogue endpoint can never rewrite a
      product's owner or seller type: the body carries neither column. */
  lemma SavedRowKeepsOwner(p: Producto, auth: Auth, db: Db, dbError: Option<string>, i: int)
    requires UpdatePayload(p).Some?
    requires SupplierCatalogApi.Patch(UpdatePayload(p).value, auth, db, dbError).response.status == 200
    requires 0 <= i < |db.productos|
    ensures var after := SupplierCatalogApi.Patch(UpdatePayload(p).value, auth, db, dbError).db.productos;
      && (forall k :: k in {"vendedor_id", "tipo_vendedor"} ==>
            (k in after[i] <==> k in db.productos[i]) && (k in after[i] ==> after[i][k] == db.productos[i][k]))
  {
    var body := UpdatePayload(p).value;
    var w := body - {"id"};
    assert "vendedor_id" !in w && "tipo_vendedor" !in w;
  }
}

=== FILE: cookies.dfy ===
/** The browser's cookie store for the application's origin, as the
    storage model of RFC 6265 (section 5.3) describes it, reduced to what
    the application uses: cookies on path "/" of one host, told apart by
    name. Cookies arrive either from a `Set-Cookie` header or from a script
    assigning `document.cookie`; scripts read back `document.cookie`, which
    lists the cookies that are not http-only (section 5.4). */
module Cookies {
  import opened Wrappers
  import Seqs
  import Text

  datatype Stored = Stored(value: string, httpOnly: bool)

  type Jar = map<string, Stored>

  /** The attributes of a `Set-Cookie` header. */
  datatype SetCookie = SetCookie(
    name: string,
    value: string,
    httpOnly: bool,
    secure: bool,
    sameSite: Option<string>,
    maxAge: Option<int>,
    path: string)

  /** A Max-Age of zero or less sets the expiry to the earliest
      representable time (section 5.2.2), so the cookie is removed at once. */
  predicate Expires(sc: SetCookie) {
    sc.maxAge.Some? && sc.maxAge.value <= 0
  }

  /** Storing a cookie received in a response header: it replaces any
      cookie of the same name, or removes it when it is already expired. */
  function ReceiveHttp(jar: Jar, sc: SetCookie): (r: Jar)
    ensures sc.name in r <==> !Expires(sc)
    ensures sc.name in r ==> r[sc.name] == Stored(sc.value, sc.httpOnly)
    ensures forall n :: n != sc.name ==> (n in r <==> n in jar) && (n in r ==> r[n] == jar[n])
  {
    if Expires(sc) then jar - {sc.name} else jar[sc.name := Stored(sc.value, sc.httpOnly)]
  }

  /** Storing a cookie a script assigned to `document.cookie`: such a
      cookie is never http-only, and it is ignored entirely when it would
      replace an http-only cookie (section 5.3, step 11). */
  function ReceiveScript(jar: Jar, name: string, value: string, expired: bool): (r: Jar)
    ensures name in jar && jar[name].httpOnly ==> r == jar
    ensures !(name in jar && jar[name].httpOnly) ==>
      (name in r <==> !expired) && (name in r ==> r[name] == Stored(value, false))
    ensures forall n :: n != name ==> (n in r <==> n in jar) && (n in r ==> r[n] == jar[n])
  {
    if name in jar && jar[name].httpOnly then jar
    else if expired then jar - {name}
    else jar[name := Stored(value, false)]
  }

  /** A cookie name: non-empty, with no ';' and no '='. */
  predicate Token(s: string) {
    s != "" && !Text.HasChar(s, ';') && !Text.HasChar(s, '=')
  }

  /** Every stored name is a token and no value holds a ';'. */
  predicate WellFormed(jar: Jar) {
    forall n :: n in jar ==> Token(n) && !Text.HasChar(jar[n].value, ';')
  }

  lemma ReceiveScriptKeepsWellFormed(jar: Jar, name: string, value: string, expired: bool)
    requires WellFormed(jar) && Token(name) && !Text.HasChar(value, ';')
    ensures WellFormed(ReceiveScript(jar, name, value, expired))
  {
  }

  /** `entries` lists the cookies `document.cookie` shows, each once, in
      whatever order the browser chooses. */
  predicate Listed(jar: Jar, entries: seq<(string, string)>) {
    && (forall i :: 0 <= i < |entries| ==>
          entries[i].0 in jar && !jar[entries[i].0].httpOnly && jar[entries[i].0].value == entries[i].1)
    && (forall n :: n in jar && !jar[n].httpOnly ==> exists i :: 0 <= i < |entries| && entries[i].0 == n)
    && (forall i, j :: 0 <= i < j < |entries| ==> entries[i].0 != entries[j].0)
  }

  function Pair(e: (string, string)): string {
    e.0 + "=" + e.1
  }

  function Pairs(entries: seq<(string, string)>): (r: seq<string>)
    ensures |r| == |entries|
    ensures forall i :: 0 <= i < |entries| ==> r[i] == Pair(entries[i])
  {
    seq(|entries|, i requires 0 <= i < |entries| => Pair(entries[i]))
  }

  /** The `document.cookie` string: "name=value" pairs joined by "; ". */
  function DocumentCookie(entries: seq<(string, string)>): string {
    Text.Join(Pairs(entries), "; ")
  }

  function RowFor(name: string): string -> bool {
    row => Text.StartsWith(row, name + "=")
  }

  /** `document.cookie.split("; ").find((row) => row.startsWith(name + "="))?.split("=")[1]`:
      the text between the first and second '=' of the first matching entry. */
  function ReadCookie(cookie: string, name: string): (r: Option<string>)
    ensures r.Some? ==> !Text.HasChar(r.value, '=')
  {
    match Seqs.Find(Text.Split(cookie, "; "), RowFor(name))
    case None => None
    case Some(row) =>
      var parts := Text.Split(row, "=");
      if |parts| >= 2 then
        SplitPartsHaveNoSeparator(row, "=");
        Some(parts[1])
      else None
  }

  lemma {:induction false} SplitPartsHaveNoSeparator(s: string, sep: string)
    requires |sep| == 1
    ensures forall k :: 0 <= k < |Text.Split(s, sep)| ==> !Text.HasChar(Text.Split(s, sep)[k], sep[0])
    decreases |s|
  {
    match Text.IndexFrom(s, sep, 0)
    case None =>
      forall i | 0 <= i < |s| ensures s[i] != sep[0] {
        assert !Text.OccursAt(s, sep, i);
        assert s[i..i + 1] == [s[i]];
      }
    case Some(i) =>
      forall j | 0 <= j < i ensures s[..i][j] != sep[0] {
        assert !Text.OccursAt(s, sep, j);
        assert s[j..j + 1] == [s[j]];
      }
      SplitPartsHaveNoSeparator(s[i + |sep|..], sep);
  }

  /** The entry of a token named `n` starts with "name=" only when `n` is
      `name`. */
  lemma PairStartsWithName(n: string, v: string, name: string)
    requires Token(n) && Token(name)
    ensures Text.StartsWith(Pair((n, v)), name + "=") <==> n == name
  {
    var row := Pair((n, v));
    var pre := name + "=";
    var L := |name|;
    if n == name {
      assert row[..|pre|] == pre;
    } else if |pre| <= |row| {
      if |n| > L {
        assert row[..|pre|][L] == n[L];
        assert n[L] != '=';
        assert pre[L] == '=';
      } else if |n| < L {
        assert row[..|pre|][|n|] == '=';
        assert name[|n|] != '=';
        assert pre[|n|] == name[|n|];
      } else {
        assert row[..|pre|][..L] == n;
        assert pre[..L] == name;
      }
    }
  }

  lemma RowsOfDocumentCookie(jar: Jar, entries: seq<(string, string)>)
    requires WellFormed(jar) && Listed(jar, entries)
    ensures Text.Split(DocumentCookie(entries), "; ") == Pairs(entries) || |entries| == 0
  {
    if |entries| > 0 {
      var pairs := Pairs(entries);
      forall k | 0 <= k < |pairs| ensures !Text.HasChar(pairs[k], ';') {
        var e := entries[k];
        assert !Text.HasChar(e.0, ';') && !Text.HasChar(e.1, ';');
        forall i | 0 <= i < |pairs[k]| ensures pairs[k][i] != ';' {
          if i < |e.0| {
            assert pairs[k][i] == e.0[i];
          } else if i > |e.0| {
            assert pairs[k][i] == e.1[i - |e.0| - 1];
          }
        }
      }
      Text.SplitJoin(pairs, "; ");
    }
  }

  lemma EmptyCookieReadsNothing(name: string)
    ensures ReadCookie("", name) == None
  {
    assert Text.IndexFrom("", "; ", 0) == None;
    assert Text.Split("", "; ") == [""];
    assert !RowFor(name)("");
  }

  /** The row the reader finds is the named cookie's own pair. */
  lemma FindListed(jar: Jar, entries: seq<(string, string)>, name: string)
    requires WellFormed(jar) && Listed(jar, entries) && Token(name)
    ensures Seqs.Find(Pairs(entries), RowFor(name)) ==
      if name in jar && !jar[name].httpOnly then Some(Pair((name, jar[name].value))) else None
  {
    var rows := Pairs(entries);
    forall i | 0 <= i < |rows| ensures RowFor(name)(rows[i]) <==> entries[i].0 == name {
      PairStartsWithName(entries[i].0, entries[i].1, name);
    }
    var found := Seqs.Find(rows, RowFor(name));
    if name in jar && !jar[name].httpOnly {
      var i :| 0 <= i < |entries| && entries[i].0 == name;
      assert RowFor(name)(rows[i]);
      var k :| 0 <= k < |rows| && rows[k] == found.value && RowFor(name)(rows[k]);
      assert entries[k].0 == name;
      assert entries[k].1 == jar[name].value;
    }
  }

  lemma SplitPair(name: string, v: string)
    requires Token(name) && !Text.HasChar(v, '=')
    ensures Text.Split(Pair((name, v)), "=") == [name, v]
  {
    assert Text.Join([name, v], "=") == Pair((name, v)) by {
      assert [name, v][1..] == [v];
    }
    Text.SplitJoin([name, v], "=");
  }

  /** Reading a cookie back through `document.cookie` gives its stored
      value exactly when it is visible to scripts and its value holds no
      '='; an http-only or absent cookie reads as nothing. */
  lemma ReadListedCookie(jar: Jar, entries: seq<(string, string)>, name: string)
    requires WellFormed(jar) && Listed(jar, entries) && Token(name)
    requires name in jar && !jar[name].httpOnly ==> !Text.HasChar(jar[name].value, '=')
    ensures ReadCookie(DocumentCookie(entries), name) ==
      if name in jar && !jar[name].httpOnly then Some(jar[name].value) else None
  {
    if |entries| == 0 {
      assert DocumentCookie(entries) == "";
      EmptyCookieReadsNothing(name);
    } else {
      RowsOfDocumentCookie(jar, entries);
      FindListed(jar, entries, name);
      if name in jar && !jar[name].httpOnly {
        SplitPair(name, jar[name].value);
      }
    }
  }
}

=== FILE: dashboard_nav.dfy ===
/** The dashboard navigation (`src/components/DashboardNav.tsx`): the role
    read from the `fp-role` cookie picks one of four five-item menus, the
    item whose link is the current path is highlighted, and the brand link
    leads to the role's dashboard. */
module DashboardNav {
  import opened Wrappers
  import opened Json
  import opened Cookies
  import Text
  import SessionRoute

  const CookieName := "fp-role"
  const DefaultRole := "floreria"

  /** A menu entry: its link and its label. */
  datatype Item = Item(href: string, title: string)

  /** The role the effect stores: the cookie's value, or "floreria" when
      the cookie is missing or empty. */
  function RoleOf(documentCookie: string): (role: string)
    ensures role != ""
    ensures var c := ReadCookie(documentCookie, CookieName);
      role == if c.Some? && c.value != "" then c.value else DefaultRole
  {
    match ReadCookie(documentCookie, CookieName)
    case Some(v) => if v != "" then v else DefaultRole
    case None => DefaultRole
  }

  /** The shape every menu shares: the role's dashboard, a shop page
      (`shop`, labelled `shopLabel`), orders, flash requests and profile. */
  function MenuOf(role: string, shop: string, shopLabel: string): seq<Item> {
    var base := "/dashboard/" + role;
    [Item(base, "Inicio"), Item(base + "/" + shop, shopLabel), Item(base + "/pedidos", "Pedidos"),
     Item(base + "/flash", "Flash"), Item(base + "/perfil", "Perfil")]
  }

  /** `roleNavs[role]`: florists and agents shop in the store, suppliers
      and producers manage a catalogue; no other role has a menu. */
  function Menu(role: string): (m: Option<seq<Item>>)
    ensures m.Some? <==> role in {"floreria", "proveedor", "agente", "productor"}
  {
    if role == "floreria" || role == "agente" then Some(MenuOf(role, "tienda", "Tienda"))
    else if role == "proveedor" || role == "productor" then Some(MenuOf(role, "catalogo", "Catálogo"))
    else None
  }

  /** `roleNavs[role] || roleNavs["floreria"]`. */
  function NavItems(role: string): (items: seq<Item>)
    ensures Menu(role).Some? ==> items == Menu(role).value
    ensures Menu(role).None? ==> items == Menu(DefaultRole).value
  {
    match Menu(role)
    case Some(m) => m
    case None => MenuOf(DefaultRole, "tienda", "Tienda")
  }

  /** An item is highlighted when the current path is its link exactly. */
  predicate Active(pathname: string, item: Item) {
    pathname == item.href
  }

  /** The brand link: `/dashboard/${role || "floreria"}`. */
  function Brand(role: string): (href: string)
    ensures role != "" ==> href == "/dashboard/" + role
    ensures role == "" ==> href == "/dashboard/" + DefaultRole
  {
    "/dashboard/" + if role == "" then DefaultRole else role
  }

  /** Appending to one prefix keeps different suffixes different. */
  lemma SuffixesDiffer(base: string, x: string, y: string)
    requires x != y
    ensures base + x != base + y
  {
    assert (base + x)[|base|..] == x;
    assert (base + y)[|base|..] == y;
  }

  /** Every menu has five items with pairwise different links; the first is
      the role's dashboard and every link lies under it. */
  lemma MenuShape(role: string)
    requires Menu(role).Some?
    ensures var m := Menu(role).value;
      && |m| == 5
      && m[0].href == "/dashboard/" + role
      && (forall i :: 0 <= i < 5 ==> Text.StartsWith(m[i].href, "/dashboard/" + role))
      && (forall i, j :: 0 <= i < j < 5 ==> m[i].href != m[j].href)
  {
    var base := "/dashboard/" + role;
    var shop := if role == "floreria" || role == "agente" then "tienda" else "catalogo";
    var suffixes := ["", "/" + shop, "/pedidos", "/flash", "/perfil"];
    var m := Menu(role).value;
    forall i | 0 <= i < 5 ensures m[i].href == base + suffixes[i] && Text.StartsWith(m[i].href, base) {
      if i == 0 {
        assert base + "" == base;
      } else if i == 1 {
        assert base + "/" + shop == base + ("/" + shop);
      }
      assert (base + suffixes[i])[..|base|] == base;
    }
    forall i, j | 0 <= i < j < 5 ensures m[i].href != m[j].href {
      assert |suffixes[0]| == 0 && |suffixes[2]| == 8 && |suffixes[3]| == 6 && |suffixes[4]| == 7;
      assert |suffixes[1]| == 7 || |suffixes[1]| == 9;
      assert suffixes[1][1] != suffixes[4][1];
      assert suffixes[i] != suffixes[j];
      SuffixesDiffer(base, suffixes[i], suffixes[j]);
    }
  }

  /** At most one item of the shown menu is highlighted, whatever the path. */
  lemma AtMostOneActive(role: string, pathname: string)
    ensures var m := NavItems(role);
      forall i, j :: 0 <= i < |m| && 0 <= j < |m| && Active(pathname, m[i]) && Active(pathname, m[j]) ==> i == j
  {
    if Menu(role).Some? {
      MenuShape(role);
    } else {
      MenuShape(DefaultRole);
    }
  }

  /** A role with no menu, such as "admin", gets the florist menu while the
      brand still links to its own dashboard. */
  lemma AdminGetsFloristMenu()
    ensures NavItems("admin") == Menu(DefaultRole).value
    ensures Brand("admin") == "/dashboard/admin"
    ensures NavItems("admin")[0].href != Brand("admin")
  {
    MenuShape(DefaultRole);
    assert "/dashboard/floreria"[11] != "/dashboard/admin"[11];
  }

  /** The role cookie issued by the session endpoint is http-only, so this
      menu never sees it: a browser whose only role cookie came from that
      endpoint always shows the florist menu. */
  lemma IssuedRoleShowsFloristMenu(jar: Jar, body: Option<Row>, nodeEnv: string, entries: seq<(string, string)>)
    requires SessionRoute.RoleOf(body).Some?
    requires WellFormed(jar) && !Text.HasChar(SessionRoute.RoleOf(body).value, ';')
    requires Listed(SessionRoute.Apply(jar, SessionRoute.Post(body, nodeEnv)), entries)
    ensures RoleOf(DocumentCookie(entries)) == DefaultRole
    ensures NavItems(RoleOf(DocumentCookie(entries))) == Menu(DefaultRole).value
  {
    SessionRoute.IssuedRoleIsHiddenFromScripts(jar, body, nodeEnv, entries);
  }
}

=== FILE: edge.dfy ===
/** Where a request or a page goes next: an edge middleware lets a request
    through or redirects it; a page's router stays, pushes a new entry, or
    replaces the current one. */
module Edge {
  import opened Wrappers

  datatype Decision = Next | Redirect(target: string)

  /** `router.push` / `router.replace`, or no navigation at all. */
  datatype Nav = Stay | Push(path: string) | Replace(path: string)

  /** A cookie value used as a condition: absent and empty both count as
      missing. */
  predicate Present(cookie: Option<string>) {
    cookie.Some? && cookie.value != ""
  }
}

=== FILE: florist_branches_api.dfy ===
/** The florist's branches endpoint (`/api/sucursales`): GET and POST are
    scoped to the caller's florist row; DELETE removes any branch by id
    without consulting the session. */
module FloristBranchesApi {
  import opened Wrappers
  import opened Json
  import opened Tables
  import opened Api
  import Seqs

  const NotFound := "No se encontró la florería del usuario"

  /** The body fields a new branch takes over. */
  const PostFields: set<string> := {"nombre", "direccion", "ciudad", "estado", "pais", "telefono"}

  function Owned(florist: Json): Filter {
    [("floreria_id", florist)]
  }

  /** GET: every column of the caller's branches, newest first. */
  function Get(auth: Auth, db: Db, dbError: Option<string>): (out: Outcome)
    ensures out.db == db
    ensures Authorize(auth, db.florerias, NotFound).Denied? ==> out.response == Authorize(auth, db.florerias, NotFound).response
    ensures Authorize(auth, db.florerias, NotFound).Granted? && dbError.Some? ==> out.response == Response(500, Failure(dbError.value))
    ensures out.response.status == 200 <==> Authorize(auth, db.florerias, NotFound).Granted? && dbError.None?
    ensures out.response.status == 200 ==>
      var florist := IdOf(Authorize(auth, db.florerias, NotFound).profile);
      && out.response.payload.Listing?
      && ListsOnly(out.response.payload.rows, db.sucursalesFloreria, Owned(florist), None)
      && ListsExactly(out.response.payload.rows, db.sucursalesFloreria, Owned(florist), None)
      && Seqs.SortedNewest(out.response.payload.rows, Stamp)
      && |out.response.payload.rows| == |Where(db.sucursalesFloreria, Owned(florist))|
  {
    match Authorize(auth, db.florerias, NotFound)
    case Denied(r) => Outcome(r, db)
    case Granted(p) =>
      if dbError.Some? then Outcome(Response(500, Failure(dbError.value)), db)
      else Outcome(Response(200, Listing(Query(db.sucursalesFloreria, Owned(IdOf(p)), None))), db)
  }

  /** POST: no body validation; the new branch belongs to the caller's
      florist and copies the six address fields that are present. */
  function Post(body: Row, auth: Auth, db: Db, dbError: Option<string>, generated: Row): (out: Outcome)
    ensures Authorize(auth, db.florerias, NotFound).Denied? ==> out == Outcome(Authorize(auth, db.florerias, NotFound).response, db)
    ensures Authorize(auth, db.florerias, NotFound).Granted? && dbError.Some? ==> out == Outcome(Response(500, Failure(dbError.value)), db)
    ensures out.response.status == 200 <==> Authorize(auth, db.florerias, NotFound).Granted? && dbError.None?
    ensures out.response.status != 200 ==> out.db == db
    ensures out.db == db.(sucursalesFloreria := out.db.sucursalesFloreria)
    ensures out.response.status == 200 ==>
      && |out.db.sucursalesFloreria| == |db.sucursalesFloreria| + 1
      && out.db.sucursalesFloreria[..|db.sucursalesFloreria|] == db.sucursalesFloreria
      && var row := out.db.sucursalesFloreria[|db.sucursalesFloreria|];
         && "floreria_id" in row && row["floreria_id"] == IdOf(Authorize(auth, db.florerias, NotFound).profile)
         && (forall k :: k in PostFields && k in body ==> k in row && row[k] == body[k])
  {
    match Authorize(auth, db.florerias, NotFound)
    case Denied(r) => Outcome(r, db)
    case Granted(p) =>
      if dbError.Some? then Outcome(Response(500, Failure(dbError.value)), db)
      else
        var row := generated + Pick(body, PostFields) + map["floreria_id" := IdOf(p)];
        var t := db.sucursalesFloreria + [row];
        assert t[..|db.sucursalesFloreria|] == db.sucursalesFloreria;
        Outcome(Succeeded, db.(sucursalesFloreria := t))
  }

  /** DELETE `?id=`: 400 without an id; otherwise every branch with that
      id is removed, whichever florist owns it. */
  function Delete(id: Option<string>, db: Db, dbError: Option<string>): (out: Outcome)
    ensures id.None? || id.value == "" ==> out == Outcome(Response(400, Failure("Falta el ID")), db)
    ensures id.Some? && id.value != "" && dbError.Some? ==> out == Outcome(Response(500, Failure(dbError.value)), db)
    ensures out.response.status == 200 <==> id.Some? && id.value != "" && dbError.None?
    ensures out.response.status != 200 ==> out.db == db
    ensures out.db == db.(sucursalesFloreria := out.db.sucursalesFloreria)
    ensures out.response.status == 200 ==>
      ScopedDelete(db.sucursalesFloreria, out.db.sucursalesFloreria, [("id", JStr(id.value))])
  {
    if id.None? || id.value == "" then Outcome(Response(400, Failure("Falta el ID")), db)
    else if dbError.Some? then Outcome(Response(500, Failure(dbError.value)), db)
    else
      DeleteWhereIsScoped(db.sucursalesFloreria, [("id", JStr(id.value))]);
      Outcome(Succeeded, db.(sucursalesFloreria := DeleteWhere(db.sucursalesFloreria, [("id", JStr(id.value))])))
  }

  /** Nothing ties DELETE to the caller: another florist's branch with the
      given id is removed. */
  lemma DeleteIgnoresOwner(id: string, db: Db, i: int)
    requires id != ""
    requires 0 <= i < |db.sucursalesFloreria|
    requires "id" in db.sucursalesFloreria[i] && db.sucursalesFloreria[i]["id"] == JStr(id)
    ensures db.sucursalesFloreria[i] !in Delete(Some(id), db, None).db.sucursalesFloreria
  {
    var f := [("id", JStr(id))];
    assert EqHolds(db.sucursalesFloreria[i], f[0].0, f[0].1);
  }
}

=== FILE: florist_calendar.dfy ===
/** The florist's calendar (`src/app/dashboard/floreria/calendario/page.tsx`):
    the signed-in user's orders and flash requests as calendar events, or
    two placeholder events when there are none or loading fails. */
module FloristCalendar {
  import opened Wrappers
  import opened Json
  import opened Tables
  import opened Api
  import OrdersApi

  datatype Kind = Pedido | Flash

  /** A calendar event. */
  datatype Event = Event(id: Option<Json>, title: string, date: Option<Json>, kind: Kind)

  const LoadError := "No se pudieron cargar los eventos del calendario."

  /** The two placeholder events, dated today and tomorrow. */
  function Fallback(today: string, tomorrow: string): (r: seq<Event>)
    ensures |r| == 2 && r[0].kind == Pedido && r[1].kind == Flash
  {
    [Event(Some(JStr("demo-1")), "Entrega: Pedido de rosas", Some(JStr(today)), Pedido),
     Event(Some(JStr("demo-2")), "Flash urgente: 200 tulipanes", Some(JStr(tomorrow)), Flash)]
  }

  /** An order as an event: delivered on its delivery date. */
  function FromOrder(p: Row): (e: Event)
    ensures e.kind == Pedido && e.id == Field(p, "id") && e.date == Field(p, "fecha_entrega")
  {
    Event(Field(p, "id"), "Entrega: Pedido (" + Template(Field(p, "estado")) + ")", Field(p, "fecha_entrega"), Pedido)
  }

  /** A flash request as an event. */
  function FromFlash(f: Row): (e: Event)
    ensures e.kind == Flash && e.id == Field(f, "id") && e.date == Field(f, "fecha_entrega")
  {
    Event(Field(f, "id"), "Flash: " + Template(Field(f, "descripcion")), Field(f, "fecha_entrega"), Flash)
  }

  /** What the page shows: the events and the error, if any. */
  datatype Calendar = Calendar(events: seq<Event>, error: Option<string>)

  /** `fetchEventos`. Orders are those bought under the user's id, flash
      requests those published under it; `pedidosError` and `flashError`
      are the two queries' failures. */
  function Load(auth: Auth, db: Db, pedidosError: Option<string>, flashError: Option<string>,
                today: string, tomorrow: string): (c: Calendar)
    ensures auth.Anonymous? || pedidosError.Some? || flashError.Some? ==>
      c == Calendar(Fallback(today, tomorrow), Some(LoadError))
    ensures auth.SignedIn? && pedidosError.None? && flashError.None? ==>
      var ps := Where(db.pedidos, [("comprador_id", JStr(auth.userId))]);
      var fs := Where(db.flash, [("floreria_id", JStr(auth.userId))]);
      && c.error.None?
      && (|ps| + |fs| == 0 ==> c.events == Fallback(today, tomorrow))
      && (|ps| + |fs| > 0 ==>
            && |c.events| == |ps| + |fs|
            && (forall i :: 0 <= i < |ps| ==> c.events[i] == FromOrder(ps[i]))
            && (forall i :: 0 <= i < |fs| ==> c.events[|ps| + i] == FromFlash(fs[i])))
  {
    match auth
    case Anonymous => Calendar(Fallback(today, tomorrow), Some(LoadError))
    case SignedIn(uid) =>
      if pedidosError.Some? || flashError.Some? then Calendar(Fallback(today, tomorrow), Some(LoadError))
      else
        var ps := Where(db.pedidos, [("comprador_id", JStr(uid))]);
        var fs := Where(db.flash, [("floreria_id", JStr(uid))]);
        var combined := seq(|ps|, i requires 0 <= i < |ps| => FromOrder(ps[i]))
                      + seq(|fs|, i requires 0 <= i < |fs| => FromFlash(fs[i]));
        Calendar(if |combined| > 0 then combined else Fallback(today, tomorrow), None)
  }

  /** On success every order event comes before every flash event, and
      the events are exactly the mapped rows. */
  lemma OrdersBeforeFlash(uid: string, db: Db, today: string, tomorrow: string, i: int, j: int)
    requires var c := Load(SignedIn(uid), db, None, None, today, tomorrow);
      |Where(db.pedidos, [("comprador_id", JStr(uid))])| + |Where(db.flash, [("floreria_id", JStr(uid))])| > 0
      && 0 <= i < j < |c.events| && c.events[j].kind == Pedido
    ensures Load(SignedIn(uid), db, None, None, today, tomorrow).events[i].kind == Pedido
  {
    var ps := Where(db.pedidos, [("comprador_id", JStr(uid))]);
    var c := Load(SignedIn(uid), db, None, None, today, tomorrow);
    var fs := Where(db.flash, [("floreria_id", JStr(uid))]);
    forall k | |ps| <= k < |c.events| ensures c.events[k].kind == Flash {
      assert c.events[k] == FromFlash(fs[k - |ps|]);
    }
    assert c.events[i] == FromOrder(ps[i]);
  }

  /** The calendar looks orders up by the signed-in user's id, while the
      orders endpoint records the buyer as the florist's row id: when the
      two differ, an order the florist placed there never shows. */
  lemma CalendarMissesOrdersUnderFloristId(uid: string, db: Db, body: Row, generated: Row, today: string, tomorrow: string)
    requires var out := OrdersApi.Post(body, SignedIn(uid), db, None, generated);
      out.response.status == 200
      && IdOf(Authorize(SignedIn(uid), db.florerias, OrdersApi.NotFound).profile) != JStr(uid)
    ensures var out := OrdersApi.Post(body, SignedIn(uid), db, None, generated);
      var placed := out.db.pedidos[|db.pedidos|];
      placed !in Where(out.db.pedidos, [("comprador_id", JStr(uid))])
  {
    var out := OrdersApi.Post(body, SignedIn(uid), db, None, generated);
    var placed := out.db.pedidos[|db.pedidos|];
    var f := [("comprador_id", JStr(uid))];
    assert !EqHolds(placed, f[0].0, f[0].1);
    var w := Where(out.db.pedidos, f);
    assert forall k :: 0 <= k < |w| ==> w[k] != placed;
  }
}

=== FILE: florist_store.dfy ===
/** The florist's store (`src/app/dashboard/floreria/tienda/page.tsx`): a
    cart of products with quantities, its total, and the checkout that
    posts one order per cart line. Prices are integer cents. */
module FloristStore {
  import opened Wrappers
  import opened Json
  import opened Api
  import Seqs
  import Text
  import OrdersApi

  /** A product as the store lists it. */
  datatype Product = Product(id: string, nombre: string, precio: int, vendedorId: string)

  /** A cart line: the product and how many units. */
  datatype CartItem = CartItem(producto: Product, cantidad: int)

  type Cart = seq<CartItem>

  const EmptyAlert := "Tu carrito está vacío."
  const DoneAlert := "✅ Pedido enviado correctamente."
  const ErrorAlert := "❌ Error al enviar pedido."

  /** The cart's invariant: one line per product id, each with at least
      one unit. */
  predicate Valid(cart: Cart) {
    && (forall i, j :: 0 <= i < j < |cart| ==> cart[i].producto.id != cart[j].producto.id)
    && (forall i :: 0 <= i < |cart| ==> cart[i].cantidad >= 1)
  }

  predicate HasId(cart: Cart, id: string) {
    exists i :: 0 <= i < |cart| && cart[i].producto.id == id
  }

  /** `prev.map(...)`: every line for `id` gets one more unit. */
  function Bumped(cart: Cart, id: string): (r: Cart)
    ensures |r| == |cart|
    ensures forall i :: 0 <= i < |cart| ==>
      r[i] == if cart[i].producto.id == id then cart[i].(cantidad := cart[i].cantidad + 1) else cart[i]
  {
    seq(|cart|, i requires 0 <= i < |cart| =>
      if cart[i].producto.id == id then cart[i].(cantidad := cart[i].cantidad + 1) else cart[i])
  }

  /** `addToCart`: a product already in the cart gains a unit; a new one
      is appended with one unit. */
  function Add(cart: Cart, p: Product): (r: Cart)
    ensures HasId(cart, p.id) ==> r == Bumped(cart, p.id)
    ensures !HasId(cart, p.id) ==> r == cart + [CartItem(p, 1)]
  {
    if HasId(cart, p.id) then Bumped(cart, p.id) else cart + [CartItem(p, 1)]
  }

  /** The predicate `i.producto.id !== id`. */
  function Other(id: string): CartItem -> bool {
    (item: CartItem) => item.producto.id != id
  }

  /** `removeFromCart`: keep the lines for every other product. */
  function Remove(cart: Cart, id: string): (r: Cart)
    ensures forall i :: 0 <= i < |r| ==> r[i].producto.id != id
    ensures forall i :: 0 <= i < |cart| && cart[i].producto.id != id ==> cart[i] in r
  {
    Seqs.Filter(cart, Other(id))
  }

  /** The shown total: the sum of price times quantity over the lines. */
  function Total(cart: Cart): int {
    if |cart| == 0 then 0 else cart[0].producto.precio * cart[0].cantidad + Total(cart[1..])
  }

  // ---------------------------------------------------------------------
  // The cart invariant
  // ---------------------------------------------------------------------

  /** Adding a product keeps one line per product, each with a unit. */
  lemma AddKeepsValid(cart: Cart, p: Product)
    requires Valid(cart)
    ensures Valid(Add(cart, p))
  {
    var r := Add(cart, p);
    if !HasId(cart, p.id) {
      forall i, j | 0 <= i < j < |r| ensures r[i].producto.id != r[j].producto.id {
        if j == |cart| {
          assert r[i] == cart[i];
        }
      }
    }
  }

  /** Removing keeps the invariant: what remains is an ordered
      subsequence of the cart. */
  lemma RemoveKeepsValid(cart: Cart, id: string)
    requires Valid(cart)
    ensures Valid(Remove(cart, id))
    ensures Seqs.IsSubsequence(Remove(cart, id), cart)
  {
    Seqs.FilterIsSubsequence(cart, Other(id));
    SubsequenceKeepsValid(Remove(cart, id), cart);
  }

  /** Any ordered subsequence of a valid cart is a valid cart. */
  lemma {:induction false} SubsequenceKeepsValid(a: Cart, b: Cart)
    requires Valid(b) && Seqs.IsSubsequence(a, b)
    ensures Valid(a)
    decreases |b|
  {
    if |a| > 0 {
      if a[0] == b[0] {
        SubsequenceKeepsValid(a[1..], b[1..]);
        forall j | 0 < j < |a| ensures a[0].producto.id != a[j].producto.id {
          assert a[1..][j - 1] in b[1..] by { SubsequenceMembers(a[1..], b[1..], j - 1); }
          var k :| 0 <= k < |b[1..]| && b[1..][k] == a[j];
          assert b[k + 1] == a[j];
        }
      } else {
        SubsequenceKeepsValid(a, b[1..]);
      }
    }
  }

  /** Every element of a subsequence is an element of the whole. */
  lemma {:induction false} SubsequenceMembers(a: Cart, b: Cart, j: int)
    requires Seqs.IsSubsequence(a, b) && 0 <= j < |a|
    ensures a[j] in b
    decreases |b|
  {
    if a[0] == b[0] {
      if j > 0 {
        SubsequenceMembers(a[1..], b[1..], j - 1);
      }
    } else {
      SubsequenceMembers(a, b[1..], j);
    }
  }

  // ---------------------------------------------------------------------
  // Add and remove, line by line
  // ---------------------------------------------------------------------

  /** Adding a product already in a valid cart bumps exactly its line:
      same length, every other line as it was. */
  lemma AddExistingBumpsOneLine(cart: Cart, p: Product, k: int)
    requires Valid(cart) && 0 <= k < |cart| && cart[k].producto.id == p.id
    ensures |Add(cart, p)| == |cart|
    ensures Add(cart, p)[k] == cart[k].(cantidad := cart[k].cantidad + 1)
    ensures forall i :: 0 <= i < |cart| && i != k ==> Add(cart, p)[i] == cart[i]
  {
  }

  /** Removing the product at `k` from a valid cart removes exactly that
      line and keeps the rest in order. */
  lemma RemoveDeletesOneLine(cart: Cart, k: int)
    requires Valid(cart) && 0 <= k < |cart|
    ensures Remove(cart, cart[k].producto.id) == cart[..k] + cart[k + 1..]
  {
    var id := cart[k].producto.id;
    assert cart == cart[..k] + ([cart[k]] + cart[k + 1..]);
    Seqs.FilterAppend(cart[..k], [cart[k]] + cart[k + 1..], Other(id));
    Seqs.FilterAppend([cart[k]], cart[k + 1..], Other(id));
    Seqs.FilterKeepsAll(cart[..k], Other(id));
    Seqs.FilterKeepsAll(cart[k + 1..], Other(id));
    Seqs.FilterStep([cart[k]], Other(id));
    assert [cart[k]][1..] == [];
  }

  /** Removing a product that is not in the cart changes nothing. */
  lemma RemoveAbsentIsNoop(cart: Cart, id: string)
    requires !HasId(cart, id)
    ensures Remove(cart, id) == cart
  {
    Seqs.FilterKeepsAll(cart, Other(id));
  }

  // ---------------------------------------------------------------------
  // The total
  // ---------------------------------------------------------------------

  lemma {:induction false} TotalAppend(a: Cart, b: Cart)
    ensures Total(a + b) == Total(a) + Total(b)
    decreases |a|
  {
    if |a| == 0 {
      assert a + b == b;
    } else {
      assert (a + b)[0] == a[0] && (a + b)[1..] == a[1..] + b;
      TotalAppend(a[1..], b);
    }
  }

  /** The summed unit prices of the lines for `id`. */
  function PriceOf(cart: Cart, id: string): int {
    if |cart| == 0 then 0
    else (if cart[0].producto.id == id then cart[0].producto.precio else 0) + PriceOf(cart[1..], id)
  }

  /** Bumping the lines for `id` raises the total by their unit prices. */
  lemma {:induction false} TotalBumped(cart: Cart, id: string)
    ensures Total(Bumped(cart, id)) == Total(cart) + PriceOf(cart, id)
    decreases |cart|
  {
    if |cart| > 0 {
      assert Bumped(cart, id)[1..] == Bumped(cart[1..], id);
      TotalBumped(cart[1..], id);
      var c := cart[0];
      assert c.producto.precio * (c.cantidad + 1) == c.producto.precio * c.cantidad + c.producto.precio;
    }
  }

  /** In a valid cart the lines for an id sum to the price of its one line
      (or nothing, when it has none). */
  lemma {:induction false} PriceOfUnique(cart: Cart, id: string)
    requires Valid(cart)
    ensures !HasId(cart, id) ==> PriceOf(cart, id) == 0
    ensures forall k :: 0 <= k < |cart| && cart[k].producto.id == id ==> PriceOf(cart, id) == cart[k].producto.precio
    decreases |cart|
  {
    if |cart| > 0 {
      var tail := cart[1..];
      assert Valid(tail);
      PriceOfUnique(tail, id);
      if cart[0].producto.id == id {
        assert !HasId(tail, id);
      } else {
        forall k | 0 < k < |cart| && cart[k].producto.id == id ensures PriceOf(cart, id) == cart[k].producto.precio {
          assert tail[k - 1] == cart[k];
        }
        assert HasId(tail, id) ==> HasId(cart, id);
      }
    }
  }

  /** Adding a product not yet in the cart raises the total by its
      price. */
  lemma AddNewRaisesTotal(cart: Cart, p: Product)
    requires !HasId(cart, p.id)
    ensures Total(Add(cart, p)) == Total(cart) + p.precio
  {
    TotalAppend(cart, [CartItem(p, 1)]);
    assert Total([CartItem(p, 1)]) == p.precio;
  }

  /** Adding a product already in the cart raises the total by the unit
      price of its line, which keeps the price it was added with. */
  lemma AddExistingRaisesTotal(cart: Cart, p: Product, k: nat)
    requires Valid(cart) && k < |cart| && cart[k].producto.id == p.id
    ensures Total(Add(cart, p)) == Total(cart) + cart[k].producto.precio
  {
    assert HasId(cart, p.id);
    TotalBumped(cart, p.id);
    PriceOfUnique(cart, p.id);
  }

  // ---------------------------------------------------------------------
  // Checkout
  // ---------------------------------------------------------------------

  /** The order body posted for a cart line. */
  function OrderBody(item: CartItem): (body: Row)
    ensures body.Keys == {"proveedor_id", "total", "notas"}
    ensures body["proveedor_id"] == JStr(item.producto.vendedorId)
    ensures body["total"] == JNum(item.producto.precio * item.cantidad)
  {
    map["proveedor_id" := JStr(item.producto.vendedorId),
        "total" := JNum(item.producto.precio * item.cantidad),
        "notas" := JStr("Pedido de " + Text.IntToString(item.cantidad) + " unidad(es) de " + item.producto.nombre)]
  }

  /** What a checkout did: the requests sent, the cart afterwards and the
      alert shown. */
  datatype Checkout = Checkout(requests: seq<Row>, cart: Cart, alert: string)

  /** `handlePedido`. The answers of `/api/pedidos` are not inspected; only
      a request that throws (`failure`, the index of the line whose fetch
      rejected) stops the loop and keeps the cart. */
  function HandlePedido(cart: Cart, failure: Option<nat>): (c: Checkout)
    ensures |cart| == 0 ==> c == Checkout([], cart, EmptyAlert)
    ensures |c.requests| <= |cart|
    ensures forall i :: 0 <= i < |c.requests| ==> c.requests[i] == OrderBody(cart[i])
    ensures |cart| > 0 && (failure.None? || failure.value >= |cart|) ==>
      |c.requests| == |cart| && c.cart == [] && c.alert == DoneAlert
    ensures |cart| > 0 && failure.Some? && failure.value < |cart| ==>
      |c.requests| == failure.value + 1 && c.cart == cart && c.alert == ErrorAlert
  {
    var bodies := seq(|cart|, i requires 0 <= i < |cart| => OrderBody(cart[i]));
    if |cart| == 0 then Checkout([], cart, EmptyAlert)
    else if failure.Some? && failure.value < |cart| then Checkout(bodies[..failure.value + 1], cart, ErrorAlert)
    else Checkout(bodies, [], DoneAlert)
  }

  /** The checkout reports success even when the orders endpoint refuses
      a line: a free product yields a `total` of 0, which the endpoint
      answers with 400, yet the cart is emptied and the success alert is
      shown. */
  lemma FreeLineIsRefusedButCartEmptied(p: Product, auth: Auth, db: Db, dbError: Option<string>, generated: Row)
    requires p.precio == 0
    ensures var c := HandlePedido([CartItem(p, 1)], None);
      && c.cart == [] && c.alert == DoneAlert && |c.requests| == 1
      && OrdersApi.Post(c.requests[0], auth, db, dbError, generated).response.status == 400
  {
    var c := HandlePedido([CartItem(p, 1)], None);
    assert c.requests[0] == OrderBody(CartItem(p, 1));
    assert c.requests[0]["total"] == JNum(0);
  }
}

=== FILE: json.dfy ===
/** Scalar JSON values as they travel in request bodies and backend rows,
    and the JavaScript conventions the handlers apply to them. Rows and
    request bodies are objects: maps from key to value, where a missing
    key is JavaScript's `undefined`. */
module Json {
  import opened Wrappers
  import Text

  datatype Json = JNull | JBool(b: bool) | JNum(n: int) | JStr(s: string)

  type Row = map<string, Json>

  /** Reading `obj.key`: `None` is `undefined`. */
  function Field(row: Row, key: string): Option<Json> {
    if key in row then Some(row[key]) else None
  }

  /** JavaScript truthiness of a field read (`!x` is its negation). */
  predicate Truthy(v: Option<Json>) {
    match v
    case None => false
    case Some(JNull) => false
    case Some(JBool(b)) => b
    case Some(JNum(n)) => n != 0
    case Some(JStr(s)) => s != ""
  }

  /** Destructuring `const { a, b } = obj` and rebuilding `{ a, b }`: keys
      that were undefined stay absent, since JSON serialisation drops them. */
  function Pick(row: Row, keys: set<string>): (r: Row)
    ensures r.Keys == row.Keys * keys
    ensures forall k :: k in r ==> r[k] == row[k]
  {
    map k | k in row.Keys * keys :: row[k]
  }

  /** Rendering `${v}` in a template literal. */
  function Template(v: Option<Json>): string {
    match v
    case None => "undefined"
    case Some(JNull) => "null"
    case Some(JBool(b)) => if b then "true" else "false"
    case Some(JNum(n)) => Text.IntToString(n)
    case Some(JStr(s)) => s
  }
}

=== FILE: login.dfy ===
/** The login page (`src/app/login/page.tsx`): on mount it forwards a
    visitor who already has a role to that role's dashboard; on submit it
    signs in, looks up the user's role, stores it in the `fp-role` cookie
    and navigates to the role's dashboard. */
module LoginPage {
  import opened Wrappers
  import opened Json
  import opened Edge
  import opened Cookies
  import Text
  import SessionRoute
  import RootMiddleware

  const CookieName := "fp-role"
  const Fallback := "/dashboard/floreria"

  const BlankMessage := "Por favor, ingresa tu correo y contraseña."
  const SignInFallback := "Error al iniciar sesión."
  const NoRoleMessage := "No se pudo obtener el rol del usuario. Inténtalo nuevamente."

  /** `ROLE_DASHBOARD[role] ?? "/dashboard/floreria"`. */
  function RoleDashboard(role: string): (path: string)
    ensures role in {"proveedor", "floreria", "productor", "agente"} ==> path == "/dashboard/" + role
    ensures role !in {"proveedor", "floreria", "productor", "agente"} ==> path == Fallback
  {
    if role == "proveedor" then "/dashboard/proveedor"
    else if role == "floreria" then "/dashboard/floreria"
    else if role == "productor" then "/dashboard/productor"
    else if role == "agente" then "/dashboard/agente"
    else Fallback
  }

  /** The mount-time check: the role from the `fp-role` entry of
      `document.cookie`, or else the session's metadata role; with a role,
      replace the page by its dashboard. */
  function CheckSession(documentCookie: string, metadataRole: Option<string>): (nav: Nav)
    ensures var c := ReadCookie(documentCookie, CookieName);
      c.Some? && c.value != "" ==> nav == Replace(RoleDashboard(c.value))
    ensures var c := ReadCookie(documentCookie, CookieName);
      !(c.Some? && c.value != "") ==>
        nav == if metadataRole.Some? && metadataRole.value != "" then Replace(RoleDashboard(metadataRole.value)) else Stay
  {
    var fromCookie := ReadCookie(documentCookie, CookieName);
    var role := if fromCookie.Some? && fromCookie.value != "" then fromCookie else metadataRole;
    if role.Some? && role.value != "" then Replace(RoleDashboard(role.value)) else Stay
  }

  /** The outcome of `signInWithPassword`. */
  datatype SignIn = SignInFailed(message: Option<string>) | NoUser | SignedIn(userId: string)

  /** The outcome of the `usuarios` role lookup: a failed query, or the
      row's `rol` (absent when there is no row). */
  datatype RoleLookup = LookupFailed | RoleRow(rol: Option<Json>)

  /** What a submit did: the error shown, the credentials sent to sign-in
      (if it was called), the cookie jar afterwards, and the navigation. */
  datatype Submitted = Submitted(error: Option<string>, credentials: Option<(string, string)>, jar: Jar, nav: Nav)

  /** `handleSubmit`, with the role written by a script assignment to
      `document.cookie`. */
  function Submit(email: string, password: string, signIn: SignIn, lookup: RoleLookup, jar: Jar): (s: Submitted)
    ensures Text.Trim(email) == "" || Text.Trim(password) == "" ==> s == Submitted(Some(BlankMessage), None, jar, Stay)
    ensures s.credentials.Some? <==> Text.Trim(email) != "" && Text.Trim(password) != ""
    ensures s.credentials.Some? ==> s.credentials.value == (Text.Trim(email), password)
    ensures s.error.Some? ==> s.jar == jar && s.nav == Stay
    ensures s.error.None? <==> s.credentials.Some? && signIn.SignedIn? && lookup.RoleRow? && Truthy(lookup.rol)
    ensures s.error.None? ==>
      && s.jar == ReceiveScript(jar, CookieName, Template(lookup.rol), false)
      && s.nav == Push(RoleDashboard(Template(lookup.rol)))
  {
    if Text.Trim(email) == "" || Text.Trim(password) == "" then Submitted(Some(BlankMessage), None, jar, Stay)
    else
      var credentials := Some((Text.Trim(email), password));
      match signIn
      case SignInFailed(message) => Submitted(Some(message.GetOr(SignInFallback)), credentials, jar, Stay)
      case NoUser => Submitted(Some(SignInFallback), credentials, jar, Stay)
      case SignedIn(_) =>
        if lookup.LookupFailed? || !Truthy(lookup.rol) then Submitted(Some(NoRoleMessage), credentials, jar, Stay)
        else
          var role := Template(lookup.rol);
          Submitted(None, credentials, ReceiveScript(jar, CookieName, role, false), Push(RoleDashboard(role)))
  }

  /** `admin`, which has a dashboard elsewhere, is not in this table and
      falls back to the florist dashboard. */
  lemma AdminFallsBack()
    ensures RoleDashboard("admin") == Fallback
  {
  }

  /** A sign-in failure shows the backend's message, or the fixed fallback
      when it has none. */
  lemma SignInFailureMessage(email: string, password: string, message: Option<string>, lookup: RoleLookup, jar: Jar)
    requires Text.Trim(email) != "" && Text.Trim(password) != ""
    ensures Submit(email, password, SignInFailed(message), lookup, jar).error ==
      Some(if message.Some? then message.value else SignInFallback)
  {
  }

  /** The `fp-role` cookie as the edge middleware receives it. */
  function RoleCookie(jar: Jar): Option<string> {
    if CookieName in jar then Some(jar[CookieName].value) else None
  }

  /** A florist's role cookie bounces the supplier dashboard back to the
      florist one. */
  lemma SupplierPageBouncesFlorist()
    ensures RootMiddleware.Handle("/dashboard/proveedor", Some("floreria")) == Redirect("/dashboard/floreria")
  {
    TabledRoleIsSegment("proveedor");
    assert Edge.Present(Some("floreria"));
    RootMiddleware.ForeignDashboardBounces("proveedor", "floreria");
    assert RoleDashboard("proveedor") == "/dashboard/proveedor";
    assert RoleDashboard("proveedor") == RootMiddleware.RoleRedirect("proveedor");
    assert RoleDashboard("floreria") == "/dashboard/floreria";
    assert RoleDashboard("floreria") == RootMiddleware.RoleRedirect("floreria");
  }

  /** Every tabled role is a single, non-empty, URL-safe path segment. */
  lemma TabledRoleIsSegment(role: string)
    requires role in {"proveedor", "floreria", "productor", "agente"}
    ensures role != "" && !Text.HasChar(role, '/')
    ensures RootMiddleware.UrlSafe(role)
  {
    forall i | 0 <= i < |role| ensures role[i] != '/' && 'a' <= role[i] <= 'z' {
      if role == "proveedor" {
      } else if role == "floreria" {
      } else if role == "productor" {
      }
    }
  }

  /** As written, a login in a browser that already holds the http-only
      `fp-role` cookie issued by the session endpoint cannot change the
      role: the script write is dropped, and the dashboard the page pushes
      is bounced back to the old role's by the root gate. Once the cookie
      is issued that gate also bounces a fresh load of "/login", so the
      form submitted here is one loaded before the cookie was issued (a
      second tab, say). */
  lemma LoginCannotReplaceIssuedRole(email: string, password: string, userId: string, jar: Jar, nodeEnv: string)
    requires Text.Trim(email) != "" && Text.Trim(password) != ""
    ensures var issued := SessionRoute.Apply(jar, SessionRoute.Post(Some(map["role" := JStr("floreria")]), nodeEnv));
      var s := Submit(email, password, SignedIn(userId), RoleRow(Some(JStr("proveedor"))), issued);
      && s.error.None?
      && s.nav == Push("/dashboard/proveedor")
      && RoleCookie(s.jar) == Some("floreria")
      && RootMiddleware.Handle("/dashboard/proveedor", RoleCookie(s.jar)) == Redirect("/dashboard/floreria")
      && RootMiddleware.Handle("/login", RoleCookie(issued)) == Redirect("/dashboard/floreria")
  {
    var issued := SessionRoute.Apply(jar, SessionRoute.Post(Some(map["role" := JStr("floreria")]), nodeEnv));
    SessionRoute.PostStoresRole(jar, "floreria", nodeEnv);
    assert issued[CookieName] == Stored("floreria", true);
    var rol := Some(JStr("proveedor"));
    assert Truthy(rol) && Template(rol) == "proveedor";
    ScriptWriteIsDropped(email, password, userId, rol, issued);
    assert RoleDashboard("proveedor") == "/dashboard/proveedor";
    SupplierPageBouncesFlorist();
  }

  /** Once the jar holds an http-only `fp-role`, a successful login leaves
      the jar as it was. */
  lemma ScriptWriteIsDropped(email: string, password: string, userId: string, rol: Option<Json>, jar: Jar)
    requires Text.Trim(email) != "" && Text.Trim(password) != "" && Truthy(rol)
    requires CookieName in jar && jar[CookieName].httpOnly
    ensures var s := Submit(email, password, SignedIn(userId), RoleRow(rol), jar);
      s.error.None? && s.jar == jar && s.nav == Push(RoleDashboard(Template(rol)))
  {
    var s := Submit(email, password, SignedIn(userId), RoleRow(rol), jar);
    assert s.credentials.Some?;
    assert s.error.None?;
    assert ReceiveScript(jar, CookieName, Template(rol), false) == jar;
  }

  /** Storing a role through the session endpoint always lands it. */
  lemma SessionStoresRole(jar: Jar, role: string, nodeEnv: string)
    requires role != ""
    ensures RoleCookie(SessionRoute.Apply(jar, SessionRoute.Post(Some(map["role" := JStr(role)]), nodeEnv))) == Some(role)
  {
    SessionRoute.PostStoresRole(jar, role, nodeEnv);
  }

  /** `handleSubmit` with the role stored through the session endpoint, so
      the browser keeps it whatever cookie it held before. */
  function SubmitCorrected(email: string, password: string, signIn: SignIn, lookup: RoleLookup, jar: Jar, nodeEnv: string): (s: Submitted)
    ensures Text.Trim(email) == "" || Text.Trim(password) == "" ==> s == Submitted(Some(BlankMessage), None, jar, Stay)
    ensures s.credentials.Some? <==> Text.Trim(email) != "" && Text.Trim(password) != ""
    ensures s.credentials.Some? ==> s.credentials.value == (Text.Trim(email), password)
    ensures s.error.Some? ==> s.jar == jar && s.nav == Stay
    ensures s.error.None? <==> s.credentials.Some? && signIn.SignedIn? && lookup.RoleRow? && Truthy(lookup.rol)
    ensures s.error.None? && lookup.rol.value.JStr? ==>
      && RoleCookie(s.jar) == Some(lookup.rol.value.s)
      && s.nav == Push(RoleDashboard(lookup.rol.value.s))
  {
    var s := Submit(email, password, signIn, lookup, jar);
    if s.error.Some? then s
    else
      var role := Template(lookup.rol);
      SessionStoresRole(jar, role, nodeEnv);
      Submitted(None, s.credentials, SessionRoute.Apply(jar, SessionRoute.Post(Some(map["role" := JStr(role)]), nodeEnv)), s.nav)
  }

  /** With the corrected submit, a user of any tabled role whose login
      succeeds reaches their dashboard: the edge middleware lets the pushed
      page through. */
  lemma CorrectedLoginReachesDashboard(email: string, password: string, userId: string, role: string, jar: Jar, nodeEnv: string)
    requires Text.Trim(email) != "" && Text.Trim(password) != ""
    requires role in {"proveedor", "floreria", "productor", "agente"}
    ensures var s := SubmitCorrected(email, password, SignedIn(userId), RoleRow(Some(JStr(role))), jar, nodeEnv);
      s.nav.Push? && RootMiddleware.Handle(s.nav.path, RoleCookie(s.jar)) == Next
  {
    TabledRoleIsSegment(role);
    RootMiddleware.OwnDashboardPassesThrough(role);
    assert RoleDashboard(role) == RootMiddleware.RoleRedirect(role);
    var rol := Some(JStr(role));
    assert Truthy(rol);
    var s := SubmitCorrected(email, password, SignedIn(userId), RoleRow(rol), jar, nodeEnv);
    assert s.credentials.Some?;
    assert s.error.None?;
  }
}

=== FILE: metrics.dfy ===
/** The supplier dashboard's metrics (`/api/proveedor/metrics`): counts of
    the caller's orders by status class and by day, of their products and
    low-stock products, and the fulfilment percentage. */
module SupplierMetrics {
  import opened Wrappers
  import opened Json
  import opened Tables
  import opened Api
  import Seqs
  import Text

  const NotFound := "No se encontró el perfil del proveedor"

  /** Statuses that count as fulfilled, under review, and cancelled. */
  const FulfilledStates: set<string> := {"aceptado", "completado", "entregado"}
  const ReviewStates: set<string> := {"revision", "pendiente", "en_revision"}
  const CancelledStates: set<string> := {"cancelado", "rechazado"}

  /** `new Date(created_at)` for an order: a falsy value the filter skips,
      an invalid date, or an instant in milliseconds. */
  datatype Created = Absent | Unparsable | At(ms: int)

  datatype Order = Order(estado: Option<string>, created: Created)

  /** A product's `stock`, which counts only when it is a number. */
  datatype Product = Product(stock: Option<Json>)

  datatype Metrics = Metrics(
    pedidosHoy: nat,
    stockBajo: nat,
    productosPublicados: nat,
    porcentajeCumplimiento: nat,
    cancelaciones: nat,
    pedidosRevision: nat)

  /** `(p.estado || "").toLowerCase()`. */
  function Lowered(estado: Option<string>): string {
    Text.ToLowerAscii(estado.GetOr(""))
  }

  predicate Fulfilled(o: Order) { Lowered(o.estado) in FulfilledStates }
  predicate InReview(o: Order) { Lowered(o.estado) in ReviewStates }
  predicate Cancelled(o: Order) { Lowered(o.estado) in CancelledStates }

  predicate PlacedSince(o: Order, today: int) { o.created.At? && o.created.ms >= today }

  predicate LowStock(p: Product) { p.stock.Some? && p.stock.value.JNum? && p.stock.value.n < 50 }

  /** Multiplication by a positive factor preserves strict order. */
  lemma MulCancel(a: int, p: int, q: int)
    requires a > 0 && a * p < a * q
    ensures p < q
  {
    assert a * q - a * p == a * (q - p);
  }

  /** `Math.round(100 * c / n)`, or 0 without orders, computed exactly:
      the p with 2np <= 200c + n < 2n(p + 1). */
  function Percent(c: nat, n: nat): (p: nat)
    requires c <= n
    ensures p <= 100
    ensures n == 0 ==> p == 0
    ensures n > 0 ==> 200 * c - n < 2 * n * p <= 200 * c + n
  {
    if n == 0 then 0
    else
      var x := 200 * c + n;
      var d := 2 * n;
      var p := x / d;
      assert x == d * p + x % d && 0 <= x % d < d;
      assert d * p < d * 101 by {
        assert d * 101 == 202 * n;
      }
      MulCancel(d, p, 101);
      p
  }

  /** Round-half-up is what `Percent` computes: no other value meets its
      bounds. */
  lemma PercentIsUnique(c: nat, n: nat, q: int)
    requires c <= n && n > 0
    requires 200 * c - n < 2 * n * q <= 200 * c + n
    ensures q == Percent(c, n)
  {
    var p := Percent(c, n);
    var d := 2 * n;
    assert d * (p - q) == d * p - d * q;
    assert d * (q - p) == d * q - d * p;
    MulCancel(d, p - q, 1);
    MulCancel(d, q - p, 1);
  }

  /** `cumplidos`: the orders whose status is a fulfilled one. */
  function FulfilledCount(orders: seq<Order>): (n: nat)
    ensures n <= |orders|
  {
    |Seqs.Filter(orders, Fulfilled)|
  }

  /** The whole aggregation over the supplier's orders and products. */
  function Summarize(orders: seq<Order>, products: seq<Product>, today: int): (m: Metrics)
    ensures m.productosPublicados == |products|
    ensures m.stockBajo <= m.productosPublicados
    ensures m.pedidosHoy <= |orders|
    ensures m.cancelaciones + m.pedidosRevision + FulfilledCount(orders) <= |orders|
    ensures m.porcentajeCumplimiento == Percent(FulfilledCount(orders), |orders|)
    ensures m.porcentajeCumplimiento <= 100
  {
    var review := |Seqs.Filter(orders, InReview)|;
    var cancelled := |Seqs.Filter(orders, Cancelled)|;
    Seqs.ExclusiveCountsBound(orders, Fulfilled, InReview, Cancelled);
    var pct := Percent(FulfilledCount(orders), |orders|);
    Metrics(|Seqs.Filter(orders, o => PlacedSince(o, today))|, |Seqs.Filter(products, LowStock)|, |products|,
            pct, cancelled, review)
  }

  /** Nothing to count gives all six counters zero. */
  lemma NothingToCount(today: int)
    ensures Summarize([], [], today) == Metrics(0, 0, 0, 0, 0, 0)
  {
  }

  /** One more order moves each order counter by one exactly when the
      order is in that counter's class, and leaves the product counters
      alone. With `NothingToCount` this fixes every counter of every
      list of orders. */
  lemma OneMoreOrder(orders: seq<Order>, o: Order, products: seq<Product>, today: int)
    ensures var before := Summarize(orders, products, today);
            var after := Summarize(orders + [o], products, today);
            && after.pedidosHoy == before.pedidosHoy + (if PlacedSince(o, today) then 1 else 0)
            && after.cancelaciones == before.cancelaciones + (if Cancelled(o) then 1 else 0)
            && after.pedidosRevision == before.pedidosRevision + (if InReview(o) then 1 else 0)
            && after.stockBajo == before.stockBajo
            && after.productosPublicados == before.productosPublicados
    ensures FulfilledCount(orders + [o]) == FulfilledCount(orders) + (if Fulfilled(o) then 1 else 0)
  {
    Seqs.FilterAppend(orders, [o], o => PlacedSince(o, today));
    Seqs.FilterAppend(orders, [o], Cancelled);
    Seqs.FilterAppend(orders, [o], InReview);
    Seqs.FilterAppend(orders, [o], Fulfilled);
  }

  /** One more product adds one to the published count, and one to low
      stock exactly when its stock is a number below 50; the order
      counters stay as they were. */
  lemma LowStockCountsOnlyNumbers(products: seq<Product>, p: Product, orders: seq<Order>, today: int)
    ensures var before := Summarize(orders, products, today);
            var after := Summarize(orders, products + [p], today);
            && after.stockBajo == before.stockBajo + (if LowStock(p) then 1 else 0)
            && after.productosPublicados == before.productosPublicados + 1
            && after.pedidosHoy == before.pedidosHoy
            && after.cancelaciones == before.cancelaciones
            && after.pedidosRevision == before.pedidosRevision
            && after.porcentajeCumplimiento == before.porcentajeCumplimiento
  {
    Seqs.FilterAppend(products, [p], LowStock);
  }

  /** Status classes ignore letter case: a status and its lower-cased form
      fall in the same class. */
  lemma ClassesIgnoreCase(s: string, created: Created)
    ensures Fulfilled(Order(Some(s), created)) <==> Fulfilled(Order(Some(Text.ToLowerAscii(s)), created))
    ensures InReview(Order(Some(s), created)) <==> InReview(Order(Some(Text.ToLowerAscii(s)), created))
    ensures Cancelled(Order(Some(s), created)) <==> Cancelled(Order(Some(Text.ToLowerAscii(s)), created))
  {
    var l := Text.ToLowerAscii(s);
    assert Text.ToLowerAscii(l) == l;
  }

  /** A missing or empty status belongs to no class. */
  lemma EmptyStatusHasNoClass(e: Option<string>, created: Created)
    requires e.None? || e.value == ""
    ensures !Fulfilled(Order(e, created)) && !InReview(Order(e, created)) && !Cancelled(Order(e, created))
  {
  }

  /** An order without a parsable creation date is never an order of
      today. */
  lemma UndatedOrderNotToday(orders: seq<Order>, o: Order, products: seq<Product>, today: int)
    requires !o.created.At?
    ensures Summarize(orders + [o], products, today).pedidosHoy == Summarize(orders, products, today).pedidosHoy
  {
    Seqs.FilterAppend(orders, [o], o => PlacedSince(o, today));
  }

  /** The largest distance from the epoch, in milliseconds, that a
      JavaScript `Date` holds (section 21.4.1.31 of ECMA-262, TimeClip);
      beyond it `new Date(n)` is an invalid date. */
  const MaxTime := 8_640_000_000_000_000

  /** `new Date(created_at)` behind the `!p.created_at` test: every falsy
      value is absent; a number is that many milliseconds; `true` is the
      number 1; a non-empty string is whatever `parse` (the platform's
      date-string parser) makes of it. */
  function CreatedOf(v: Option<Json>, parse: string -> Option<int>): (c: Created)
    ensures !Truthy(v) ==> c == Absent
  {
    match v
    case None => Absent
    case Some(JNull) => Absent
    case Some(JBool(b)) => if b then At(1) else Absent
    case Some(JNum(n)) => if n == 0 then Absent else if -MaxTime <= n <= MaxTime then At(n) else Unparsable
    case Some(JStr(s)) =>
      if s == "" then Absent
      else match parse(s)
        case None => Unparsable
        case Some(ms) => At(ms)
  }

  /** The typed view of an order row: its status when it is a string, and
      its creation date. */
  function OrderOf(row: Row, parse: string -> Option<int>): (o: Order)
    ensures Field(row, "estado").Some? && Field(row, "estado").value.JStr? ==> o.estado == Some(row["estado"].s)
    ensures o.created == CreatedOf(Field(row, "created_at"), parse)
  {
    Order(
      if Field(row, "estado").Some? && Field(row, "estado").value.JStr? then Some(row["estado"].s) else None,
      CreatedOf(Field(row, "created_at"), parse))
  }

  /** An order whose `created_at` is a date string counts as today's
      exactly when the string is non-empty and parses to an instant at or
      after today's midnight. */
  lemma StringDateCountsWhenParsedToday(row: Row, s: string, parse: string -> Option<int>, today: int)
    requires Field(row, "created_at") == Some(JStr(s))
    ensures PlacedSince(OrderOf(row, parse), today) <==> s != "" && parse(s).Some? && parse(s).value >= today
  {
  }

  /** An order whose `created_at` is falsy (absent, null, 0, "" or false)
      is never today's, whatever today is. */
  lemma FalsyDateNeverToday(row: Row, parse: string -> Option<int>, today: int)
    requires !Truthy(Field(row, "created_at"))
    ensures !PlacedSince(OrderOf(row, parse), today)
  {
  }

  function ProductOf(row: Row): Product {
    Product(Field(row, "stock"))
  }

  function OrdersOf(rows: seq<Row>, parse: string -> Option<int>): (r: seq<Order>)
    ensures |r| == |rows|
    ensures forall i :: 0 <= i < |rows| ==> r[i] == OrderOf(rows[i], parse)
  {
    seq(|rows|, i requires 0 <= i < |rows| => OrderOf(rows[i], parse))
  }

  function ProductsOf(rows: seq<Row>): (r: seq<Product>)
    ensures |r| == |rows|
    ensures forall i :: 0 <= i < |rows| ==> r[i].stock == Field(rows[i], "stock")
  {
    seq(|rows|, i requires 0 <= i < |rows| => ProductOf(rows[i]))
  }

  function Received(supplier: Json): Filter { [("proveedor_id", supplier)] }

  function Published(supplier: Json): Filter { [("tipo_vendedor", JStr("proveedor")), ("vendedor_id", supplier)] }

  const CounterKeys: set<string> :=
    {"pedidosHoy", "stockBajo", "productosPublicados", "porcentajeCumplimiento", "cancelaciones", "pedidosRevision"}

  /** The response body: the supplier's commercial name (omitted when the
      row has none) and the six counters. */
  function Report(profile: Row, m: Metrics): (r: Row)
    ensures r.Keys == CounterKeys + (if "nombre_comercial" in profile then {"proveedor"} else {})
    ensures "proveedor" in r ==> r["proveedor"] == profile["nombre_comercial"]
    ensures r["pedidosHoy"] == JNum(m.pedidosHoy) && r["stockBajo"] == JNum(m.stockBajo)
    ensures r["productosPublicados"] == JNum(m.productosPublicados)
    ensures r["porcentajeCumplimiento"] == JNum(m.porcentajeCumplimiento)
    ensures r["cancelaciones"] == JNum(m.cancelaciones) && r["pedidosRevision"] == JNum(m.pedidosRevision)
  {
    var counters := map[
      "pedidosHoy" := JNum(m.pedidosHoy),
      "stockBajo" := JNum(m.stockBajo),
      "productosPublicados" := JNum(m.productosPublicados),
      "porcentajeCumplimiento" := JNum(m.porcentajeCumplimiento),
      "cancelaciones" := JNum(m.cancelaciones),
      "pedidosRevision" := JNum(m.pedidosRevision)];
    if "nombre_comercial" in profile then counters["proveedor" := profile["nombre_comercial"]] else counters
  }

  /** GET: 401/404 as usual, 500 with the first failing query's message,
      otherwise the metrics of exactly the caller's orders and products. */
  function Get(auth: Auth, db: Db, today: int, parse: string -> Option<int>, ordersError: Option<string>, productsError: Option<string>): (r: Response)
    ensures Authorize(auth, db.proveedores, NotFound).Denied? ==> r == Authorize(auth, db.proveedores, NotFound).response
    ensures Authorize(auth, db.proveedores, NotFound).Granted? && ordersError.Some? ==> r == Response(500, Failure(ordersError.value))
    ensures Authorize(auth, db.proveedores, NotFound).Granted? && ordersError.None? && productsError.Some? ==>
      r == Response(500, Failure(productsError.value))
    ensures r.status == 200 <==> Authorize(auth, db.proveedores, NotFound).Granted? && ordersError.None? && productsError.None?
    ensures r.status == 200 ==>
      var supplier := IdOf(Authorize(auth, db.proveedores, NotFound).profile);
      var m := Summarize(OrdersOf(Where(db.pedidos, Received(supplier)), parse), ProductsOf(Where(db.productos, Published(supplier))), today);
      && r.payload.Record?
      && r.payload.row == Report(Authorize(auth, db.proveedores, NotFound).profile, m)
      && m.productosPublicados == |Where(db.productos, Published(supplier))|
  {
    match Authorize(auth, db.proveedores, NotFound)
    case Denied(resp) => resp
    case Granted(p) =>
      if ordersError.Some? then Response(500, Failure(ordersError.value))
      else if productsError.Some? then Response(500, Failure(productsError.value))
      else
        var orders := OrdersOf(Where(db.pedidos, Received(IdOf(p))), parse);
        var products := ProductsOf(Where(db.productos, Published(IdOf(p))));
        Response(200, Record(Report(p, Summarize(orders, products, today))))
  }
}

=== FILE: orders_api.dfy ===
/** The florist's own orders endpoint (`/api/pedidos`). GET and POST are
    scoped to the caller's florist row; PATCH and DELETE act on any order
    by id and never consult the session. */
module OrdersApi {
  import opened Wrappers
  import opened Json
  import opened Tables
  import opened Api
  import Seqs

  const NotFound := "No se encontró la florería del usuario"

  const Columns: set<string> := {"id", "comprador_id", "proveedor_id", "total", "estado", "notas", "created_at"}

  /** Columns a new order copies from the body besides the two required ones. */
  const PostFields: set<string> := {"proveedor_id", "total", "notas"}

  /** The only columns PATCH writes. */
  const Editable: set<string> := {"estado", "notas"}

  function Placed(florist: Json): Filter {
    [("comprador_id", florist)]
  }

  /** GET: the orders the caller's florist placed, newest first. */
  function Get(auth: Auth, db: Db, dbError: Option<string>): (out: Outcome)
    ensures out.db == db
    ensures Authorize(auth, db.florerias, NotFound).Denied? ==> out.response == Authorize(auth, db.florerias, NotFound).response
    ensures Authorize(auth, db.florerias, NotFound).Granted? && dbError.Some? ==> out.response == Response(500, Failure(dbError.value))
    ensures out.response.status == 200 <==> Authorize(auth, db.florerias, NotFound).Granted? && dbError.None?
    ensures out.response.status == 200 ==>
      var florist := IdOf(Authorize(auth, db.florerias, NotFound).profile);
      && out.response.payload.Listing?
      && ListsOnly(out.response.payload.rows, db.pedidos, Placed(florist), Some(Columns))
      && ListsExactly(out.response.payload.rows, db.pedidos, Placed(florist), Some(Columns))
      && Seqs.SortedNewest(out.response.payload.rows, Stamp)
      && |out.response.payload.rows| == |Where(db.pedidos, Placed(florist))|
  {
    match Authorize(auth, db.florerias, NotFound)
    case Denied(r) => Outcome(r, db)
    case Granted(p) =>
      if dbError.Some? then Outcome(Response(500, Failure(dbError.value)), db)
      else Outcome(Response(200, Listing(Query(db.pedidos, Placed(IdOf(p)), Some(Columns)))), db)
  }

  function NewOrder(body: Row, florist: Json, generated: Row): (r: Row)
    ensures "comprador_id" in r && r["comprador_id"] == florist
    ensures "estado" in r && r["estado"] == JStr("pendiente")
    ensures forall k :: k in PostFields && k in body ==> k in r && r[k] == body[k]
  {
    generated + Pick(body, PostFields) + map["comprador_id" := florist, "estado" := JStr("pendiente")]
  }

  /** POST: 400 unless `proveedor_id` and `total` are truthy, checked
      before the session; a new order is always `pendiente` and bought by
      the caller's florist. */
  function Post(body: Row, auth: Auth, db: Db, dbError: Option<string>, generated: Row): (out: Outcome)
    ensures !Truthy(Field(body, "proveedor_id")) || !Truthy(Field(body, "total")) ==>
      out == Outcome(Response(400, Failure("Proveedor y total son requeridos")), db)
    ensures Truthy(Field(body, "proveedor_id")) && Truthy(Field(body, "total")) && Authorize(auth, db.florerias, NotFound).Denied? ==>
      out == Outcome(Authorize(auth, db.florerias, NotFound).response, db)
    ensures Truthy(Field(body, "proveedor_id")) && Truthy(Field(body, "total")) && Authorize(auth, db.florerias, NotFound).Granted? && dbError.Some? ==>
      out == Outcome(Response(500, Failure(dbError.value)), db)
    ensures out.response.status == 200 <==> Truthy(Field(body, "proveedor_id")) && Truthy(Field(body, "total")) && Authorize(auth, db.florerias, NotFound).Granted? && dbError.None?
    ensures out.response.status != 200 ==> out.db == db
    ensures out.db == db.(pedidos := out.db.pedidos)
    ensures out.response.status == 200 ==>
      && Authorize(auth, db.florerias, NotFound).Granted?
      && |out.db.pedidos| == |db.pedidos| + 1
      && out.db.pedidos[..|db.pedidos|] == db.pedidos
      && var row := out.db.pedidos[|db.pedidos|];
         && "comprador_id" in row && row["comprador_id"] == IdOf(Authorize(auth, db.florerias, NotFound).profile)
         && "estado" in row && row["estado"] == JStr("pendiente")
         && "proveedor_id" in row && row["proveedor_id"] == body["proveedor_id"]
         && "total" in row && row["total"] == body["total"]
  {
    if !Truthy(Field(body, "proveedor_id")) || !Truthy(Field(body, "total")) then
      Outcome(Response(400, Failure("Proveedor y total son requeridos")), db)
    else
      match Authorize(auth, db.florerias, NotFound)
      case Denied(r) => Outcome(r, db)
      case Granted(p) =>
        if dbError.Some? then Outcome(Response(500, Failure(dbError.value)), db)
        else
          var t := db.pedidos + [NewOrder(body, IdOf(p), generated)];
          assert t[..|db.pedidos|] == db.pedidos;
          Outcome(Succeeded, db.(pedidos := t))
  }

  /** PATCH `?id=`: 400 without an id; otherwise `estado` and `notas` are
      written to every order with that id, whoever placed it. */
  function Patch(id: Option<string>, body: Row, db: Db, dbError: Option<string>): (out: Outcome)
    ensures id.None? || id.value == "" ==> out == Outcome(Response(400, Failure("Falta el ID del pedido")), db)
    ensures id.Some? && id.value != "" && dbError.Some? ==> out == Outcome(Response(500, Failure(dbError.value)), db)
    ensures out.response.status == 200 <==> id.Some? && id.value != "" && dbError.None?
    ensures out.response.status != 200 ==> out.db == db
    ensures out.db == db.(pedidos := out.db.pedidos)
    ensures out.response.status == 200 ==>
      ScopedUpdate(db.pedidos, out.db.pedidos, [("id", JStr(id.value))], Pick(body, Editable))
  {
    if id.None? || id.value == "" then Outcome(Response(400, Failure("Falta el ID del pedido")), db)
    else if dbError.Some? then Outcome(Response(500, Failure(dbError.value)), db)
    else
      var f := [("id", JStr(id.value))];
      Outcome(Succeeded, db.(pedidos := UpdateWhere(db.pedidos, f, Pick(body, Editable))))
  }

  /** DELETE `?id=`: 400 without an id; otherwise every order with that id
      is removed, whoever placed it. */
  function Delete(id: Option<string>, db: Db, dbError: Option<string>): (out: Outcome)
    ensures id.None? || id.value == "" ==> out == Outcome(Response(400, Failure("Falta el ID")), db)
    ensures id.Some? && id.value != "" && dbError.Some? ==> out == Outcome(Response(500, Failure(dbError.value)), db)
    ensures out.response.status == 200 <==> id.Some? && id.value != "" && dbError.None?
    ensures out.response.status != 200 ==> out.db == db
    ensures out.db == db.(pedidos := out.db.pedidos)
    ensures out.response.status == 200 ==> ScopedDelete(db.pedidos, out.db.pedidos, [("id", JStr(id.value))])
  {
    if id.None? || id.value == "" then Outcome(Response(400, Failure("Falta el ID")), db)
    else if dbError.Some? then Outcome(Response(500, Failure(dbError.value)), db)
    else
      DeleteWhereIsScoped(db.pedidos, [("id", JStr(id.value))]);
      Outcome(Succeeded, db.(pedidos := DeleteWhere(db.pedidos, [("id", JStr(id.value))])))
  }

  /** PATCH has no ownership check: the order another florist placed gets
      its status rewritten all the same. */
  lemma PatchIgnoresBuyer(id: string, estado: Json, db: Db, i: int)
    requires id != "" && estado != JNull
    requires 0 <= i < |db.pedidos|
    requires "id" in db.pedidos[i] && db.pedidos[i]["id"] == JStr(id)
    ensures var out := Patch(Some(id), map["estado" := estado], db, None);
      && out.response.status == 200
      && "estado" in out.db.pedidos[i] && out.db.pedidos[i]["estado"] == estado
      && (forall k :: k in db.pedidos[i] && k != "estado" ==> k in out.db.pedidos[i] && out.db.pedidos[i][k] == db.pedidos[i][k])
  {
    var f := [("id", JStr(id))];
    assert EqHolds(db.pedidos[i], f[0].0, f[0].1);
    assert Matches(db.pedidos[i], f);
    assert Pick(map["estado" := estado], Editable) == map["estado" := estado];
  }

  /** DELETE has no ownership check either: any existing order id is gone
      afterwards, whatever its buyer. */
  lemma DeleteIgnoresBuyer(id: string, db: Db, i: int)
    requires id != ""
    requires 0 <= i < |db.pedidos|
    requires "id" in db.pedidos[i] && db.pedidos[i]["id"] == JStr(id)
    ensures db.pedidos[i] !in Delete(Some(id), db, None).db.pedidos
  {
    var f := [("id", JStr(id))];
    assert EqHolds(db.pedidos[i], f[0].0, f[0].1);
  }
}

=== FILE: paths.dfy ===
/** Path segments as the guards compute them
    (`pathname.split("/").filter(Boolean)`), and what they are for the
    dashboard paths the guards redirect to. */
module Paths {
  import Seqs
  import Text

  predicate NonEmpty(s: string) { s != "" }

  /** `pathname.split("/").filter(Boolean)`. */
  function Segments(path: string): seq<string> {
    Seqs.Filter(Text.Split(path, "/"), NonEmpty)
  }

  /** Joining "/"-free parts with "/" and taking segments keeps exactly
      the non-empty parts. */
  lemma SegmentsOfJoin(parts: seq<string>, path: string)
    requires |parts| >= 1 && path == Text.Join(parts, "/")
    requires forall k :: 0 <= k < |parts| ==> !Text.HasChar(parts[k], '/')
    ensures Segments(path) == Seqs.Filter(parts, NonEmpty)
  {
    Text.SplitJoin(parts, "/");
  }

  /** The parts of a rooted path "/name/p1/.../pn": an empty one before
      the first "/", then "/"-free, non-empty ones. */
  lemma NamedParts(name: string, rest: seq<string>)
    requires name != "" && !Text.HasChar(name, '/')
    requires forall k :: 0 <= k < |rest| ==> rest[k] != "" && !Text.HasChar(rest[k], '/')
    ensures var parts := ["", name] + rest;
      && (forall k :: 0 <= k < |parts| ==> !Text.HasChar(parts[k], '/'))
      && parts[0] == "" && !NonEmpty(parts[0])
      && (forall k :: 1 <= k < |parts| ==> NonEmpty(parts[k]))
      && parts[1..] == [name] + rest
  {
    var parts := ["", name] + rest;
    assert !Text.HasChar("", '/');
    forall k | 0 <= k < |parts| ensures !Text.HasChar(parts[k], '/') && (k >= 1 ==> NonEmpty(parts[k])) {
      if k >= 2 {
        assert parts[k] == rest[k - 2];
      }
    }
    assert parts[1..] == [name] + rest;
  }

  /** A rooted path "/name/p1/.../pn" has the segments name, p1, ..., pn. */
  lemma NamedSegments(name: string, rest: seq<string>)
    requires name != "" && !Text.HasChar(name, '/')
    requires |rest| >= 1
    requires forall k :: 0 <= k < |rest| ==> rest[k] != "" && !Text.HasChar(rest[k], '/')
    ensures Segments("" + "/" + (name + "/" + Text.Join(rest, "/"))) == [name] + rest
  {
    var parts := ["", name] + rest;
    var path := "" + "/" + (name + "/" + Text.Join(rest, "/"));
    Text.JoinTwoCons("", name, rest, "/");
    NamedParts(name, rest);
    SegmentsOfJoin(parts, path);
    Seqs.FilterDropsHead(parts, NonEmpty);
  }

  /** A rooted path "/name" has the one segment name. */
  lemma SingleSegment(name: string)
    requires name != "" && !Text.HasChar(name, '/')
    ensures Segments("" + "/" + name) == [name]
  {
    var parts := ["", name];
    assert parts[1..] == [name];
    assert Text.Join(parts, "/") == "" + "/" + name;
    assert !Text.HasChar("", '/');
    SegmentsOfJoin(parts, "" + "/" + name);
    Seqs.FilterDropsHead(parts, NonEmpty);
  }

  lemma DashboardConcat(j: string)
    ensures "" + "/" + ("dashboard" + "/" + j) == "/dashboard/" + j
  {
    var lhs := "" + "/" + ("dashboard" + "/" + j);
    assert |lhs| == 11 + |j|;
    forall i | 0 <= i < |lhs| ensures lhs[i] == ("/dashboard/" + j)[i] {
      if i >= 11 {
        assert lhs[i] == j[i - 11];
      }
    }
  }

  lemma DashboardHasNoSlash()
    ensures !Text.HasChar("dashboard", '/')
  {
    var d := "dashboard";
    forall i | 0 <= i < |d| ensures d[i] != '/' { }
  }

  /** The segments of "/dashboard/" followed by "/"-free, non-empty
      parts are "dashboard" followed by those parts. */
  lemma DashboardSegments(rest: seq<string>)
    requires |rest| >= 1
    requires forall k :: 0 <= k < |rest| ==> rest[k] != "" && !Text.HasChar(rest[k], '/')
    ensures Segments("/dashboard/" + Text.Join(rest, "/")) == ["dashboard"] + rest
  {
    DashboardHasNoSlash();
    NamedSegments("dashboard", rest);
    DashboardConcat(Text.Join(rest, "/"));
  }

  /** "/dashboard" alone has the one segment "dashboard". */
  lemma DashboardRootSegments()
    ensures Segments("/dashboard") == ["dashboard"]
  {
    DashboardHasNoSlash();
    SingleSegment("dashboard");
    assert "" + "/" + "dashboard" == "/dashboard";
  }
}

=== FILE: productos_api.dfy ===
/** The public product endpoint (`/api/productos`): the marketplace listing
    with each product's seller name, product creation by any seller kind,
    and deletion by id. */
module ProductosApi {
  import opened Wrappers
  import opened Json
  import opened Tables
  import opened Api
  import Seqs
  import SupplierCatalogApi

  /** A product row together with the three embedded seller relations the
      query asks for; `None` is a relation that came back null. */
  datatype Fetched = Fetched(row: Row, proveedores: Option<seq<Row>>, productores: Option<seq<Row>>, agentes: Option<seq<Row>>)

  /** The product columns copied into each listed product. */
  const Columns: set<string> := {"id", "nombre", "descripcion", "precio", "imagen_url", "tipo_vendedor", "vendedor_id"}

  /** The body fields a new product takes over. */
  const PostFields: set<string> := {"nombre", "descripcion", "precio", "imagen_url", "tipo_vendedor"}

  const Unnamed := JStr("Sin nombre")

  function FetchedStamp(l: Fetched): Option<int> {
    Stamp(l.row)
  }

  /** The relation the product's `tipo_vendedor` selects, if it is one of
      the three seller kinds. */
  function SellerRelation(l: Fetched): (rel: Option<seq<Row>>)
    ensures Field(l.row, "tipo_vendedor") == Some(JStr("proveedor")) ==> rel == l.proveedores
    ensures Field(l.row, "tipo_vendedor") == Some(JStr("productor")) ==> rel == l.productores
    ensures Field(l.row, "tipo_vendedor") == Some(JStr("agente")) ==> rel == l.agentes
    ensures Field(l.row, "tipo_vendedor") !in {Some(JStr("proveedor")), Some(JStr("productor")), Some(JStr("agente"))} ==> rel.None?
  {
    var tipo := Field(l.row, "tipo_vendedor");
    if tipo == Some(JStr("proveedor")) then l.proveedores
    else if tipo == Some(JStr("productor")) then l.productores
    else if tipo == Some(JStr("agente")) then l.agentes
    else None
  }

  /** `rel?.[0]?.nombre_comercial ?? "Sin nombre"`. */
  function SellerName(l: Fetched): (name: Json)
    ensures name != JNull
    ensures name != Unnamed ==>
      var rel := SellerRelation(l);
      rel.Some? && |rel.value| > 0 && Field(rel.value[0], "nombre_comercial") == Some(name)
    ensures (var rel := SellerRelation(l);
             rel.Some? && |rel.value| > 0 && Field(rel.value[0], "nombre_comercial").Some?
             && Field(rel.value[0], "nombre_comercial") != Some(JNull)) ==>
      name == SellerRelation(l).value[0]["nombre_comercial"]
    ensures (var rel := SellerRelation(l);
             rel.None? || |rel.value| == 0 || Field(rel.value[0], "nombre_comercial") in {None, Some(JNull)}) ==>
      name == Unnamed
  {
    var rel := SellerRelation(l);
    if rel.Some? && |rel.value| > 0 && "nombre_comercial" in rel.value[0] && rel.value[0]["nombre_comercial"] != JNull
    then rel.value[0]["nombre_comercial"]
    else Unnamed
  }

  /** The `data.map(...)` step: each listing becomes its seven product
      columns plus `vendedor_nombre`, in the same order. */
  function Present(ls: seq<Fetched>): (r: seq<Row>)
    ensures |r| == |ls|
    ensures forall i :: 0 <= i < |ls| ==>
      && r[i].Keys == (ls[i].row.Keys * Columns) + {"vendedor_nombre"}
      && r[i]["vendedor_nombre"] == SellerName(ls[i])
      && (forall k :: k in Columns && k in ls[i].row ==> r[i][k] == ls[i].row[k])
  {
    seq(|ls|, i requires 0 <= i < |ls| => Pick(ls[i].row, Columns)[ "vendedor_nombre" := SellerName(ls[i])])
  }

  /** GET: every product, newest first, each with its seller's name. The
      query never fails for lack of a session. */
  function Get(products: seq<Fetched>, dbError: Option<string>): (r: Response)
    ensures r.status == 200 <==> dbError.None?
    ensures dbError.Some? ==> r == Response(500, Failure("Error al obtener productos"))
    ensures r.status == 200 ==>
      && r.payload.Listing?
      && |r.payload.rows| == |products|
      && forall i :: 0 <= i < |r.payload.rows| ==>
           exists j :: 0 <= j < |products| && r.payload.rows[i] == Present([products[j]])[0]
    ensures r.status == 200 ==>
      exists sorted: seq<Fetched> :: multiset(sorted) == multiset(products) && Seqs.SortedNewest(sorted, FetchedStamp)
        && r.payload.rows == Present(sorted)
  {
    if dbError.Some? then Response(500, Failure("Error al obtener productos"))
    else
      var sorted := Seqs.SortNewest(products, FetchedStamp);
      var rows := Present(sorted);
      assert forall i :: 0 <= i < |rows| ==> rows[i] == Present([sorted[i]])[0];
      forall i | 0 <= i < |rows|
        ensures exists j :: 0 <= j < |products| && rows[i] == Present([products[j]])[0]
      {
        assert sorted[i] in multiset(products);
        var j :| 0 <= j < |products| && products[j] == sorted[i];
      }
      Response(200, Listing(rows))
  }

  /** The seller table a `tipo_vendedor` names, if any. */
  function SellerTable(tipo: Option<Json>, db: Db): Option<Table> {
    if tipo == Some(JStr("proveedor")) then Some(db.proveedores)
    else if tipo == Some(JStr("productor")) then Some(db.productores)
    else if tipo == Some(JStr("agente")) then Some(db.agentes)
    else None
  }

  /** `vendedorId`: the id of the caller's row in the named seller table,
      or nothing when the kind is unknown or there is not exactly one row. */
  function SellerId(userId: string, tipo: Option<Json>, db: Db): (id: Option<Json>)
    ensures id.Some? ==>
      && SellerTable(tipo, db).Some?
      && ProfileOf(SellerTable(tipo, db).value, userId).Some?
      && Field(ProfileOf(SellerTable(tipo, db).value, userId).value, "id") == id
    ensures SellerTable(tipo, db).Some? && ProfileOf(SellerTable(tipo, db).value, userId).Some? ==>
      id == Field(ProfileOf(SellerTable(tipo, db).value, userId).value, "id")
  {
    match SellerTable(tipo, db)
    case None => None
    case Some(t) =>
      match ProfileOf(t, userId)
      case None => None
      case Some(p) => Field(p, "id")
  }

  /** POST: 400 unless `nombre`, `precio` and `tipo_vendedor` are truthy;
      401 without a session; 404 when the caller has no row of that seller
      kind; otherwise a product owned by that row is appended. */
  function Post(body: Row, auth: Auth, db: Db, dbError: Option<string>, generated: Row): (out: Outcome)
    ensures !Truthy(Field(body, "nombre")) || !Truthy(Field(body, "precio")) || !Truthy(Field(body, "tipo_vendedor")) ==>
      out == Outcome(Response(400, Failure("Faltan campos obligatorios")), db)
    ensures Truthy(Field(body, "nombre")) && Truthy(Field(body, "precio")) && Truthy(Field(body, "tipo_vendedor")) ==>
      && (auth.Anonymous? ==> out == Outcome(NotAuthenticated, db))
      && (auth.SignedIn? && !Truthy(SellerId(auth.userId, Field(body, "tipo_vendedor"), db)) ==>
            out == Outcome(Response(404, Failure("No se encontró el perfil del vendedor.")), db))
    ensures dbError.Some? && out.response.status != 400 && out.response.status != 401 && out.response.status != 404 ==>
      out == Outcome(Response(500, Failure("No se pudo crear el producto")), db)
    ensures out.response.status == 200 <==>
      && Truthy(Field(body, "nombre")) && Truthy(Field(body, "precio")) && Truthy(Field(body, "tipo_vendedor"))
      && auth.SignedIn? && Truthy(SellerId(auth.userId, Field(body, "tipo_vendedor"), db)) && dbError.None?
    ensures out.response.status != 200 ==> out.db == db
    ensures out.db == db.(productos := out.db.productos)
    ensures out.response.status == 200 ==>
      && auth.SignedIn?
      && Truthy(SellerId(auth.userId, Field(body, "tipo_vendedor"), db))
      && |out.db.productos| == |db.productos| + 1
      && out.db.productos[..|db.productos|] == db.productos
      && var row := out.db.productos[|db.productos|];
         && "vendedor_id" in row && row["vendedor_id"] == SellerId(auth.userId, Field(body, "tipo_vendedor"), db).value
         && (forall k :: k in PostFields && k in body ==> k in row && row[k] == body[k])
  {
    if !Truthy(Field(body, "nombre")) || !Truthy(Field(body, "precio")) || !Truthy(Field(body, "tipo_vendedor")) then
      Outcome(Response(400, Failure("Faltan campos obligatorios")), db)
    else
      match auth
      case Anonymous => Outcome(NotAuthenticated, db)
      case SignedIn(uid) =>
        var seller := SellerId(uid, Field(body, "tipo_vendedor"), db);
        if !Truthy(seller) then Outcome(Response(404, Failure("No se encontró el perfil del vendedor.")), db)
        else if dbError.Some? then Outcome(Response(500, Failure("No se pudo crear el producto")), db)
        else
          var row := generated + Pick(body, PostFields) + map["vendedor_id" := seller.value];
          var t := db.productos + [row];
          assert t[..|db.productos|] == db.productos;
          Outcome(Succeeded, db.(productos := t))
  }

  /** DELETE `?id=`: 400 without an id; otherwise the product with that id
      is removed, by anyone. */
  function Delete(id: Option<string>, db: Db, dbError: Option<string>): (out: Outcome)
    ensures id.None? || id.value == "" ==> out == Outcome(Response(400, Failure("Falta el ID del producto")), db)
    ensures out.response.status == 200 <==> id.Some? && id.value != "" && dbError.None?
    ensures id.Some? && id.value != "" && dbError.Some? ==> out == Outcome(Response(500, Failure("No se pudo eliminar el producto")), db)
    ensures out.db == db.(productos := out.db.productos)
    ensures out.response.status == 200 ==> ScopedDelete(db.productos, out.db.productos, [("id", JStr(id.value))])
    ensures out.response.status != 200 ==> out.db == db
  {
    if id.None? || id.value == "" then Outcome(Response(400, Failure("Falta el ID del producto")), db)
    else if dbError.Some? then Outcome(Response(500, Failure("No se pudo eliminar el producto")), db)
    else
      DeleteWhereIsScoped(db.productos, [("id", JStr(id.value))]);
      Outcome(Succeeded, db.(productos := DeleteWhere(db.productos, [("id", JStr(id.value))])))
  }

  /** A signed-in user naming a seller kind other than the three known
      ones always gets 404: there is no table to look in. */
  lemma UnknownSellerKindIsNotFound(body: Row, uid: string, db: Db, dbError: Option<string>, generated: Row)
    requires Truthy(Field(body, "nombre")) && Truthy(Field(body, "precio")) && Truthy(Field(body, "tipo_vendedor"))
    requires Field(body, "tipo_vendedor") !in {Some(JStr("proveedor")), Some(JStr("productor")), Some(JStr("agente"))}
    ensures Post(body, SignedIn(uid), db, dbError, generated).response == Response(404, Failure("No se encontró el perfil del vendedor."))
  {
  }

  /** A product a supplier creates here under `tipo_vendedor: "proveedor"`
      is one the supplier's own catalog endpoint lists as theirs. */
  lemma SupplierPostLandsInCatalog(body: Row, uid: string, db: Db, generated: Row)
    requires Field(body, "tipo_vendedor") == Some(JStr("proveedor"))
    requires Post(body, SignedIn(uid), db, None, generated).response.status == 200
    ensures var out := Post(body, SignedIn(uid), db, None, generated);
      var supplier := Authorize(SignedIn(uid), db.proveedores, SupplierCatalogApi.NotFound);
      && supplier.Granted?
      && Matches(out.db.productos[|db.productos|], SupplierCatalogApi.Owned(IdOf(supplier.profile)))
  {
    var out := Post(body, SignedIn(uid), db, None, generated);
    var row := out.db.productos[|db.productos|];
    var supplier := Authorize(SignedIn(uid), db.proveedores, SupplierCatalogApi.NotFound);
    var f := SupplierCatalogApi.Owned(IdOf(supplier.profile));
    assert "tipo_vendedor" in body && body["tipo_vendedor"] == JStr("proveedor");
    assert EqHolds(row, f[0].0, f[0].1);
    assert EqHolds(row, f[1].0, f[1].1);
  }
}

=== FILE: register_form.dfy ===
/** The registration form (`src/app/register/RegisterForm.tsx`): it adopts
    a role from the temporary role cookie, validates the fields in a fixed
    order, signs the user up, records the user's row and replaces the page
    by the role's dashboard. */
module RegisterForm {
  import opened Wrappers
  import opened Json
  import opened Edge
  import opened Cookies
  import Text

  const TempCookie := "fp-role-temp"
  const TempPrefix := "fp-role-temp="

  const NoRoleMessage := "Selecciona un rol"
  const BadEmailMessage := "Correo inválido"
  const ShortNameMessage := "Nombre demasiado corto"
  const ShortPasswordMessage := "La contraseña debe tener al menos 8 caracteres"
  const NoUserMessage := "No se pudo crear el usuario"
  const UnexpectedMessage := "Error inesperado al registrar"
  const DoneNotice := "¡Registro completado! Redirigiendo…"

  /** `DASHBOARD_BY_ROLE`: defined on the four selectable roles only. */
  function DashboardByRole(role: string): (path: Option<string>)
    ensures path.Some? <==> role in {"floreria", "proveedor", "productor", "agente"}
    ensures path.Some? ==> path.value == "/dashboard/" + role
  {
    if role == "floreria" then Some("/dashboard/floreria")
    else if role == "proveedor" then Some("/dashboard/proveedor")
    else if role == "productor" then Some("/dashboard/productor")
    else if role == "agente" then Some("/dashboard/agente")
    else None
  }

  // ---------------------------------------------------------------------
  // isEmail, as a substring condition
  // ---------------------------------------------------------------------

  /** A character of `[^@\s]`. */
  predicate Plain(c: char) {
    c != '@' && !Text.IsJsWhitespace(c)
  }

  /** A non-empty run of `[^@\s]`. */
  predicate PlainRun(s: string) {
    |s| > 0 && forall i :: 0 <= i < |s| ==> Plain(s[i])
  }

  /** `v[a..e]` is a match of `X@Y.Z`, with the '@' at `at` and the '.' at
      `dot`. */
  predicate EmailAt(v: string, a: int, at: int, dot: int, e: int) {
    && 0 <= a < at < dot < e <= |v|
    && PlainRun(v[a..at]) && v[at] == '@'
    && PlainRun(v[at + 1..dot]) && v[dot] == '.'
    && PlainRun(v[dot + 1..e])
  }

  /** The unanchored test `/[^@\s]+@[^@\s]+\.[^@\s]+/.test(v)`: some
      substring of `v` has the shape `X@Y.Z`. */
  predicate IsEmail(v: string) {
    exists a, at, dot, e | 0 <= a < at < dot < e <= |v| :: EmailAt(v, a, at, dot, e)
  }

  /** A slice of `v` reappears, shifted, inside `before + v + after`. */
  lemma SliceShifts(before: string, v: string, after: string, i: int, j: int)
    requires 0 <= i <= j <= |v|
    ensures (before + v + after)[|before| + i..|before| + j] == v[i..j]
  {
    var w := before + v + after;
    var k := |before|;
    forall n | 0 <= n < j - i ensures w[k + i..k + j][n] == v[i..j][n] {
      assert w[k + i + n] == v[i + n];
    }
  }

  /** A match inside `v` is a match, shifted, inside `before + v + after`. */
  lemma EmailAtShifts(before: string, v: string, after: string, a: int, at: int, dot: int, e: int)
    requires EmailAt(v, a, at, dot, e)
    ensures EmailAt(before + v + after, |before| + a, |before| + at, |before| + dot, |before| + e)
  {
    var w := before + v + after;
    var k := |before|;
    SliceShifts(before, v, after, a, at);
    SliceShifts(before, v, after, at + 1, dot);
    SliceShifts(before, v, after, dot + 1, e);
    assert w[k + at] == v[at] && w[k + dot] == v[dot];
  }

  /** Text around a match never hides it: the test is not anchored. */
  lemma EmailIsUnanchored(before: string, v: string, after: string)
    requires IsEmail(v)
    ensures IsEmail(before + v + after)
  {
    var a, at, dot, e :| 0 <= a < at < dot < e <= |v| && EmailAt(v, a, at, dot, e);
    EmailAtShifts(before, v, after, a, at, dot, e);
    var k := |before|;
    assert 0 <= k + a < k + at < k + dot < k + e <= |before + v + after|;
  }

  /** Without an '@' nothing is an address. */
  lemma NoAtNoEmail(v: string)
    requires !Text.HasChar(v, '@')
    ensures !IsEmail(v)
  {
    forall a, at, dot, e | 0 <= a < at < dot < e <= |v|
      ensures !EmailAt(v, a, at, dot, e)
    {
      assert v[at] != '@';
    }
  }

  /** An address followed by a space and more text passes. */
  lemma TrailingTextPasses()
    ensures IsEmail("a@b.c x")
  {
    var v := "a@b.c x";
    assert v[0..1] == "a" && v[2..3] == "b" && v[4..5] == "c";
    assert EmailAt(v, 0, 1, 3, 5);
  }

  // ---------------------------------------------------------------------
  // min and validate
  // ---------------------------------------------------------------------

  /** `min(n)(v)`: the trimmed text has at least `n` characters. */
  predicate Min(n: nat, v: string) {
    |Text.Trim(v)| >= n
  }

  /** Whitespace around a name or password never counts towards `min`. */
  lemma MinIgnoresPadding(n: nat, w1: string, v: string, w2: string)
    requires Text.Blank(w1) && Text.Blank(w2)
    ensures Min(n, w1 + v + w2) <==> Min(n, v)
  {
    Text.TrimIgnoresPadding(w1, v, w2);
  }

  /** A role is set when it is present and non-empty (`!role`). */
  predicate HasRole(role: Option<string>) {
    role.Some? && role.value != ""
  }

  /** `validate`: the first failing check in the order role, e-mail, name,
      password, or nothing when all pass. */
  function Validate(role: Option<string>, email: string, name: string, password: string): (err: Option<string>)
    ensures err.None? <==> HasRole(role) && IsEmail(email) && Min(3, name) && Min(8, password)
    ensures !HasRole(role) ==> err == Some(NoRoleMessage)
    ensures HasRole(role) && !IsEmail(email) ==> err == Some(BadEmailMessage)
    ensures HasRole(role) && IsEmail(email) && !Min(3, name) ==> err == Some(ShortNameMessage)
    ensures HasRole(role) && IsEmail(email) && Min(3, name) && !Min(8, password) ==> err == Some(ShortPasswordMessage)
  {
    if !HasRole(role) then Some(NoRoleMessage)
    else if !IsEmail(email) then Some(BadEmailMessage)
    else if !Min(3, name) then Some(ShortNameMessage)
    else if !Min(8, password) then Some(ShortPasswordMessage)
    else None
  }

  // ---------------------------------------------------------------------
  // The temporary role cookie
  // ---------------------------------------------------------------------

  /** Length of the run of non-';' characters starting at `i`. */
  function RunLength(s: string, i: nat): (n: nat)
    requires i <= |s|
    ensures i + n <= |s|
    ensures forall j :: i <= j < i + n ==> s[j] != ';'
    ensures i + n == |s| || s[i + n] == ';'
    decreases |s| - i
  {
    if i == |s| || s[i] == ';' then 0 else 1 + RunLength(s, i + 1)
  }

  /** `(?:^|; )fp-role-temp=([^;]+)` matches with its entry starting at
      `k`: the start of the string or just after "; ", the name and '=',
      then at least one non-';' character. */
  predicate MatchAt(s: string, k: int) {
    && 0 <= k
    && k + |TempPrefix| < |s|
    && (k == 0 || (k >= 2 && s[k - 2..k] == "; "))
    && s[k..k + |TempPrefix|] == TempPrefix
    && s[k + |TempPrefix|] != ';'
  }

  /** The captured group of the match at `k`: everything after '=' up to
      the next ';'. */
  function Captured(s: string, k: int): (v: string)
    requires MatchAt(s, k)
    ensures |v| > 0 && !Text.HasChar(v, ';')
  {
    var i := k + |TempPrefix|;
    s[i..i + RunLength(s, i)]
  }

  /** The least match start at or after `from`. */
  function FirstMatch(s: string, from: nat): (k: Option<nat>)
    ensures k.Some? ==> from <= k.value && MatchAt(s, k.value)
    ensures k.Some? ==> forall j :: from <= j < k.value ==> !MatchAt(s, j)
    ensures k.None? ==> forall j :: from <= j ==> !MatchAt(s, j)
    decreases |s| - from
  {
    if from >= |s| then None
    else if MatchAt(s, from) then Some(from)
    else FirstMatch(s, from + 1)
  }

  /** `document.cookie.match(...)?.[1]`: the captured value of the leftmost
      match. */
  function TempRole(documentCookie: string): (v: Option<string>)
    ensures v.None? <==> forall k :: !MatchAt(documentCookie, k)
    ensures v.Some? ==> exists k :: (MatchAt(documentCookie, k) && v.value == Captured(documentCookie, k)
      && forall j :: 0 <= j < k ==> !MatchAt(documentCookie, j))
  {
    match FirstMatch(documentCookie, 0)
    case None => None
    case Some(k) => Some(Captured(documentCookie, k))
  }

  /** The mount effect: without a role, the decoded temporary cookie value
      becomes the role, whatever text it holds. `decode` stands for
      `decodeURIComponent`. */
  function Adopt(role: Option<string>, documentCookie: string, decode: string -> string): (r: Option<string>)
    ensures HasRole(role) ==> r == role
    ensures !HasRole(role) && TempRole(documentCookie).Some? ==> r == Some(decode(TempRole(documentCookie).value))
    ensures !HasRole(role) && TempRole(documentCookie).None? ==> r == role
  {
    if !HasRole(role) then
      match TempRole(documentCookie)
      case Some(v) => Some(decode(v))
      case None => role
    else role
  }

  /** The cookie as the only entry of `document.cookie` is read back. */
  lemma LoneTempCookieIsRead(value: string)
    requires value != "" && !Text.HasChar(value, ';')
    ensures TempRole(TempPrefix + value) == Some(value)
  {
    var s := TempPrefix + value;
    var L := |TempPrefix|;
    assert s[0..L] == TempPrefix;
    assert s[L] == value[0];
    assert value[0] != ';' by { assert !(0 <= 0 < |value| && value[0] == ';'); }
    assert MatchAt(s, 0);
    assert s[L..] == value;
    assert FirstMatch(s, 0) == Some(0);
    forall j | L <= j < |s| ensures s[j] != ';' {
      assert s[j] == value[j - L];
    }
    RunToEnd(s, L);
    assert s[L..L + RunLength(s, L)] == value;
  }

  /** A run with no ';' up to the end of the text reaches the end. */
  lemma {:induction false} RunToEnd(s: string, i: nat)
    requires i <= |s|
    requires forall j :: i <= j < |s| ==> s[j] != ';'
    ensures RunLength(s, i) == |s| - i
    decreases |s| - i
  {
    if i < |s| {
      RunToEnd(s, i + 1);
    }
  }

  // ---------------------------------------------------------------------
  // handleSubmit
  // ---------------------------------------------------------------------

  /** The outcome of `signUp`: an error (with its message), no user, or
      the new user's id. */
  datatype SignUp = SignUpFailed(message: string) | NoUser | SignedUp(userId: string)

  /** What a submit did: the error or notice shown, the credentials sent to
      sign-up, the `usuarios` row sent for insertion, the cookie jar and the
      navigation. */
  datatype Submitted = Submitted(
    error: Option<string>, notice: Option<string>,
    signUp: Option<(string, string)>, inserted: Option<Row>,
    jar: Jar, nav: Nav)

  /** The `usuarios` row recorded for a new user. */
  function UserRow(userId: string, name: string, email: string, role: string): (r: Row)
    ensures r.Keys == {"id", "nombre", "email", "rol"}
    ensures r["id"] == JStr(userId) && r["rol"] == JStr(role)
  {
    map["id" := JStr(userId), "nombre" := JStr(name), "email" := JStr(email), "rol" := JStr(role)]
  }

  /** `err?.message || "Error inesperado al registrar"`. */
  function Shown(message: string): (m: string)
    ensures m != ""
    ensures message != "" ==> m == message
  {
    if message != "" then message else UnexpectedMessage
  }

  /** `handleSubmit`. `insertError` is the insert's failure, if any. The
      navigation target is `DASHBOARD_BY_ROLE[role]`, written "undefined"
      for a role outside the table. */
  function Submit(role: Option<string>, email: string, name: string, password: string,
                  signUp: SignUp, insertError: Option<string>, jar: Jar): (s: Submitted)
    ensures Validate(role, email, name, password).Some? ==>
      s == Submitted(Validate(role, email, name, password), None, None, None, jar, Stay)
    ensures Validate(role, email, name, password).None? ==> s.signUp == Some((email, password))
    ensures s.inserted.Some? <==> Validate(role, email, name, password).None? && signUp.SignedUp?
    ensures s.inserted.Some? ==> s.inserted.value == UserRow(signUp.userId, name, email, role.value)
    ensures s.error.Some? ==> s.notice.None? && s.jar == jar && s.nav == Stay
    ensures s.error.None? <==> s.inserted.Some? && insertError.None?
    ensures s.error.None? ==>
      && s.notice == Some(DoneNotice)
      && s.jar == ReceiveScript(jar, TempCookie, "", true)
      && s.nav == Replace(DashboardByRole(role.value).GetOr("undefined"))
  {
    match Validate(role, email, name, password)
    case Some(v) => Submitted(Some(v), None, None, None, jar, Stay)
    case None =>
      var sent := Some((email, password));
      match signUp
      case SignUpFailed(message) => Submitted(Some(Shown(message)), None, sent, None, jar, Stay)
      case NoUser => Submitted(Some(NoUserMessage), None, sent, None, jar, Stay)
      case SignedUp(userId) =>
        var row := Some(UserRow(userId, name, email, role.value));
        match insertError
        case Some(message) => Submitted(Some(Shown(message)), None, sent, row, jar, Stay)
        case None =>
          Submitted(None, Some(DoneNotice), sent, row, ReceiveScript(jar, TempCookie, "", true),
                    Replace(DashboardByRole(role.value).GetOr("undefined")))
  }

  /** A successful registration leaves no temporary role cookie behind,
      unless an http-only cookie of that name shields it. */
  lemma SuccessExpiresTempCookie(role: Option<string>, email: string, name: string, password: string,
                                 signUp: SignUp, jar: Jar)
    requires Submit(role, email, name, password, signUp, None, jar).error.None?
    requires !(TempCookie in jar && jar[TempCookie].httpOnly)
    ensures TempCookie !in Submit(role, email, name, password, signUp, None, jar).jar
  {
  }

  /** A role adopted from the temporary cookie is recorded as it is, even
      one no dashboard exists for: the user row gets `rol` "admin" and the
      page is replaced by an undefined target. */
  lemma UncheckedTempRoleIsRecorded(email: string, name: string, password: string, userId: string,
                                    jar: Jar, decode: string -> string)
    requires IsEmail(email) && Min(3, name) && Min(8, password)
    requires decode("admin") == "admin"
    ensures var role := Adopt(None, TempPrefix + "admin", decode);
      var s := Submit(role, email, name, password, SignedUp(userId), None, jar);
      && s.error.None?
      && s.inserted.Some? && s.inserted.value["rol"] == JStr("admin")
      && s.nav == Replace("undefined")
  {
    var admin := "admin";
    forall i | 0 <= i < |admin| ensures admin[i] != ';' { }
    LoneTempCookieIsRead(admin);
    var role := Adopt(None, TempPrefix + admin, decode);
    assert role == Some(admin);
    assert HasRole(role);
    assert Validate(role, email, name, password).None?;
    assert DashboardByRole(admin).None?;
  }
}

=== FILE: register_page.dfy ===
/** The stand-alone registration page (`src/app/register/page.tsx`): it
    signs the user up with the fixed florist role, asks the session
    endpoint for the matching role cookie, and moves on to the florist
    dashboard or to the login page. */
module RegisterPage {
  import opened Wrappers
  import opened Json
  import opened Edge
  import opened Cookies
  import SessionRoute

  const DefaultRole := "floreria"
  const SessionMessage := "No se pudo crear la sesión, intenta nuevamente."

  /** The outcome of `signUp`: an error with its message, or success with
      or without a session. */
  datatype SignUp = SignUpFailed(message: string) | SignedUp(hasSession: bool)

  /** What a submit did: the error shown, the sign-up metadata sent, the
      body posted to the session endpoint (if it was called), the cookie
      jar afterwards and the navigation. */
  datatype Submitted = Submitted(error: Option<string>, metadata: Row, sessionBody: Option<Row>, jar: Jar, nav: Nav)

  /** The sign-up metadata: the full name and the fixed role. */
  function Metadata(name: string): (r: Row)
    ensures r.Keys == {"full_name", "role"} && r["role"] == JStr(DefaultRole)
  {
    map["full_name" := JStr(name), "role" := JStr(DefaultRole)]
  }

  /** The JSON body posted to the session endpoint. */
  const SessionBody: Row := map["role" := JStr(DefaultRole)]

  /** `response.ok`: a status in 200..299. */
  predicate Ok(status: int) {
    200 <= status <= 299
  }

  /** `handleSubmit`. `session` is what the session endpoint answered;
      its cookie lands in the jar whether or not the answer is ok. */
  function Submit(name: string, signUp: SignUp, session: SessionRoute.Answer, jar: Jar): (s: Submitted)
    ensures s.metadata == Metadata(name)
    ensures signUp.SignUpFailed? ==> s == Submitted(Some(signUp.message), Metadata(name), None, jar, Stay)
    ensures signUp.SignedUp? ==> s.sessionBody == Some(SessionBody) && s.jar == SessionRoute.Apply(jar, session)
    ensures s.nav != Stay <==> signUp.SignedUp? && Ok(session.reply.status)
    ensures signUp.SignedUp? && !Ok(session.reply.status) ==> s.error == Some(SessionMessage)
    ensures s.nav != Stay ==> s.error.None? && s.nav == Push(if signUp.hasSession then "/dashboard/" + DefaultRole else "/login")
  {
    match signUp
    case SignUpFailed(message) => Submitted(Some(message), Metadata(name), None, jar, Stay)
    case SignedUp(hasSession) =>
      var after := SessionRoute.Apply(jar, session);
      if !Ok(session.reply.status) then Submitted(Some(SessionMessage), Metadata(name), Some(SessionBody), after, Stay)
      else Submitted(None, Metadata(name), Some(SessionBody), after, Push(if hasSession then "/dashboard/" + DefaultRole else "/login"))
  }

  /** Against the session endpoint itself, a successful sign-up always
      gets the role cookie: the fixed role is accepted, the cookie holds
      "floreria" and is http-only, and the page moves on. */
  lemma SessionAcceptsDefaultRole(name: string, hasSession: bool, jar: Jar, nodeEnv: string)
    ensures var s := Submit(name, SignedUp(hasSession), SessionRoute.Post(Some(SessionBody), nodeEnv), jar);
      && s.error.None?
      && SessionRoute.CookieName in s.jar && s.jar[SessionRoute.CookieName] == Stored(DefaultRole, true)
      && s.nav == Push(if hasSession then "/dashboard/floreria" else "/login")
  {
    assert "/dashboard/" + DefaultRole == "/dashboard/floreria";
    SessionRoute.PostStoresRole(jar, DefaultRole, nodeEnv);
  }
}

=== FILE: role_tables.dfy ===
/** The role tables of the edge gate, the login page, the registration form
    and the dashboard menu, side by side: they agree on three roles and
    disagree on "admin" and "productor". */
module RoleTables {
  import opened Wrappers
  import SrcMiddleware
  import LoginPage
  import RegisterForm
  import DashboardNav

  /** Florists, suppliers and agents are known everywhere, and every table
      sends them to the same dashboard. */
  lemma SharedRolesAgree(role: string)
    requires role in {"floreria", "proveedor", "agente"}
    ensures SrcMiddleware.RoleDashboard(role) == Some("/dashboard/" + role)
    ensures LoginPage.RoleDashboard(role) == "/dashboard/" + role
    ensures RegisterForm.DashboardByRole(role) == Some("/dashboard/" + role)
    ensures DashboardNav.Menu(role).Some? && DashboardNav.NavItems(role)[0].href == "/dashboard/" + role
  {
    DashboardNav.MenuShape(role);
  }

  /** A producer can register and log in, and has a menu, but the edge gate
      has no dashboard for the role. */
  lemma ProducerUnknownToEdgeGate()
    ensures SrcMiddleware.RoleDashboard("productor").None?
    ensures LoginPage.RoleDashboard("productor") == "/dashboard/productor"
    ensures RegisterForm.DashboardByRole("productor") == Some("/dashboard/productor")
    ensures DashboardNav.Menu("productor").Some?
  {
  }

  /** Only the edge gate knows administrators: login sends them to the
      florist dashboard, registration has no target and the menu falls back
      to the florist one. */
  lemma AdminKnownOnlyToEdgeGate()
    ensures SrcMiddleware.RoleDashboard("admin") == Some("/dashboard/admin")
    ensures LoginPage.RoleDashboard("admin") == "/dashboard/floreria"
    ensures RegisterForm.DashboardByRole("admin").None?
    ensures DashboardNav.Menu("admin").None?
  {
  }
}

=== FILE: root_middleware.dfy ===
/** The dashboard guard at the repository root (`middleware.ts`): a
    dashboard page needs an `fp-role` cookie and must be the cookie's own
    dashboard; signed-in users are bounced off the login and register
    pages. */
module RootMiddleware {
  import opened Wrappers
  import opened Edge
  import Seqs
  import Text
  import opened Paths

  const CookieName := "fp-role"
  const DashboardPrefix := "/dashboard"

  /** `getRoleRedirect`: plain concatenation, with no check of the role. */
  function RoleRedirect(role: string): (r: string)
    ensures Text.StartsWith(r, "/dashboard/")
    ensures r[|"/dashboard/"|..] == role
  {
    "/dashboard/" + role
  }

  /** Every cookie value has its own redirect target: different roles
      never share one. */
  lemma RoleRedirectInjective(a: string, b: string)
    requires RoleRedirect(a) == RoleRedirect(b)
    ensures a == b
  {
    assert a == RoleRedirect(a)[|"/dashboard/"|..];
  }

  /** `config.matcher`: "/dashboard/:path*", "/login" and "/register". */
  predicate Matched(path: string) {
    path == "/dashboard" || Text.StartsWith(path, "/dashboard/") || path == "/login" || path == "/register"
  }

  /** `segments[1]`, undefined when there are fewer than two. */
  function CurrentRole(path: string): Option<string> {
    var segs := Segments(path);
    if |segs| >= 2 then Some(segs[1]) else None
  }

  /** The middleware body. */
  function Middleware(path: string, roleCookie: Option<string>): (d: Decision)
    ensures Text.StartsWith(path, DashboardPrefix) && !Present(roleCookie) ==> d == Redirect("/login")
    ensures Text.StartsWith(path, DashboardPrefix) && Present(roleCookie) ==>
      (d == Next <==> CurrentRole(path).None? || CurrentRole(path).value == roleCookie.value)
    ensures (path == "/login" || path == "/register") ==>
      d == if Present(roleCookie) then Redirect(RoleRedirect(roleCookie.value)) else Next
    ensures !Text.StartsWith(path, DashboardPrefix) && path != "/login" && path != "/register" ==> d == Next
    ensures d.Redirect? ==> d.target == "/login" || (Present(roleCookie) && d.target == RoleRedirect(roleCookie.value))
  {
    if Text.StartsWith(path, DashboardPrefix) && !Present(roleCookie) then Redirect("/login")
    else if Text.StartsWith(path, DashboardPrefix) && CurrentRole(path).Some? && CurrentRole(path).value != "" && CurrentRole(path).value != roleCookie.value then
      Redirect(RoleRedirect(roleCookie.value))
    else if (path == "/login" || path == "/register") && Present(roleCookie) then Redirect(RoleRedirect(roleCookie.value))
    else Next
  }

  /** The request as the framework runs it: paths outside the matcher never
      reach the middleware. */
  function Handle(path: string, roleCookie: Option<string>): (d: Decision)
    ensures !Matched(path) ==> d == Next
    ensures Matched(path) ==> d == Middleware(path, roleCookie)
  {
    if Matched(path) then Middleware(path, roleCookie) else Next
  }

  /** The bare "/dashboard" has no role segment, so any cookie lets it
      through. */
  lemma DashboardRootPassesThrough(roleCookie: Option<string>)
    requires Present(roleCookie)
    ensures Handle("/dashboard", roleCookie) == Next
  {
    DashboardRootSegments();
    assert CurrentRole("/dashboard").None?;
    assert Text.StartsWith("/dashboard", DashboardPrefix);
  }

  /** The role segment of a role's own dashboard is that role, as long as
      the role contains no "/". */
  lemma RoleOfRoleDashboard(role: string)
    requires role != "" && !Text.HasChar(role, '/')
    ensures CurrentRole(RoleRedirect(role)) == Some(role)
  {
    DashboardSegments([role]);
  }

  /** A character that section 2.3 of RFC 3986 calls unreserved. */
  predicate Unreserved(c: char) {
    ('a' <= c <= 'z') || ('A' <= c <= 'Z') || ('0' <= c <= '9') || c == '-' || c == '.' || c == '_' || c == '~'
  }

  /** A role that `new URL(getRoleRedirect(role), request.url)` carries into
      the next request's `pathname` unchanged: only unreserved characters,
      so nothing is percent-encoded and nothing cuts the path at "?" or
      "#", and not a dot segment that URL parsing would resolve away. */
  predicate UrlSafe(role: string) {
    && role != "" && role != "." && role != ".."
    && forall i :: 0 <= i < |role| ==> Unreserved(role[i])
  }

  /** A URL-safe role is one non-empty path segment. */
  lemma UrlSafeIsSegment(role: string)
    requires UrlSafe(role)
    ensures role != "" && !Text.HasChar(role, '/')
  {
    forall i | 0 <= i < |role| ensures role[i] != '/' {
      assert Unreserved(role[i]);
    }
  }

  /** A role's own dashboard is let through for that role. */
  lemma OwnDashboardPassesThrough(role: string)
    requires UrlSafe(role)
    ensures Handle(RoleRedirect(role), Some(role)) == Next
  {
    UrlSafeIsSegment(role);
    RoleOfRoleDashboard(role);
  }

  /** Another role's dashboard is bounced to the cookie's own. */
  lemma ForeignDashboardBounces(page: string, role: string)
    requires page != "" && !Text.HasChar(page, '/')
    requires Present(Some(role)) && page != role
    ensures Handle(RoleRedirect(page), Some(role)) == Redirect(RoleRedirect(role))
  {
    RoleOfRoleDashboard(page);
  }

  /** No redirect loop: wherever the guard sends a signed-in browser, the
      next request is let through, provided the cookie holds a URL-safe
      role. */
  lemma RedirectTargetIsFinal(path: string, role: string)
    requires UrlSafe(role)
    requires Handle(path, Some(role)).Redirect?
    ensures Handle(Handle(path, Some(role)).target, Some(role)) == Next
  {
    UrlSafeIsSegment(role);
    RoleOfRoleDashboard(role);
    assert Text.StartsWith(RoleRedirect(role), DashboardPrefix);
  }

  /** A cookie holding a "/" between two names does loop: its own
      dashboard redirects to itself again. */
  lemma SlashRoleLoops(x: string, y: string)
    requires x != "" && !Text.HasChar(x, '/')
    requires y != "" && !Text.HasChar(y, '/')
    ensures var role := x + "/" + y;
      Handle(RoleRedirect(role), Some(role)) == Redirect(RoleRedirect(role))
  {
    var role := x + "/" + y;
    Text.JoinCons(x, [y], "/");
    assert [x] + [y] == [x, y];
    DashboardSegments([x, y]);
    assert CurrentRole(RoleRedirect(role)) == Some(x);
    assert |x| < |role|;
  }
}

=== FILE: seqs.dfy ===
/** Sequence transforms shared by the list logic of the pages and by the
    backend tables: an order-preserving filter (`Array.prototype.filter`),
    subsequences, and the "newest first" ordering every listing query asks
    the backend for. */
module Seqs {
  import opened Wrappers

  /** Order-preserving filter. */
  function Filter<T>(xs: seq<T>, keep: T -> bool): (r: seq<T>)
    ensures |r| <= |xs|
    ensures forall i :: 0 <= i < |r| ==> keep(r[i])
    ensures forall x :: x in r ==> x in xs
    ensures forall i :: 0 <= i < |xs| && keep(xs[i]) ==> xs[i] in r
    decreases |xs|
  {
    if |xs| == 0 then []
    else if keep(xs[0]) then [xs[0]] + Filter(xs[1..], keep)
    else Filter(xs[1..], keep)
  }

  /** One step of `Filter`, for proofs about concrete lists. */
  lemma FilterStep<T>(xs: seq<T>, keep: T -> bool)
    requires |xs| > 0
    ensures Filter(xs, keep) == (if keep(xs[0]) then [xs[0]] else []) + Filter(xs[1..], keep)
  {
  }

  /** `Array.prototype.find`: the first element satisfying `p`. */
  function Find<T>(xs: seq<T>, p: T -> bool): (r: Option<T>)
    ensures r.None? <==> forall i :: 0 <= i < |xs| ==> !p(xs[i])
    ensures r.Some? ==> exists i :: 0 <= i < |xs| && xs[i] == r.value && p(xs[i]) && forall j :: 0 <= j < i ==> !p(xs[j])
    decreases |xs|
  {
    if |xs| == 0 then None
    else if p(xs[0]) then Some(xs[0])
    else
      var r := Find(xs[1..], p);
      assert r.Some? ==> exists i :: 0 <= i < |xs| && xs[i] == r.value && p(xs[i]) && forall j :: 0 <= j < i ==> !p(xs[j]) by {
        if r.Some? {
          var i :| 0 <= i < |xs[1..]| && xs[1..][i] == r.value && p(xs[1..][i]) && forall j :: 0 <= j < i ==> !p(xs[1..][j]);
          assert xs[i + 1] == r.value;
          forall j | 0 <= j < i + 1 ensures !p(xs[j]) {
            if j > 0 { assert xs[j] == xs[1..][j - 1]; }
          }
        }
      }
      r
  }

  /** `a` is obtained from `b` by deleting elements, keeping the order. */
  predicate IsSubsequence<T(==)>(a: seq<T>, b: seq<T>)
    decreases |b|
  {
    |a| == 0 || (|b| > 0 && if a[0] == b[0] then IsSubsequence(a[1..], b[1..]) else IsSubsequence(a, b[1..]))
  }

  lemma {:induction false} FilterIsSubsequence<T>(xs: seq<T>, keep: T -> bool)
    ensures IsSubsequence(Filter(xs, keep), xs)
    decreases |xs|
  {
    if |xs| > 0 {
      FilterIsSubsequence(xs[1..], keep);
      var rest := Filter(xs[1..], keep);
      if keep(xs[0]) {
        assert Filter(xs, keep) == [xs[0]] + rest;
        assert ([xs[0]] + rest)[1..] == rest;
      } else {
        SubsequenceOfTail(rest, xs);
      }
    }
  }

  /** A subsequence of the tail is a subsequence of the whole. */
  lemma {:induction false} SubsequenceOfTail<T>(a: seq<T>, b: seq<T>)
    requires |b| > 0 && IsSubsequence(a, b[1..])
    ensures IsSubsequence(a, b)
    decreases |b|, 0
  {
    if |a| > 0 && a[0] == b[0] {
      SubsequenceDropHead(a, b[1..]);
    }
  }

  /** Dropping the first element of a subsequence keeps it a subsequence. */
  lemma {:induction false} SubsequenceDropHead<T>(a: seq<T>, b: seq<T>)
    requires |a| > 0 && IsSubsequence(a, b)
    ensures IsSubsequence(a[1..], b)
    decreases |b|, 1
  {
    if a[0] != b[0] {
      SubsequenceDropHead(a, b[1..]);
    }
    if |a[1..]| > 0 {
      SubsequenceOfTail(a[1..], b);
    }
  }

  /** Filtering keeps a sequence whole when every element passes. */
  lemma {:induction false} FilterKeepsAll<T>(xs: seq<T>, keep: T -> bool)
    requires forall k :: 0 <= k < |xs| ==> keep(xs[k])
    ensures Filter(xs, keep) == xs
    decreases |xs|
  {
    if |xs| > 0 {
      FilterKeepsAll(xs[1..], keep);
      FilterStep(xs, keep);
    }
  }

  /** Filtering drops a failing head and keeps the rest when every later
      element passes. */
  lemma FilterDropsHead<T>(xs: seq<T>, keep: T -> bool)
    requires |xs| > 0 && !keep(xs[0])
    requires forall k :: 1 <= k < |xs| ==> keep(xs[k])
    ensures Filter(xs, keep) == xs[1..]
  {
    var tail := xs[1..];
    forall k | 0 <= k < |tail| ensures keep(tail[k]) {
      assert tail[k] == xs[k + 1];
    }
    FilterKeepsAll(tail, keep);
    FilterStep(xs, keep);
  }

  /** Filtering distributes over concatenation. */
  lemma {:induction false} FilterAppend<T>(xs: seq<T>, ys: seq<T>, keep: T -> bool)
    ensures Filter(xs + ys, keep) == Filter(xs, keep) + Filter(ys, keep)
    decreases |xs|
  {
    if |xs| == 0 {
      assert xs + ys == ys;
    } else {
      assert (xs + ys)[1..] == xs[1..] + ys;
      FilterAppend(xs[1..], ys, keep);
    }
  }

  /** Three pairwise-exclusive tests select at most |xs| elements in all. */
  lemma {:induction false} ExclusiveCountsBound<T>(xs: seq<T>, p: T -> bool, q: T -> bool, s: T -> bool)
    requires forall i :: 0 <= i < |xs| ==> !(p(xs[i]) && q(xs[i])) && !(p(xs[i]) && s(xs[i])) && !(q(xs[i]) && s(xs[i]))
    ensures |Filter(xs, p)| + |Filter(xs, q)| + |Filter(xs, s)| <= |xs|
    decreases |xs|
  {
    if |xs| > 0 {
      ExclusiveCountsBound(xs[1..], p, q, s);
    }
  }

  /** The first `n` elements, or all of them when there are fewer;
      the backend's `limit(n)` for a positive `n`. */
  function Take<T>(xs: seq<T>, n: nat): (r: seq<T>)
    ensures |r| == if n < |xs| then n else |xs|
    ensures forall i :: 0 <= i < |r| ==> r[i] == xs[i]
  {
    if n < |xs| then xs[..n] else xs
  }

  /** Descending order on optional timestamps with missing ones first:
      what an ordering by a column `descending` yields, since a
      descending SQL ordering puts nulls first. */
  predicate NewerOrSame(a: Option<int>, b: Option<int>) {
    a.None? || (b.Some? && a.value >= b.value)
  }

  predicate SortedNewest<T>(xs: seq<T>, stamp: T -> Option<int>) {
    forall i, j :: 0 <= i < j < |xs| ==> NewerOrSame(stamp(xs[i]), stamp(xs[j]))
  }

  /** Cutting a newest-first sequence after `k` elements leaves out
      nothing newer than what it keeps. */
  lemma CutLeavesOlder<T>(xs: seq<T>, k: nat, stamp: T -> Option<int>)
    requires SortedNewest(xs, stamp) && k <= |xs|
    ensures multiset(xs) == multiset(xs[..k]) + multiset(xs[k..])
    ensures forall x, i :: x in multiset(xs[k..]) && 0 <= i < k ==> NewerOrSame(stamp(xs[i]), stamp(x))
  {
    assert xs == xs[..k] + xs[k..];
    forall x, i | x in multiset(xs[k..]) && 0 <= i < k
      ensures NewerOrSame(stamp(xs[i]), stamp(x))
    {
      var j :| 0 <= j < |xs[k..]| && xs[k..][j] == x;
      assert xs[k + j] == x;
    }
  }

  function InsertNewest<T>(x: T, xs: seq<T>, stamp: T -> Option<int>): (r: seq<T>)
    requires SortedNewest(xs, stamp)
    ensures SortedNewest(r, stamp)
    ensures multiset(r) == multiset(xs) + multiset{x}
    decreases |xs|
  {
    if |xs| == 0 then [x]
    else if NewerOrSame(stamp(x), stamp(xs[0])) then
      InsertFront(x, xs, stamp)
    else
      var rest := InsertNewest(x, xs[1..], stamp);
      HeadStaysFirst(x, xs, rest, stamp);
      [xs[0]] + rest
  }

  /** When `x` is older than the head, the head still leads after `x` is
      inserted into the tail. */
  lemma HeadStaysFirst<T>(x: T, xs: seq<T>, rest: seq<T>, stamp: T -> Option<int>)
    requires |xs| > 0 && SortedNewest(xs, stamp) && !NewerOrSame(stamp(x), stamp(xs[0]))
    requires SortedNewest(rest, stamp) && multiset(rest) == multiset(xs[1..]) + multiset{x}
    ensures SortedNewest([xs[0]] + rest, stamp)
    ensures multiset([xs[0]] + rest) == multiset(xs) + multiset{x}
  {
    assert xs == [xs[0]] + xs[1..];
    forall j | 0 <= j < |rest| ensures NewerOrSame(stamp(xs[0]), stamp(rest[j])) {
      assert rest[j] in multiset(rest);
      if rest[j] != x {
        assert rest[j] in multiset(xs[1..]);
        assert rest[j] in xs[1..];
      }
    }
  }

  function InsertFront<T>(x: T, xs: seq<T>, stamp: T -> Option<int>): (r: seq<T>)
    requires SortedNewest(xs, stamp)
    requires |xs| > 0 && NewerOrSame(stamp(x), stamp(xs[0]))
    ensures r == [x] + xs
    ensures SortedNewest(r, stamp)
  {
    assert forall j :: 0 < j < |xs| ==> NewerOrSame(stamp(xs[0]), stamp(xs[j]));
    [x] + xs
  }

  /** Insertion sort into newest-first order. */
  function SortNewest<T>(xs: seq<T>, stamp: T -> Option<int>): (r: seq<T>)
    ensures SortedNewest(r, stamp)
    ensures multiset(r) == multiset(xs)
    ensures |r| == |xs|
    decreases |xs|
  {
    if |xs| == 0 then []
    else
      var tail := SortNewest(xs[1..], stamp);
      var r := InsertNewest(xs[0], tail, stamp);
      assert multiset(xs) == multiset{xs[0]} + multiset(xs[1..]) by {
        assert xs == [xs[0]] + xs[1..];
      }
      assert multiset(r) == multiset(xs);
      assert |r| == |multiset(r)| == |multiset(xs)| == |xs|;
      r
  }
}

=== FILE: session_route.dfy ===
/** The role-cookie endpoint (`/api/auth/session`): POST issues the
    `fp-role` cookie for a role named in the body, DELETE clears it. */
module SessionRoute {
  import opened Wrappers
  import opened Json
  import opened Cookies
  import Text

  const CookieName := "fp-role"

  /** One week, in seconds. */
  const WeekSeconds := 60 * 60 * 24 * 7

  /** The JSON answer: `{ success }` with an optional `message`. */
  datatype Reply = Reply(status: int, success: bool, message: Option<string>)

  /** The reply together with the `Set-Cookie` header it carries, if any. */
  datatype Answer = Answer(reply: Reply, cookie: Option<SetCookie>)

  /** `typeof body?.role === "string" ? body.role : null`, as a condition:
      a body that is not an object, a missing or non-string role, and the
      empty string all count as no role. */
  function RoleOf(body: Option<Row>): (r: Option<string>)
    ensures r.Some? <==> body.Some? && "role" in body.value && body.value["role"].JStr? && body.value["role"].s != ""
    ensures r.Some? ==> r.value == body.value["role"].s
  {
    if body.Some? && "role" in body.value && body.value["role"].JStr? && body.value["role"].s != "" then
      Some(body.value["role"].s)
    else None
  }

  /** POST: 400 "Rol inválido" and no cookie without a role; otherwise the
      role, whatever string it is, becomes the `fp-role` cookie. */
  function Post(body: Option<Row>, nodeEnv: string): (a: Answer)
    ensures a.reply.status == 400 <==> RoleOf(body).None?
    ensures RoleOf(body).None? ==> a == Answer(Reply(400, false, Some("Rol inválido")), None)
    ensures RoleOf(body).Some? ==>
      && a.reply == Reply(200, true, None)
      && a.cookie.Some?
      && a.cookie.value.name == CookieName
      && a.cookie.value.value == RoleOf(body).value
      && a.cookie.value.httpOnly
      && (a.cookie.value.secure <==> nodeEnv == "production")
      && a.cookie.value.sameSite == Some("lax")
      && a.cookie.value.maxAge == Some(604800)
      && a.cookie.value.path == "/"
  {
    match RoleOf(body)
    case None => Answer(Reply(400, false, Some("Rol inválido")), None)
    case Some(role) =>
      Answer(Reply(200, true, None),
             Some(SetCookie(CookieName, role, true, nodeEnv == "production", Some("lax"), Some(WeekSeconds), "/")))
  }

  /** DELETE: always succeeds and answers with an empty, already expired
      `fp-role` cookie. */
  function Delete(): (a: Answer)
    ensures a.reply == Reply(200, true, None)
    ensures a.cookie.Some? && a.cookie.value.name == CookieName && Expires(a.cookie.value)
    ensures a.cookie.value.value == "" && a.cookie.value.path == "/"
  {
    Answer(Reply(200, true, None), Some(SetCookie(CookieName, "", false, false, None, Some(0), "/")))
  }

  /** The browser storing whatever cookie the answer carries. */
  function Apply(jar: Jar, a: Answer): (r: Jar)
    ensures a.cookie.None? ==> r == jar
  {
    match a.cookie
    case None => jar
    case Some(sc) => ReceiveHttp(jar, sc)
  }

  /** After a successful POST the browser holds `fp-role` with exactly the
      role sent, and nothing else in the jar changes. */
  lemma PostStoresRole(jar: Jar, role: string, nodeEnv: string)
    requires role != ""
    ensures var after := Apply(jar, Post(Some(map["role" := JStr(role)]), nodeEnv));
      && CookieName in after && after[CookieName] == Stored(role, true)
      && forall n :: n != CookieName ==> (n in after <==> n in jar) && (n in after ==> after[n] == jar[n])
  {
  }

  /** POSTing the same body twice leaves the jar as POSTing it once. */
  lemma PostIdempotent(jar: Jar, body: Option<Row>, nodeEnv: string)
    ensures Apply(Apply(jar, Post(body, nodeEnv)), Post(body, nodeEnv)) == Apply(jar, Post(body, nodeEnv))
  {
  }

  /** DELETE leaves no `fp-role`, whatever the jar held, so a second
      DELETE changes nothing. */
  lemma DeleteClears(jar: Jar)
    ensures CookieName !in Apply(jar, Delete())
    ensures Apply(Apply(jar, Delete()), Delete()) == Apply(jar, Delete())
  {
  }

  /** The last write wins: POST then DELETE leaves no role; DELETE then a
      valid POST leaves the posted role. */
  lemma LastWriteWins(jar: Jar, body: Option<Row>, nodeEnv: string)
    ensures CookieName !in Apply(Apply(jar, Post(body, nodeEnv)), Delete())
    ensures RoleOf(body).Some? ==>
      var after := Apply(Apply(jar, Delete()), Post(body, nodeEnv));
      CookieName in after && after[CookieName].value == RoleOf(body).value
  {
  }

  /** The issued cookie is http-only, so page scripts reading
      `document.cookie` never see the role it carries. */
  lemma IssuedRoleIsHiddenFromScripts(jar: Jar, body: Option<Row>, nodeEnv: string, entries: seq<(string, string)>)
    requires RoleOf(body).Some?
    requires WellFormed(jar) && !Text.HasChar(RoleOf(body).value, ';')
    requires Listed(Apply(jar, Post(body, nodeEnv)), entries)
    ensures ReadCookie(DocumentCookie(entries), CookieName) == None
  {
    var after := Apply(jar, Post(body, nodeEnv));
    assert Token(CookieName) by {
      var c := CookieName;
      forall i | 0 <= i < |c| ensures c[i] != ';' && c[i] != '=' { }
    }
    assert WellFormed(after);
    ReadListedCookie(after, entries, CookieName);
  }
}

=== FILE: src_middleware.dfy ===
/** The role gate under `src/` (`src/middleware.ts`): public pages pass,
    everything else needs the backend access-token cookie and an `fp-role`
    cookie, and a dashboard page must lie under the role's own dashboard. */
module SrcMiddleware {
  import opened Wrappers
  import opened Edge
  import Text

  /** `publicRoutes`, matched with `startsWith`. */
  const PublicRoutes: seq<string> := ["/", "/login", "/register", "/seleccion-rol"]

  /** `roleDashboards`: four roles; "productor" has no entry. */
  function RoleDashboard(role: string): (r: Option<string>)
    ensures r.Some? <==> role in {"floreria", "proveedor", "agente", "admin"}
    ensures r.Some? ==> r.value == "/dashboard/" + role
  {
    if role == "floreria" then Some("/dashboard/floreria")
    else if role == "proveedor" then Some("/dashboard/proveedor")
    else if role == "agente" then Some("/dashboard/agente")
    else if role == "admin" then Some("/dashboard/admin")
    else None
  }

  /** `publicRoutes.some((p) => pathname.startsWith(p))`. */
  predicate IsPublicAsWritten(path: string) {
    exists k :: 0 <= k < |PublicRoutes| && Text.StartsWith(path, PublicRoutes[k])
  }

  /** `allowedPath` as the prefix test and the redirect see it: a missing
      table entry is `undefined`, which `startsWith` reads as the text
      "undefined" and the URL's path setter turns into "/undefined". */
  function AllowedPrefix(role: string): string {
    match RoleDashboard(role)
    case Some(p) => p
    case None => "undefined"
  }

  function AllowedTarget(role: string): string {
    match RoleDashboard(role)
    case Some(p) => p
    case None => "/undefined"
  }

  /** Everything after the public-route test, shared by both versions. */
  function Guard(path: string, accessToken: Option<string>, role: Option<string>): (d: Decision)
    ensures !Present(accessToken) || !Present(role) ==> d == Redirect("/login")
    ensures Present(accessToken) && Present(role) ==>
      (d.Redirect? <==> Text.StartsWith(path, "/dashboard") && !Text.StartsWith(path, AllowedPrefix(role.value)))
    ensures d.Redirect? && Present(accessToken) && Present(role) ==> d.target == AllowedTarget(role.value)
  {
    if !Present(accessToken) || !Present(role) then Redirect("/login")
    else if Text.StartsWith(path, "/dashboard") && !Text.StartsWith(path, AllowedPrefix(role.value)) then
      Redirect(AllowedTarget(role.value))
    else Next
  }

  /** The middleware as written. */
  function Decide(path: string, accessToken: Option<string>, role: Option<string>): (d: Decision)
    ensures IsPublicAsWritten(path) ==> d == Next
    ensures !IsPublicAsWritten(path) ==> d == Guard(path, accessToken, role)
  {
    if IsPublicAsWritten(path) then Next else Guard(path, accessToken, role)
  }

  /** Since "/" is a public prefix, every path that starts with "/" (every
      path the framework hands over) is let through: the guard is never
      reached. */
  lemma DecideLetsEverythingThrough(path: string, accessToken: Option<string>, role: Option<string>)
    requires Text.StartsWith(path, "/")
    ensures Decide(path, accessToken, role) == Next
  {
    assert Text.StartsWith(path, PublicRoutes[0]);
  }

  /** The concrete case: a dashboard page with no cookies at all passes. */
  lemma AnonymousDashboardPassesAsWritten()
    ensures Decide("/dashboard/proveedor", None, None) == Next
  {
    DecideLetsEverythingThrough("/dashboard/proveedor", None, None);
  }

  /** The public-route test as evidently intended: the landing page "/"
      exactly, the other three as prefixes. */
  predicate IsPublic(path: string) {
    path == "/" || exists k :: 1 <= k < |PublicRoutes| && Text.StartsWith(path, PublicRoutes[k])
  }

  /** The middleware with the intended public-route test. */
  function DecideCorrected(path: string, accessToken: Option<string>, role: Option<string>): (d: Decision)
    ensures IsPublic(path) ==> d == Next
    ensures !IsPublic(path) && (!Present(accessToken) || !Present(role)) ==> d == Redirect("/login")
    ensures d.Redirect? ==> d.target == "/login" || (Present(role) && d.target == AllowedTarget(role.value))
    ensures !IsPublic(path) && !Text.StartsWith(path, "/dashboard") && Present(accessToken) && Present(role) ==> d == Next
  {
    if IsPublic(path) then Next else Guard(path, accessToken, role)
  }

  lemma DashboardIsNotPublic(path: string)
    requires Text.StartsWith(path, "/dashboard")
    ensures !IsPublic(path)
  {
    assert path[1] == 'd';
    forall k | 1 <= k < |PublicRoutes| ensures !Text.StartsWith(path, PublicRoutes[k]) {
      assert PublicRoutes[k][1] != 'd';
    }
  }

  /** With the intended test, a dashboard page without both cookies goes
      to the login page. */
  lemma DashboardNeedsCookies(path: string, accessToken: Option<string>, role: Option<string>)
    requires Text.StartsWith(path, "/dashboard")
    requires !Present(accessToken) || !Present(role)
    ensures DecideCorrected(path, accessToken, role) == Redirect("/login")
  {
    DashboardIsNotPublic(path);
  }

  /** With the intended test, a tabled role's redirect target lets that
      role through: the gate does not loop. */
  lemma RedirectTargetIsFinal(path: string, accessToken: Option<string>, role: string)
    requires Present(accessToken) && RoleDashboard(role).Some?
    requires DecideCorrected(path, accessToken, Some(role)).Redirect?
    ensures DecideCorrected(DecideCorrected(path, accessToken, Some(role)).target, accessToken, Some(role)) == Next
  {
    var t := RoleDashboard(role).value;
    assert DecideCorrected(path, accessToken, Some(role)).target == t;
    DashboardIsNotPublic(t);
    assert Text.StartsWith(t, AllowedPrefix(role));
  }

  /** The role check is a prefix test: "/dashboard/floreriaX" counts as the
      florist's dashboard. */
  lemma PrefixTestAdmitsLongerNames(accessToken: Option<string>)
    requires Present(accessToken)
    ensures DecideCorrected("/dashboard/floreriaX", accessToken, Some("floreria")) == Next
  {
    DashboardIsNotPublic("/dashboard/floreriaX");
    assert "/dashboard/floreriaX"[..|"/dashboard/floreria"|] == "/dashboard/floreria";
  }

  /** A producer, who has no table entry, is sent from any dashboard page
      to "/undefined". */
  lemma ProducerIsSentToUndefined(path: string, accessToken: Option<string>)
    requires Present(accessToken) && Text.StartsWith(path, "/dashboard")
    ensures DecideCorrected(path, accessToken, Some("productor")) == Redirect("/undefined")
  {
    DashboardIsNotPublic(path);
    assert path[1] != 'u';
    assert !Text.StartsWith(path, "undefined");
  }

  /** `config.matcher`: "/dashboard/:path*" and "/api/:path*". */
  predicate Matched(path: string) {
    path == "/dashboard" || Text.StartsWith(path, "/dashboard/") || path == "/api" || Text.StartsWith(path, "/api/")
  }

  /** The request as the framework runs it, with the gate as written. */
  function Handle(path: string, accessToken: Option<string>, role: Option<string>): (d: Decision)
    ensures !Matched(path) ==> d == Next
    ensures Text.StartsWith(path, "/") ==> d == Next
  {
    if Matched(path) then
      DecideLetsEverythingThrough(path, accessToken, role);
      Decide(path, accessToken, role)
    else Next
  }
}

=== FILE: supplier_branches_api.dfy ===
/** The supplier's branches endpoint (`/api/proveedor/sucursales`): every
    read and write is scoped by `proveedor_id` to the caller's supplier row. */
module SupplierBranchesApi {
  import opened Wrappers
  import opened Json
  import opened Tables
  import opened Api
  import Seqs

  const NotFound := "Proveedor no encontrado"

  const Columns: set<string> := {"id", "nombre", "direccion", "ciudad", "estado", "pais", "telefono",
                                 "horario", "latitud", "longitud", "created_at"}

  /** The body fields a new branch takes over. */
  const PostFields: set<string> := {"nombre", "direccion", "ciudad", "estado", "pais", "telefono",
                                    "horario", "latitud", "longitud"}

  function Owned(supplier: Json): Filter {
    [("proveedor_id", supplier)]
  }

  function OwnedItem(id: Json, supplier: Json): Filter {
    [("id", id), ("proveedor_id", supplier)]
  }

  /** GET: the caller's branches, newest first. */
  function Get(auth: Auth, db: Db, dbError: Option<string>): (out: Outcome)
    ensures out.db == db
    ensures Authorize(auth, db.proveedores, NotFound).Denied? ==> out.response == Authorize(auth, db.proveedores, NotFound).response
    ensures Authorize(auth, db.proveedores, NotFound).Granted? && dbError.Some? ==> out.response == Response(500, Failure(dbError.value))
    ensures out.response.status == 200 <==> Authorize(auth, db.proveedores, NotFound).Granted? && dbError.None?
    ensures out.response.status == 200 ==>
      var supplier := IdOf(Authorize(auth, db.proveedores, NotFound).profile);
      && out.response.payload.Listing?
      && ListsOnly(out.response.payload.rows, db.sucursales, Owned(supplier), Some(Columns))
      && ListsExactly(out.response.payload.rows, db.sucursales, Owned(supplier), Some(Columns))
      && Seqs.SortedNewest(out.response.payload.rows, Stamp)
      && |out.response.payload.rows| == |Where(db.sucursales, Owned(supplier))|
  {
    match Authorize(auth, db.proveedores, NotFound)
    case Denied(r) => Outcome(r, db)
    case Granted(p) =>
      if dbError.Some? then Outcome(Response(500, Failure(dbError.value)), db)
      else Outcome(Response(200, Listing(Query(db.sucursales, Owned(IdOf(p)), Some(Columns)))), db)
  }

  function NewBranch(body: Row, supplier: Json, generated: Row): (r: Row)
    ensures "proveedor_id" in r && r["proveedor_id"] == supplier
    ensures forall k :: k in PostFields && k in body ==> k in r && r[k] == body[k]
  {
    generated + Pick(body, PostFields) + map["proveedor_id" := supplier]
  }

  /** POST: 400 unless `nombre` and `ciudad` are truthy, checked before the
      session; the new branch belongs to the caller's supplier. */
  function Post(body: Row, auth: Auth, db: Db, dbError: Option<string>, generated: Row): (out: Outcome)
    ensures !Truthy(Field(body, "nombre")) || !Truthy(Field(body, "ciudad")) ==>
      out == Outcome(Response(400, Failure("Nombre y ciudad son requeridos")), db)
    ensures Truthy(Field(body, "nombre")) && Truthy(Field(body, "ciudad")) && Authorize(auth, db.proveedores, NotFound).Denied? ==>
      out == Outcome(Authorize(auth, db.proveedores, NotFound).response, db)
    ensures Truthy(Field(body, "nombre")) && Truthy(Field(body, "ciudad")) && Authorize(auth, db.proveedores, NotFound).Granted? && dbError.Some? ==>
      out == Outcome(Response(500, Failure(dbError.value)), db)
    ensures out.response.status == 200 <==> Truthy(Field(body, "nombre")) && Truthy(Field(body, "ciudad")) && Authorize(auth, db.proveedores, NotFound).Granted? && dbError.None?
    ensures out.response.status != 200 ==> out.db == db
    ensures out.db == db.(sucursales := out.db.sucursales)
    ensures out.response.status == 200 ==>
      && Authorize(auth, db.proveedores, NotFound).Granted?
      && |out.db.sucursales| == |db.sucursales| + 1
      && out.db.sucursales[..|db.sucursales|] == db.sucursales
      && var row := out.db.sucursales[|db.sucursales|];
         && "proveedor_id" in row && row["proveedor_id"] == IdOf(Authorize(auth, db.proveedores, NotFound).profile)
         && (forall k :: k in PostFields && k in body ==> k in row && row[k] == body[k])
  {
    if !Truthy(Field(body, "nombre")) || !Truthy(Field(body, "ciudad")) then
      Outcome(Response(400, Failure("Nombre y ciudad son requeridos")), db)
    else
      match Authorize(auth, db.proveedores, NotFound)
      case Denied(r) => Outcome(r, db)
      case Granted(p) =>
        if dbError.Some? then Outcome(Response(500, Failure(dbError.value)), db)
        else
          var t := db.sucursales + [NewBranch(body, IdOf(p), generated)];
          assert t[..|db.sucursales|] == db.sucursales;
          Outcome(Succeeded, db.(sucursales := t))
  }

  /** PATCH: 400 without an id; otherwise all body fields but `id` are
      written to the caller's branch with that id. */
  function Patch(body: Row, auth: Auth, db: Db, dbError: Option<string>): (out: Outcome)
    ensures !Truthy(Field(body, "id")) ==> out == Outcome(Response(400, Failure("Falta el ID")), db)
    ensures Truthy(Field(body, "id")) && Authorize(auth, db.proveedores, NotFound).Denied? ==>
      out == Outcome(Authorize(auth, db.proveedores, NotFound).response, db)
    ensures Truthy(Field(body, "id")) && Authorize(auth, db.proveedores, NotFound).Granted? && dbError.Some? ==>
      out == Outcome(Response(500, Failure(dbError.value)), db)
    ensures out.response.status == 200 <==> Truthy(Field(body, "id")) && Authorize(auth, db.proveedores, NotFound).Granted? && dbError.None?
    ensures out.response.status != 200 ==> out.db == db
    ensures out.db == db.(sucursales := out.db.sucursales)
    ensures out.response.status == 200 ==>
      && Truthy(Field(body, "id"))
      && Authorize(auth, db.proveedores, NotFound).Granted?
      && ScopedUpdate(db.sucursales, out.db.sucursales,
           OwnedItem(body["id"], IdOf(Authorize(auth, db.proveedores, NotFound).profile)), body - {"id"})
  {
    if !Truthy(Field(body, "id")) then Outcome(Response(400, Failure("Falta el ID")), db)
    else
      match Authorize(auth, db.proveedores, NotFound)
      case Denied(r) => Outcome(r, db)
      case Granted(p) =>
        if dbError.Some? then Outcome(Response(500, Failure(dbError.value)), db)
        else
          var f := OwnedItem(body["id"], IdOf(p));
          Outcome(Succeeded, db.(sucursales := UpdateWhere(db.sucursales, f, body - {"id"})))
  }

  /** DELETE: 400 without `?id=`; otherwise removes only the caller's
      branch with that id. */
  function Delete(id: Option<string>, auth: Auth, db: Db, dbError: Option<string>): (out: Outcome)
    ensures id.None? || id.value == "" ==> out == Outcome(Response(400, Failure("Falta el ID")), db)
    ensures id.Some? && id.value != "" && Authorize(auth, db.proveedores, NotFound).Denied? ==>
      out == Outcome(Authorize(auth, db.proveedores, NotFound).response, db)
    ensures id.Some? && id.value != "" && Authorize(auth, db.proveedores, NotFound).Granted? && dbError.Some? ==>
      out == Outcome(Response(500, Failure(dbError.value)), db)
    ensures out.response.status == 200 <==> id.Some? && id.value != "" && Authorize(auth, db.proveedores, NotFound).Granted? && dbError.None?
    ensures out.response.status != 200 ==> out.db == db
    ensures out.db == db.(sucursales := out.db.sucursales)
    ensures out.response.status == 200 ==>
      && id.Some? && id.value != ""
      && Authorize(auth, db.proveedores, NotFound).Granted?
      && ScopedDelete(db.sucursales, out.db.sucursales,
           OwnedItem(JStr(id.value), IdOf(Authorize(auth, db.proveedores, NotFound).profile)))
  {
    if id.None? || id.value == "" then Outcome(Response(400, Failure("Falta el ID")), db)
    else
      match Authorize(auth, db.proveedores, NotFound)
      case Denied(r) => Outcome(r, db)
      case Granted(p) =>
        if dbError.Some? then Outcome(Response(500, Failure(dbError.value)), db)
        else
          var f := OwnedItem(JStr(id.value), IdOf(p));
          DeleteWhereIsScoped(db.sucursales, f);
          Outcome(Succeeded, db.(sucursales := DeleteWhere(db.sucursales, f)))
  }

  lemma OwnedItemIsOwned(row: Row, id: Json, supplier: Json)
    ensures Matches(row, OwnedItem(id, supplier)) ==> Matches(row, Owned(supplier))
  {
    var f := OwnedItem(id, supplier);
    if Matches(row, f) {
      assert EqHolds(row, f[1].0, f[1].1);
    }
  }

  /** Another supplier's branch is never removed by DELETE. */
  lemma DeleteSparesOthers(id: Option<string>, auth: Auth, db: Db, dbError: Option<string>, i: int)
    requires 0 <= i < |db.sucursales|
    requires Authorize(auth, db.proveedores, NotFound).Granted?
    requires !Matches(db.sucursales[i], Owned(IdOf(Authorize(auth, db.proveedores, NotFound).profile)))
    ensures db.sucursales[i] in Delete(id, auth, db, dbError).db.sucursales
  {
    if id.Some? && id.value != "" {
      OwnedItemIsOwned(db.sucursales[i], JStr(id.value), IdOf(Authorize(auth, db.proveedores, NotFound).profile));
    }
  }
}

=== FILE: supplier_catalog_api.dfy ===
/** The supplier's catalogue endpoint (`/api/proveedor/catalogo`): list,
    create, edit and delete the caller's own products. Each handler first
    validates its input, then checks the session, then looks up the
    caller's supplier row, and only then touches the `productos` table. */
module SupplierCatalogApi {
  import opened Wrappers
  import opened Json
  import opened Tables
  import opened Api
  import Seqs

  const NotFound := "No se encontró el proveedor"

  const Columns: set<string> := {"id", "nombre", "descripcion", "precio", "stock", "imagen_url", "created_at"}

  /** The body fields a new product takes over. */
  const PostFields: set<string> := {"nombre", "descripcion", "precio", "imagen_url", "stock"}

  /** The products a supplier owns. */
  function Owned(supplier: Json): Filter {
    [("tipo_vendedor", JStr("proveedor")), ("vendedor_id", supplier)]
  }

  /** One product of that supplier, as PATCH and DELETE address it. */
  function OwnedItem(id: Json, supplier: Json): Filter {
    [("id", id), ("tipo_vendedor", JStr("proveedor")), ("vendedor_id", supplier)]
  }

  /** GET: the caller's products, newest first, cut to `limit` when it
      parses to a non-zero number. */
  function Get(limit: Number, auth: Auth, db: Db, dbError: Option<string>): (out: Outcome)
    ensures out.db == db
    ensures Authorize(auth, db.proveedores, NotFound).Denied? ==> out.response == Authorize(auth, db.proveedores, NotFound).response
    ensures Authorize(auth, db.proveedores, NotFound).Granted? && dbError.Some? ==> out.response == Response(500, Failure(dbError.value))
    ensures out.response.status == 200 <==> Authorize(auth, db.proveedores, NotFound).Granted? && dbError.None?
    ensures out.response.status == 200 ==>
      var supplier := IdOf(Authorize(auth, db.proveedores, NotFound).profile);
      && out.response.payload.Listing?
      && ListsOnly(out.response.payload.rows, db.productos, Owned(supplier), Some(Columns))
      && ListsNewest(out.response.payload.rows, db.productos, Owned(supplier), Some(Columns))
      && Seqs.SortedNewest(out.response.payload.rows, Stamp)
      && |out.response.payload.rows| <= |Where(db.productos, Owned(supplier))|
      && ((limit.NaN? || limit.v == 0) ==> |out.response.payload.rows| == |Where(db.productos, Owned(supplier))|)
      && (limit.Finite? && limit.v > 0 ==>
            |out.response.payload.rows| == if limit.v < |Where(db.productos, Owned(supplier))| then limit.v else |Where(db.productos, Owned(supplier))|)
  {
    match Authorize(auth, db.proveedores, NotFound)
    case Denied(r) => Outcome(r, db)
    case Granted(p) =>
      if dbError.Some? then Outcome(Response(500, Failure(dbError.value)), db)
      else
        var all := Query(db.productos, Owned(IdOf(p)), Some(Columns));
        var rows := ApplyLimit(all, limit);
        PrefixOfQuery(all, rows, db.productos, Owned(IdOf(p)), Some(Columns));
        Outcome(Response(200, Listing(rows)), db)
  }

  /** The row POST inserts: the body's product fields plus the supplier
      ownership columns; `generated` holds what the backend fills in
      itself (id, created_at). */
  function NewProduct(body: Row, supplier: Json, generated: Row): (r: Row)
    ensures "tipo_vendedor" in r && r["tipo_vendedor"] == JStr("proveedor")
    ensures "vendedor_id" in r && r["vendedor_id"] == supplier
    ensures forall k :: k in PostFields && k in body ==> k in r && r[k] == body[k]
  {
    generated + Pick(body, PostFields) + map["tipo_vendedor" := JStr("proveedor"), "vendedor_id" := supplier]
  }

  /** POST: 400 unless `nombre` is truthy and `precio` is a number (0 is
      accepted); then 401/404; then one insert owned by the caller. */
  function Post(body: Row, auth: Auth, db: Db, dbError: Option<string>, generated: Row): (out: Outcome)
    ensures !Truthy(Field(body, "nombre")) || !(Field(body, "precio").Some? && body["precio"].JNum?) ==>
      out == Outcome(Response(400, Failure("Nombre y precio son obligatorios")), db)
    ensures Truthy(Field(body, "nombre")) && Field(body, "precio").Some? && body["precio"].JNum? && Authorize(auth, db.proveedores, NotFound).Denied? ==>
      out == Outcome(Authorize(auth, db.proveedores, NotFound).response, db)
    ensures Truthy(Field(body, "nombre")) && Field(body, "precio").Some? && body["precio"].JNum? && Authorize(auth, db.proveedores, NotFound).Granted? && dbError.Some? ==>
      out == Outcome(Response(500, Failure(dbError.value)), db)
    ensures out.response.status == 200 <==> Truthy(Field(body, "nombre")) && Field(body, "precio").Some? && body["precio"].JNum? && Authorize(auth, db.proveedores, NotFound).Granted? && dbError.None?
    ensures out.response.status != 200 ==> out.db == db
    ensures out.db == db.(productos := out.db.productos)
    ensures out.response.status == 200 ==>
      && Authorize(auth, db.proveedores, NotFound).Granted?
      && |out.db.productos| == |db.productos| + 1
      && out.db.productos[..|db.productos|] == db.productos
      && var row := out.db.productos[|db.productos|];
         && "tipo_vendedor" in row && row["tipo_vendedor"] == JStr("proveedor")
         && "vendedor_id" in row && row["vendedor_id"] == IdOf(Authorize(auth, db.proveedores, NotFound).profile)
         && (forall k :: k in PostFields && k in body ==> k in row && row[k] == body[k])
  {
    if !Truthy(Field(body, "nombre")) || !(Field(body, "precio").Some? && body["precio"].JNum?) then
      Outcome(Response(400, Failure("Nombre y precio son obligatorios")), db)
    else
      match Authorize(auth, db.proveedores, NotFound)
      case Denied(r) => Outcome(r, db)
      case Granted(p) =>
        if dbError.Some? then Outcome(Response(500, Failure(dbError.value)), db)
        else
          var t := db.productos + [NewProduct(body, IdOf(p), generated)];
          assert t[..|db.productos|] == db.productos;
          Outcome(Succeeded, db.(productos := t))
  }

  /** PATCH: 400 without an id; otherwise every body field except `id` is
      written to the one product with that id owned by the caller. */
  function Patch(body: Row, auth: Auth, db: Db, dbError: Option<string>): (out: Outcome)
    ensures !Truthy(Field(body, "id")) ==> out == Outcome(Response(400, Failure("Falta el ID")), db)
    ensures Truthy(Field(body, "id")) && Authorize(auth, db.proveedores, NotFound).Denied? ==>
      out == Outcome(Authorize(auth, db.proveedores, NotFound).response, db)
    ensures Truthy(Field(body, "id")) && Authorize(auth, db.proveedores, NotFound).Granted? && dbError.Some? ==>
      out == Outcome(Response(500, Failure(dbError.value)), db)
    ensures out.response.status == 200 <==> Truthy(Field(body, "id")) && Authorize(auth, db.proveedores, NotFound).Granted? && dbError.None?
    ensures out.response.status != 200 ==> out.db == db
    ensures out.db == db.(productos := out.db.productos)
    ensures out.response.status == 200 ==>
      && Truthy(Field(body, "id"))
      && Authorize(auth, db.proveedores, NotFound).Granted?
      && ScopedUpdate(db.productos, out.db.productos,
           OwnedItem(body["id"], IdOf(Authorize(auth, db.proveedores, NotFound).profile)), body - {"id"})
  {
    if !Truthy(Field(body, "id")) then Outcome(Response(400, Failure("Falta el ID")), db)
    else
      match Authorize(auth, db.proveedores, NotFound)
      case Denied(r) => Outcome(r, db)
      case Granted(p) =>
        if dbError.Some? then Outcome(Response(500, Failure(dbError.value)), db)
        else
          var f := OwnedItem(body["id"], IdOf(p));
          Outcome(Succeeded, db.(productos := UpdateWhere(db.productos, f, body - {"id"})))
  }

  /** DELETE: 400 without `?id=`; otherwise removes only the caller's
      product with that id. */
  function Delete(id: Option<string>, auth: Auth, db: Db, dbError: Option<string>): (out: Outcome)
    ensures id.None? || id.value == "" ==> out == Outcome(Response(400, Failure("Falta el ID")), db)
    ensures id.Some? && id.value != "" && Authorize(auth, db.proveedores, NotFound).Denied? ==>
      out == Outcome(Authorize(auth, db.proveedores, NotFound).response, db)
    ensures id.Some? && id.value != "" && Authorize(auth, db.proveedores, NotFound).Granted? && dbError.Some? ==>
      out == Outcome(Response(500, Failure(dbError.value)), db)
    ensures out.response.status == 200 <==> id.Some? && id.value != "" && Authorize(auth, db.proveedores, NotFound).Granted? && dbError.None?
    ensures out.response.status != 200 ==> out.db == db
    ensures out.db == db.(productos := out.db.productos)
    ensures out.response.status == 200 ==>
      && id.Some? && id.value != ""
      && Authorize(auth, db.proveedores, NotFound).Granted?
      && ScopedDelete(db.productos, out.db.productos,
           OwnedItem(JStr(id.value), IdOf(Authorize(auth, db.proveedores, NotFound).profile)))
  {
    if id.None? || id.value == "" then Outcome(Response(400, Failure("Falta el ID")), db)
    else
      match Authorize(auth, db.proveedores, NotFound)
      case Denied(r) => Outcome(r, db)
      case Granted(p) =>
        if dbError.Some? then Outcome(Response(500, Failure(dbError.value)), db)
        else
          var f := OwnedItem(JStr(id.value), IdOf(p));
          DeleteWhereIsScoped(db.productos, f);
          Outcome(Succeeded, db.(productos := DeleteWhere(db.productos, f)))
  }

  /** Another supplier's products, and products of other seller types,
      survive a PATCH untouched. */
  lemma PatchSparesOthers(body: Row, auth: Auth, db: Db, dbError: Option<string>, i: int)
    requires 0 <= i < |db.productos|
    requires Authorize(auth, db.proveedores, NotFound).Granted?
    requires !Matches(db.productos[i], Owned(IdOf(Authorize(auth, db.proveedores, NotFound).profile)))
    ensures Patch(body, auth, db, dbError).db.productos[i] == db.productos[i]
  {
    var out := Patch(body, auth, db, dbError);
    if out.response.status == 200 {
      OwnedItemIsOwned(db.productos[i], body["id"], IdOf(Authorize(auth, db.proveedores, NotFound).profile));
    }
  }

  lemma OwnedItemIsOwned(row: Row, id: Json, supplier: Json)
    ensures Matches(row, OwnedItem(id, supplier)) ==> Matches(row, Owned(supplier))
  {
    var f := OwnedItem(id, supplier);
    var g := Owned(supplier);
    if Matches(row, f) {
      assert EqHolds(row, f[1].0, f[1].1) && EqHolds(row, f[2].0, f[2].1);
      assert forall k :: 0 <= k < |g| ==> g[k] == f[k + 1];
    }
  }

  /** PATCH passes every body field except `id` through, so a body that
      names another `vendedor_id` moves the caller's product out of the
      caller's catalogue. */
  lemma PatchCanRewriteOwner(auth: Auth, db: Db, id: string, other: string)
    requires id != "" && |db.productos| == 1
    requires Authorize(auth, db.proveedores, NotFound).Granted?
    requires IdOf(Authorize(auth, db.proveedores, NotFound).profile) != JNull
    requires db.productos[0] == map["id" := JStr(id), "tipo_vendedor" := JStr("proveedor"),
                                    "vendedor_id" := IdOf(Authorize(auth, db.proveedores, NotFound).profile)]
    ensures var out := Patch(map["id" := JStr(id), "vendedor_id" := JStr(other)], auth, db, None);
      out.response.status == 200 && out.db.productos[0]["vendedor_id"] == JStr(other)
  {
    var body := map["id" := JStr(id), "vendedor_id" := JStr(other)];
    var supplier := IdOf(Authorize(auth, db.proveedores, NotFound).profile);
    var f := OwnedItem(JStr(id), supplier);
    assert Matches(db.productos[0], f);
    assert (body - {"id"}) == map["vendedor_id" := JStr(other)];
  }
}

=== FILE: supplier_flash_api.dfy ===
/** The supplier's flash-request endpoint (`/api/proveedor/flash`): list
    the urgent requests addressed to the caller and answer them with a
    status and a quotation. */
module SupplierFlashApi {
  import opened Wrappers
  import opened Json
  import opened Tables
  import opened Api
  import Seqs

  const NotFound := "Proveedor no encontrado"

  const Columns: set<string> := {"id", "descripcion", "cantidad", "fecha_entrega", "estado", "created_at",
                                 "cotizacion", "floreria_id"}

  /** The only columns PATCH writes. */
  const Editable: set<string> := {"estado", "cotizacion"}

  function Addressed(supplier: Json): Filter {
    [("proveedor_id", supplier)]
  }

  function AddressedItem(id: Json, supplier: Json): Filter {
    [("id", id), ("proveedor_id", supplier)]
  }

  /** GET: flash requests addressed to the caller, newest first. */
  function Get(auth: Auth, db: Db, dbError: Option<string>): (out: Outcome)
    ensures out.db == db
    ensures Authorize(auth, db.proveedores, NotFound).Denied? ==> out.response == Authorize(auth, db.proveedores, NotFound).response
    ensures Authorize(auth, db.proveedores, NotFound).Granted? && dbError.Some? ==> out.response == Response(500, Failure(dbError.value))
    ensures out.response.status == 200 <==> Authorize(auth, db.proveedores, NotFound).Granted? && dbError.None?
    ensures out.response.status == 200 ==>
      var supplier := IdOf(Authorize(auth, db.proveedores, NotFound).profile);
      && out.response.payload.Listing?
      && ListsOnly(out.response.payload.rows, db.flash, Addressed(supplier), Some(Columns))
      && ListsExactly(out.response.payload.rows, db.flash, Addressed(supplier), Some(Columns))
      && Seqs.SortedNewest(out.response.payload.rows, Stamp)
      && |out.response.payload.rows| == |Where(db.flash, Addressed(supplier))|
  {
    match Authorize(auth, db.proveedores, NotFound)
    case Denied(r) => Outcome(r, db)
    case Granted(p) =>
      if dbError.Some? then Outcome(Response(500, Failure(dbError.value)), db)
      else Outcome(Response(200, Listing(Query(db.flash, Addressed(IdOf(p)), Some(Columns)))), db)
  }

  /** PATCH: 400 without an id (before the session check); otherwise
      writes only `estado` and `cotizacion` on the caller's request with
      that id. */
  function Patch(body: Row, auth: Auth, db: Db, dbError: Option<string>): (out: Outcome)
    ensures !Truthy(Field(body, "id")) ==> out == Outcome(Response(400, Failure("Falta el ID")), db)
    ensures Truthy(Field(body, "id")) && Authorize(auth, db.proveedores, NotFound).Denied? ==>
      out == Outcome(Authorize(auth, db.proveedores, NotFound).response, db)
    ensures Truthy(Field(body, "id")) && Authorize(auth, db.proveedores, NotFound).Granted? && dbError.Some? ==>
      out == Outcome(Response(500, Failure(dbError.value)), db)
    ensures out.response.status == 200 <==> Truthy(Field(body, "id")) && Authorize(auth, db.proveedores, NotFound).Granted? && dbError.None?
    ensures out.response.status != 200 ==> out.db == db
    ensures out.db == db.(flash := out.db.flash)
    ensures out.response.status == 200 ==>
      && Authorize(auth, db.proveedores, NotFound).Granted?
      && ScopedUpdate(db.flash, out.db.flash,
           AddressedItem(body["id"], IdOf(Authorize(auth, db.proveedores, NotFound).profile)), Pick(body, Editable))
  {
    if !Truthy(Field(body, "id")) then Outcome(Response(400, Failure("Falta el ID")), db)
    else
      match Authorize(auth, db.proveedores, NotFound)
      case Denied(r) => Outcome(r, db)
      case Granted(p) =>
        if dbError.Some? then Outcome(Response(500, Failure(dbError.value)), db)
        else
          var f := AddressedItem(body["id"], IdOf(p));
          Outcome(Succeeded, db.(flash := UpdateWhere(db.flash, f, Pick(body, Editable))))
  }

  /** Unlike the orders PATCH, an empty answer is accepted: a body with
      only an id succeeds and leaves every row as it was. */
  lemma EmptyAnswerChangesNothing(id: string, auth: Auth, db: Db)
    requires id != ""
    requires Authorize(auth, db.proveedores, NotFound).Granted?
    ensures var out := Patch(map["id" := JStr(id)], auth, db, None);
      out.response.status == 200 && out.db == db
  {
    var body := map["id" := JStr(id)];
    assert Pick(body, Editable) == map[];
    var out := Patch(body, auth, db, None);
    forall i | 0 <= i < |db.flash| ensures out.db.flash[i] == db.flash[i] {
      assert db.flash[i] + map[] == db.flash[i];
    }
  }
}

=== FILE: supplier_orders_api.dfy ===
/** The supplier's incoming orders endpoint (`/api/proveedor/pedidos`):
    list the orders addressed to the caller, and change their status or
    notes. */
module SupplierOrdersApi {
  import opened Wrappers
  import opened Json
  import opened Tables
  import opened Api
  import Seqs

  const NotFound := "Proveedor no encontrado"

  const Columns: set<string> := {"id", "comprador_id", "total", "estado", "notas", "created_at", "fecha_entrega",
                                 "tipo_entrega", "sucursal_origen", "sucursal_destino"}

  /** The only columns PATCH writes. */
  const Editable: set<string> := {"estado", "notas"}

  function Addressed(supplier: Json): Filter {
    [("proveedor_id", supplier)]
  }

  function AddressedItem(id: Json, supplier: Json): Filter {
    [("id", id), ("proveedor_id", supplier)]
  }

  /** GET: orders addressed to the caller, newest first, cut to `limit`
      when it parses to a non-zero number. */
  function Get(limit: Number, auth: Auth, db: Db, dbError: Option<string>): (out: Outcome)
    ensures out.db == db
    ensures Authorize(auth, db.proveedores, NotFound).Denied? ==> out.response == Authorize(auth, db.proveedores, NotFound).response
    ensures Authorize(auth, db.proveedores, NotFound).Granted? && dbError.Some? ==> out.response == Response(500, Failure(dbError.value))
    ensures out.response.status == 200 <==> Authorize(auth, db.proveedores, NotFound).Granted? && dbError.None?
    ensures out.response.status == 200 ==>
      var supplier := IdOf(Authorize(auth, db.proveedores, NotFound).profile);
      && out.response.payload.Listing?
      && ListsOnly(out.response.payload.rows, db.pedidos, Addressed(supplier), Some(Columns))
      && ListsNewest(out.response.payload.rows, db.pedidos, Addressed(supplier), Some(Columns))
      && Seqs.SortedNewest(out.response.payload.rows, Stamp)
      && ((limit.NaN? || limit.v == 0) ==> |out.response.payload.rows| == |Where(db.pedidos, Addressed(supplier))|)
      && (limit.Finite? && limit.v > 0 ==>
            |out.response.payload.rows| == if limit.v < |Where(db.pedidos, Addressed(supplier))| then limit.v else |Where(db.pedidos, Addressed(supplier))|)
      && (limit.Finite? && limit.v > 0 ==> |out.response.payload.rows| <= limit.v)
  {
    match Authorize(auth, db.proveedores, NotFound)
    case Denied(r) => Outcome(r, db)
    case Granted(p) =>
      if dbError.Some? then Outcome(Response(500, Failure(dbError.value)), db)
      else
        var all := Query(db.pedidos, Addressed(IdOf(p)), Some(Columns));
        var rows := ApplyLimit(all, limit);
        PrefixOfQuery(all, rows, db.pedidos, Addressed(IdOf(p)), Some(Columns));
        Outcome(Response(200, Listing(rows)), db)
  }

  /** PATCH: 400 without an id, 400 when both `estado` and `notas` are
      falsy (both before the session check); otherwise writes only
      `estado` and `notas` on the caller's order with that id. */
  function Patch(body: Row, auth: Auth, db: Db, dbError: Option<string>): (out: Outcome)
    ensures !Truthy(Field(body, "id")) ==> out == Outcome(Response(400, Failure("Falta el ID")), db)
    ensures Truthy(Field(body, "id")) && !Truthy(Field(body, "estado")) && !Truthy(Field(body, "notas")) ==>
      out == Outcome(Response(400, Failure("Debe enviarse un estado o notas")), db)
    ensures Truthy(Field(body, "id")) && (Truthy(Field(body, "estado")) || Truthy(Field(body, "notas"))) && Authorize(auth, db.proveedores, NotFound).Denied? ==>
      out == Outcome(Authorize(auth, db.proveedores, NotFound).response, db)
    ensures Truthy(Field(body, "id")) && (Truthy(Field(body, "estado")) || Truthy(Field(body, "notas"))) && Authorize(auth, db.proveedores, NotFound).Granted? && dbError.Some? ==>
      out == Outcome(Response(500, Failure(dbError.value)), db)
    ensures out.response.status == 200 <==> Truthy(Field(body, "id")) && (Truthy(Field(body, "estado")) || Truthy(Field(body, "notas"))) && Authorize(auth, db.proveedores, NotFound).Granted? && dbError.None?
    ensures out.response.status != 200 ==> out.db == db
    ensures out.db == db.(pedidos := out.db.pedidos)
    ensures out.response.status == 200 ==>
      && Authorize(auth, db.proveedores, NotFound).Granted?
      && ScopedUpdate(db.pedidos, out.db.pedidos,
           AddressedItem(body["id"], IdOf(Authorize(auth, db.proveedores, NotFound).profile)), Pick(body, Editable))
  {
    if !Truthy(Field(body, "id")) then Outcome(Response(400, Failure("Falta el ID")), db)
    else if !Truthy(Field(body, "estado")) && !Truthy(Field(body, "notas")) then
      Outcome(Response(400, Failure("Debe enviarse un estado o notas")), db)
    else
      match Authorize(auth, db.proveedores, NotFound)
      case Denied(r) => Outcome(r, db)
      case Granted(p) =>
        if dbError.Some? then Outcome(Response(500, Failure(dbError.value)), db)
        else
          var f := AddressedItem(body["id"], IdOf(p));
          Outcome(Succeeded, db.(pedidos := UpdateWhere(db.pedidos, f, Pick(body, Editable))))
  }

  /** A successful PATCH changes no column other than `estado` and
      `notas`, on any row. */
  lemma PatchTouchesOnlyStatusAndNotes(body: Row, auth: Auth, db: Db, dbError: Option<string>, i: int, column: string)
    requires 0 <= i < |db.pedidos| && column !in Editable
    requires Patch(body, auth, db, dbError).response.status == 200
    ensures var after := Patch(body, auth, db, dbError).db.pedidos[i];
      (column in after <==> column in db.pedidos[i])
      && (column in after ==> after[column] == db.pedidos[i][column])
  {
  }
}

=== FILE: supplier_profile_api.dfy ===
/** The supplier's profile endpoint (`/api/proveedor/perfil`): read the
    caller's supplier row through a fixed column list, and update a fixed
    set of ten columns on it. */
module SupplierProfileApi {
  import opened Wrappers
  import opened Json
  import opened Tables
  import opened Api

  const NotFound := "No se encontró el perfil del proveedor"

  /** `PERFIL_FIELDS`: the columns GET returns. */
  const ProfileFields: set<string> := {"id", "nombre_comercial", "descripcion", "telefono", "email_contacto",
                                       "logo_url", "website", "instagram", "facebook", "whatsapp", "contacto_principal"}

  /** The ten columns PATCH writes: the profile columns except `id`. */
  const Editable: set<string> := {"nombre_comercial", "descripcion", "telefono", "email_contacto", "logo_url",
                                  "website", "instagram", "facebook", "whatsapp", "contacto_principal"}

  /** GET: the caller's supplier row, projected onto the profile columns. */
  function Get(auth: Auth, db: Db): (out: Outcome)
    ensures out.db == db
    ensures Authorize(auth, db.proveedores, NotFound).Denied? ==> out.response == Authorize(auth, db.proveedores, NotFound).response
    ensures out.response.status == 200 <==> Authorize(auth, db.proveedores, NotFound).Granted?
    ensures out.response.status == 200 ==>
      && out.response.payload.Record?
      && out.response.payload.row.Keys <= ProfileFields
      && exists j :: 0 <= j < |db.proveedores| && "user_id" in db.proveedores[j]
           && db.proveedores[j]["user_id"] == JStr(auth.userId)
           && out.response.payload.row == Pick(db.proveedores[j], ProfileFields)
  {
    match Authorize(auth, db.proveedores, NotFound)
    case Denied(r) => Outcome(r, db)
    case Granted(p) =>
      var j :| 0 <= j < |db.proveedores| && db.proveedores[j] == p;
      Outcome(Response(200, Record(Pick(p, ProfileFields))), db)
  }

  /** PATCH: no body validation; 401/404 as usual; then only the ten
      editable columns, and only on the caller's own supplier row. */
  function Patch(body: Row, auth: Auth, db: Db, dbError: Option<string>): (out: Outcome)
    ensures Authorize(auth, db.proveedores, NotFound).Denied? ==> out == Outcome(Authorize(auth, db.proveedores, NotFound).response, db)
    ensures Authorize(auth, db.proveedores, NotFound).Granted? && dbError.Some? ==>
      out == Outcome(Response(500, Failure(dbError.value)), db)
    ensures out.response.status == 200 <==> Authorize(auth, db.proveedores, NotFound).Granted? && dbError.None?
    ensures out.response.status != 200 ==> out.db == db
    ensures out.db == db.(proveedores := out.db.proveedores)
    ensures out.response.status == 200 ==>
      && Authorize(auth, db.proveedores, NotFound).Granted?
      && ScopedUpdate(db.proveedores, out.db.proveedores,
           [("id", IdOf(Authorize(auth, db.proveedores, NotFound).profile))], Pick(body, Editable))
  {
    match Authorize(auth, db.proveedores, NotFound)
    case Denied(r) => Outcome(r, db)
    case Granted(p) =>
      if dbError.Some? then Outcome(Response(500, Failure(dbError.value)), db)
      else
        var f := [("id", IdOf(p))];
        Outcome(Succeeded, db.(proveedores := UpdateWhere(db.proveedores, f, Pick(body, Editable))))
  }

  /** PATCH can never change who owns a profile or its id: `user_id` and
      `id` are not among the written columns. */
  lemma PatchKeepsOwnership(body: Row, auth: Auth, db: Db, dbError: Option<string>, i: int)
    requires 0 <= i < |db.proveedores|
    ensures var after := Patch(body, auth, db, dbError).db.proveedores[i];
      && ("user_id" in after <==> "user_id" in db.proveedores[i])
      && ("user_id" in after ==> after["user_id"] == db.proveedores[i]["user_id"])
      && ("id" in after <==> "id" in db.proveedores[i])
      && ("id" in after ==> after["id"] == db.proveedores[i]["id"])
  {
    var out := Patch(body, auth, db, dbError);
    if out.response.status == 200 {
      var w := Pick(body, Editable);
      assert "user_id" !in w && "id" !in w;
      var before := db.proveedores[i];
      var after := out.db.proveedores[i];
      assert after == before || after == before + w;
    }
  }
}

=== FILE: supplier_store.dfy ===
/** The supplier's view of the store (`src/app/dashboard/proveedor/tienda/page.tsx`):
    the product listing without the supplier's own catalogue. */
module SupplierStore {
  import opened Wrappers
  import opened Json
  import Seqs

  /** A supplier's own catalogue entry: sold by a supplier whose id is the
      profile's. */
  predicate OwnProduct(profileId: Json, producto: Row) {
    Field(producto, "tipo_vendedor") == Some(JStr("proveedor")) && Field(producto, "vendedor_id") == Some(profileId)
  }

  /** The filter's test for one product. */
  function Shows(profileId: Option<Json>): Row -> bool {
    (producto: Row) => !Truthy(profileId) || !OwnProduct(profileId.value, producto)
  }

  /** `productosVisibles`. */
  function Visible(productos: seq<Row>, profileId: Option<Json>): (r: seq<Row>)
    ensures forall i :: 0 <= i < |r| ==> !Truthy(profileId) || !OwnProduct(profileId.value, r[i])
  {
    Seqs.Filter(productos, Shows(profileId))
  }

  /** Without a profile id every product is shown. */
  lemma NoProfileShowsAll(productos: seq<Row>, profileId: Option<Json>)
    requires !Truthy(profileId)
    ensures Visible(productos, profileId) == productos
  {
    Seqs.FilterKeepsAll(productos, Shows(profileId));
  }

  /** With a profile id a product is shown exactly when it is not the
      supplier's own, and the shown list keeps the listing's order. */
  lemma HidesExactlyOwnProducts(productos: seq<Row>, profileId: Json)
    requires Truthy(Some(profileId))
    ensures Seqs.IsSubsequence(Visible(productos, Some(profileId)), productos)
    ensures forall i :: 0 <= i < |productos| ==>
      (productos[i] in Visible(productos, Some(profileId)) <==> !OwnProduct(profileId, productos[i]))
  {
    Seqs.FilterIsSubsequence(productos, Shows(Some(profileId)));
  }

  /** Products of producers and agents stay visible even when their seller
      id is the profile's id. */
  lemma OtherSellerKindsStay(productos: seq<Row>, profileId: Json, i: int)
    requires Truthy(Some(profileId)) && 0 <= i < |productos|
    requires Field(productos[i], "tipo_vendedor") in {Some(JStr("productor")), Some(JStr("agente"))}
    ensures productos[i] in Visible(productos, Some(profileId))
  {
  }
}

=== FILE: tables.dfy ===
/** The backend's row storage as the handlers use it: a table is a sequence
    of rows, and a chain of `.eq(column, value)` calls is a conjunctive
    filter. Each operation is the effect of one `select`, `update`,
    `delete`, `insert` or `.single()` call. */
module Tables {
  import opened Wrappers
  import opened Json
  import Seqs
  import Timestamps

  type Table = seq<Row>

  /** The `(column, value)` pairs of a chain of `.eq` calls. */
  type Filter = seq<(string, Json)>

  /** `column = value`, with SQL's rule that nothing equals null. */
  predicate EqHolds(row: Row, column: string, v: Json) {
    v != JNull && column in row && row[column] == v
  }

  predicate Matches(row: Row, f: Filter) {
    forall k :: 0 <= k < |f| ==> EqHolds(row, f[k].0, f[k].1)
  }

  function MatchFn(f: Filter): Row -> bool {
    row => Matches(row, f)
  }

  function MissFn(f: Filter): Row -> bool {
    row => !Matches(row, f)
  }

  /** The rows a filtered `select` reads, in storage order. */
  function Where(t: Table, f: Filter): (r: Table)
    ensures forall i :: 0 <= i < |r| ==> Matches(r[i], f)
    ensures forall row :: row in r ==> row in t
    ensures forall i :: 0 <= i < |t| && Matches(t[i], f) ==> t[i] in r
  {
    Seqs.Filter(t, MatchFn(f))
  }

  /** A filtered `delete`: exactly the rows that do not match remain. */
  function DeleteWhere(t: Table, f: Filter): (r: Table)
    ensures forall i :: 0 <= i < |r| ==> !Matches(r[i], f)
    ensures forall row :: row in r ==> row in t
    ensures forall i :: 0 <= i < |t| && !Matches(t[i], f) ==> t[i] in r
  {
    Seqs.Filter(t, MissFn(f))
  }

  /** A filtered `update(fields)`: every matching row takes the given
      values, every other row is left as it was. */
  function UpdateWhere(t: Table, f: Filter, fields: Row): (r: Table)
    ensures |r| == |t|
    ensures forall i :: 0 <= i < |t| ==> r[i] == if Matches(t[i], f) then t[i] + fields else t[i]
    decreases |t|
  {
    if |t| == 0 then []
    else [if Matches(t[0], f) then t[0] + fields else t[0]] + UpdateWhere(t[1..], f, fields)
  }

  /** `.single()`: a row only when exactly one matches; zero or several
      matches are an error, which every caller treats as "not found". */
  function Single(t: Table, f: Filter): (r: Option<Row>)
    ensures r.Some? <==> |Where(t, f)| == 1
    ensures r.Some? ==> r.value in t && Matches(r.value, f)
  {
    var w := Where(t, f);
    if |w| == 1 then Some(w[0]) else None
  }

  /** The key a listing is ordered by: a `created_at` held as milliseconds
      is that number, one held as ISO-8601 text is its clock reading, and
      anything else (absent, null, other text) has no key. */
  function Stamp(row: Row): (k: Option<int>)
    ensures "created_at" in row && row["created_at"].JNum? ==> k == Some(row["created_at"].n)
    ensures "created_at" in row && row["created_at"].JStr? ==> k == Timestamps.IsoKey(row["created_at"].s)
    ensures !("created_at" in row && (row["created_at"].JNum? || row["created_at"].JStr?)) ==> k.None?
  {
    if "created_at" !in row then None
    else match row["created_at"]
      case JNum(n) => Some(n)
      case JStr(s) => Timestamps.IsoKey(s)
      case _ => None
  }

  /** A `select` column list; `None` is `select("*")`. */
  function Picked(row: Row, columns: Option<set<string>>): Row {
    match columns
    case None => row
    case Some(cs) => Pick(row, cs)
  }

  function Project(rows: seq<Row>, columns: Option<set<string>>): (r: seq<Row>)
    ensures |r| == |rows|
    ensures forall i :: 0 <= i < |rows| ==> r[i] == Picked(rows[i], columns)
  {
    seq(|rows|, i requires 0 <= i < |rows| => Picked(rows[i], columns))
  }

  /** `select(columns).eq(...).order("created_at", { ascending: false })`.
      Every listing selects `created_at`, so ordering before or after the
      projection yields the same order. */
  function Query(t: Table, f: Filter, columns: Option<set<string>>): (r: seq<Row>)
    requires columns.Some? ==> "created_at" in columns.value
    ensures Seqs.SortedNewest(r, Stamp)
    ensures multiset(r) == multiset(Project(Where(t, f), columns))
    ensures |r| == |Where(t, f)|
    ensures forall row :: row in r ==> exists j :: 0 <= j < |t| && Matches(t[j], f) && row == Picked(t[j], columns)
  {
    var projected := Project(Where(t, f), columns);
    var r := Seqs.SortNewest(projected, Stamp);
    QueryRowsComeFromTable(t, f, columns, projected, r);
    r
  }

  lemma QueryRowsComeFromTable(t: Table, f: Filter, columns: Option<set<string>>, projected: seq<Row>, r: seq<Row>)
    requires projected == Project(Where(t, f), columns)
    requires multiset(r) == multiset(projected)
    ensures forall row :: row in r ==> exists j :: 0 <= j < |t| && Matches(t[j], f) && row == Picked(t[j], columns)
  {
    var w := Where(t, f);
    forall row | row in r
      ensures exists j :: 0 <= j < |t| && Matches(t[j], f) && row == Picked(t[j], columns)
    {
      assert row in multiset(projected);
      var i :| 0 <= i < |projected| && projected[i] == row;
      assert w[i] in t;
      var j :| 0 <= j < |t| && t[j] == w[i];
      assert Matches(t[j], f);
    }
  }

  /** Applying the same filtered update twice changes nothing more. */
  lemma UpdateWhereIdempotent(t: Table, f: Filter, fields: Row)
    ensures UpdateWhere(UpdateWhere(t, f, fields), f, fields) == UpdateWhere(t, f, fields)
  {
    var once := UpdateWhere(t, f, fields);
    var twice := UpdateWhere(once, f, fields);
    forall i | 0 <= i < |t| ensures twice[i] == once[i] {
      if Matches(once[i], f) {
        assert once[i] + fields == once[i];
      }
    }
  }

  /** Deleting with the same filter twice removes nothing more. */
  lemma {:induction false} DeleteWhereIdempotent(t: Table, f: Filter)
    ensures DeleteWhere(DeleteWhere(t, f), f) == DeleteWhere(t, f)
    decreases |t|
  {
    if |t| > 0 {
      DeleteWhereIdempotent(t[1..], f);
    }
  }

  /** A delete keeps the surviving rows in their order. */
  lemma DeleteWhereKeepsOrder(t: Table, f: Filter)
    ensures Seqs.IsSubsequence(DeleteWhere(t, f), t)
  {
    Seqs.FilterIsSubsequence(t, MissFn(f));
  }

  /** A delete and the matching select partition the table. */
  lemma {:induction false} DeletePartitions(t: Table, f: Filter)
    ensures |DeleteWhere(t, f)| + |Where(t, f)| == |t|
    decreases |t|
  {
    if |t| > 0 {
      DeletePartitions(t[1..], f);
    }
  }
}

=== FILE: text.dfy ===
/** The JavaScript string operations the application relies on:
    `startsWith`, `trim`, `split`, `toLowerCase`, and the rendering of a
    number inside a template literal. Strings are sequences of UTF-16 code
    units; a `char` here stands for one of them. */
module Text {
  import opened Wrappers

  predicate StartsWith(s: string, prefix: string) {
    |prefix| <= |s| && s[..|prefix|] == prefix
  }

  predicate HasChar(s: string, c: char) {
    exists i :: 0 <= i < |s| && s[i] == c
  }

  /** ECMAScript WhiteSpace and LineTerminator code points: the set that
      `String.prototype.trim` strips and that `\s` matches in a regular
      expression. */
  predicate IsJsWhitespace(c: char) {
    var n := c as int;
    n == 0x09 || n == 0x0A || n == 0x0B || n == 0x0C || n == 0x0D || n == 0x20
    || n == 0xA0 || n == 0x1680 || (0x2000 <= n <= 0x200A) || n == 0x2028 || n == 0x2029
    || n == 0x202F || n == 0x205F || n == 0x3000 || n == 0xFEFF
  }

  predicate Blank(s: string) {
    forall i :: 0 <= i < |s| ==> IsJsWhitespace(s[i])
  }

  function TrimStart(s: string): (r: string)
    ensures |r| <= |s| && r == s[|s| - |r|..]
    ensures Blank(s[..|s| - |r|])
    ensures |r| > 0 ==> !IsJsWhitespace(r[0])
    decreases |s|
  {
    if |s| > 0 && IsJsWhitespace(s[0]) then TrimStart(s[1..]) else s
  }

  function TrimEnd(s: string): (r: string)
    ensures |r| <= |s| && r == s[..|r|]
    ensures Blank(s[|r|..])
    ensures |r| > 0 ==> !IsJsWhitespace(r[|r| - 1])
    decreases |s|
  {
    if |s| > 0 && IsJsWhitespace(s[|s| - 1]) then TrimEnd(s[..|s| - 1]) else s
  }

  /** `String.prototype.trim`. */
  function Trim(s: string): (r: string)
    ensures |r| <= |s|
    ensures |r| == 0 <==> Blank(s)
    ensures |r| > 0 ==> !IsJsWhitespace(r[0]) && !IsJsWhitespace(r[|r| - 1])
  {
    var t := TrimStart(s);
    var r := TrimEnd(t);
    assert |r| == 0 ==> Blank(s) by {
      if |r| == 0 {
        assert s == s[..|s| - |t|] + t;
        assert t == t[|r|..];
      }
    }
    r
  }

  /** Whitespace around a string never survives `trim`, so it can never
      count toward a length minimum measured after trimming. */
  lemma {:induction false} TrimIgnoresPadding(w1: string, s: string, w2: string)
    requires Blank(w1) && Blank(w2)
    ensures Trim(w1 + s + w2) == Trim(s)
  {
    var all := w1 + s + w2;
    if Blank(s) {
      forall i | 0 <= i < |all| ensures IsJsWhitespace(all[i]) {
        if i < |w1| {
          assert all[i] == w1[i];
        } else if i < |w1| + |s| {
          assert all[i] == s[i - |w1|];
        } else {
          assert all[i] == w2[i - |w1| - |s|];
        }
      }
      assert |Trim(all)| == 0 && |Trim(s)| == 0;
    } else {
      assert all == w1 + (s + w2);
      TrimStartPadding(w1, s + w2);
      TrimStartKeepsTail(s, w2);
      assert TrimStart(all) == TrimStart(s) + w2;
      TrimEndPadding(TrimStart(s), w2);
    }
  }

  lemma {:induction false} TrimStartPadding(w: string, s: string)
    requires Blank(w)
    ensures TrimStart(w + s) == TrimStart(s)
    decreases |w|
  {
    if |w| > 0 {
      assert (w + s)[1..] == w[1..] + s;
      TrimStartPadding(w[1..], s);
    } else {
      assert w + s == s;
    }
  }

  /** Trailing text survives `TrimStart` once the start is trimmed. */
  lemma {:induction false} TrimStartKeepsTail(s: string, w: string)
    requires Blank(w)
    ensures TrimStart(s + w) == TrimStart(s) + w || (Blank(s) && TrimStart(s + w) == TrimStart(w))
    decreases |s|
  {
    if |s| > 0 {
      assert (s + w)[1..] == s[1..] + w;
      if IsJsWhitespace(s[0]) {
        TrimStartKeepsTail(s[1..], w);
      }
    } else {
      assert s + w == w;
    }
  }

  lemma {:induction false} TrimEndPadding(s: string, w: string)
    requires Blank(w)
    ensures TrimEnd(s + w) == TrimEnd(s)
    decreases |w|
  {
    if |w| > 0 {
      var sw := s + w;
      assert sw[..|sw| - 1] == s + w[..|w| - 1];
      TrimEndPadding(s, w[..|w| - 1]);
    } else {
      assert s + w == s;
    }
  }

  predicate OccursAt(s: string, sep: string, k: int) {
    0 <= k && k + |sep| <= |s| && s[k..k + |sep|] == sep
  }

  /** The first occurrence of `sep` in `s` at or after `from`. */
  function IndexFrom(s: string, sep: string, from: nat): (r: Option<nat>)
    requires |sep| > 0
    ensures r.Some? ==> from <= r.value && OccursAt(s, sep, r.value)
    ensures r.Some? ==> forall k :: from <= k < r.value ==> !OccursAt(s, sep, k)
    ensures r.None? ==> forall k :: from <= k ==> !OccursAt(s, sep, k)
    decreases |s| - from
  {
    if from + |sep| > |s| then None
    else if s[from..from + |sep|] == sep then Some(from)
    else IndexFrom(s, sep, from + 1)
  }

  /** `String.prototype.split` with a non-empty separator. */
  function Split(s: string, sep: string): (r: seq<string>)
    requires |sep| > 0
    ensures |r| >= 1
    decreases |s|
  {
    match IndexFrom(s, sep, 0)
    case None => [s]
    case Some(i) => [s[..i]] + Split(s[i + |sep|..], sep)
  }

  /** `Array.prototype.join`. */
  function Join(parts: seq<string>, sep: string): string
    decreases |parts|
  {
    if |parts| == 0 then ""
    else if |parts| == 1 then parts[0]
    else parts[0] + sep + Join(parts[1..], sep)
  }

  lemma JoinCons(a: string, rest: seq<string>, sep: string)
    requires |rest| >= 1
    ensures Join([a] + rest, sep) == a + sep + Join(rest, sep)
  {
    assert ([a] + rest)[1..] == rest;
  }

  lemma JoinTwoCons(a: string, b: string, rest: seq<string>, sep: string)
    requires |rest| >= 1
    ensures Join([a, b] + rest, sep) == a + sep + (b + sep + Join(rest, sep))
  {
    JoinCons(b, rest, sep);
    assert [a, b] + rest == [a] + ([b] + rest);
    JoinCons(a, [b] + rest, sep);
  }

  /** Splitting undoes joining whenever no part contains the separator's
      first character. */
  lemma {:induction false} SplitJoin(parts: seq<string>, sep: string)
    requires |sep| > 0 && |parts| >= 1
    requires forall k :: 0 <= k < |parts| ==> !HasChar(parts[k], sep[0])
    ensures Split(Join(parts, sep), sep) == parts
    decreases |parts|
  {
    var p0 := parts[0];
    if |parts| == 1 {
      NoSeparatorNoSplit(p0, sep);
    } else {
      var rest := Join(parts[1..], sep);
      var s := p0 + sep + rest;
      assert s[|p0|..|p0| + |sep|] == sep;
      assert OccursAt(s, sep, |p0|);
      forall k | 0 <= k < |p0| ensures !OccursAt(s, sep, k) {
        assert s[k] == p0[k] && p0[k] != sep[0];
        assert k + |sep| <= |s| ==> s[k..k + |sep|][0] == s[k];
      }
      assert IndexFrom(s, sep, 0) == Some(|p0|);
      assert s[..|p0|] == p0;
      assert s[|p0| + |sep|..] == rest;
      SplitJoin(parts[1..], sep);
    }
  }

  lemma NoSeparatorNoSplit(s: string, sep: string)
    requires |sep| > 0 && !HasChar(s, sep[0])
    ensures Split(s, sep) == [s]
  {
    forall k | 0 <= k < |s| ensures !OccursAt(s, sep, k) {
      assert s[k] != sep[0];
      assert k + |sep| <= |s| ==> s[k..k + |sep|][0] == s[k];
    }
  }

  /** ASCII case folding. `String.prototype.toLowerCase` also folds
      non-ASCII letters; of those only U+212A KELVIN SIGN lands on an ASCII
      letter (`k`). */
  function ToLowerAscii(s: string): (r: string)
    ensures |r| == |s|
    ensures forall i :: 0 <= i < |s| ==> r[i] == (if 'A' <= s[i] <= 'Z' then (s[i] as int + 32) as char else s[i])
  {
    seq(|s|, i requires 0 <= i < |s| => if 'A' <= s[i] <= 'Z' then (s[i] as int + 32) as char else s[i])
  }

  function DigitChar(d: nat): char
    requires d < 10
  {
    "0123456789"[d]
  }

  /** Decimal rendering of a natural number, as `String(n)`. */
  function NatToString(n: nat): (r: string)
    ensures |r| >= 1
    ensures forall i :: 0 <= i < |r| ==> '0' <= r[i] <= '9'
    decreases n
  {
    if n < 10 then [DigitChar(n)] else NatToString(n / 10) + [DigitChar(n % 10)]
  }

  /** Decimal rendering of an integer, as `String(n)`. */
  function IntToString(n: int): string {
    if n < 0 then "-" + NatToString(-n) else NatToString(n)
  }
}

=== FILE: timestamps.dfy ===
/** The order of `created_at` values. The backend returns a `timestamptz`
    column as ISO-8601 text in UTC ("2024-05-01T12:34:56.789+00:00"), and
    orders by the instant it names. Reading the date, the time and the
    first six fraction digits as one decimal number gives a key whose
    order is the order of those instants. */
module Timestamps {
  import opened Wrappers

  predicate IsDigit(c: char) { '0' <= c <= '9' }

  predicate AllDigits(s: string) {
    forall i :: 0 <= i < |s| ==> IsDigit(s[i])
  }

  function Digit(c: char): (d: nat)
    requires IsDigit(c)
    ensures d <= 9
  {
    c as int - '0' as int
  }

  /** The decimal number a run of digits spells, read most significant
      digit first. */
  function DigitsValue(s: string): nat
    requires AllDigits(s)
  {
    if |s| == 0 then 0 else DigitsValue(s[..|s| - 1]) * 10 + Digit(s[|s| - 1])
  }

  /** Two digit runs of one width compare as numbers the way they compare
      as text: the first differing digit decides. */
  lemma {:induction false} DigitsOrder(a: string, b: string, k: nat)
    requires AllDigits(a) && AllDigits(b) && |a| == |b|
    requires k < |a| && a[..k] == b[..k] && a[k] < b[k]
    ensures DigitsValue(a) < DigitsValue(b)
    decreases |a|
  {
    var n := |a| - 1;
    var pa, pb := a[..n], b[..n];
    if k == n {
      assert pa == a[..k] == b[..k] == pb;
    } else {
      assert pa[..k] == a[..k] && pb[..k] == b[..k];
      assert pa[k] == a[k] && pb[k] == b[k];
      DigitsOrder(pa, pb, k);
      assert DigitsValue(a) <= DigitsValue(pa) * 10 + 9;
      assert DigitsValue(pb) * 10 <= DigitsValue(b);
    }
  }

  /** "YYYY-MM-DDThh:mm:ss" (or with a space for "T") at the start. */
  predicate IsoShape(s: string) {
    && |s| >= 19
    && s[4] == '-' && s[7] == '-' && (s[10] == 'T' || s[10] == ' ') && s[13] == ':' && s[16] == ':'
    && AllDigits(s[0..4]) && AllDigits(s[5..7]) && AllDigits(s[8..10])
    && AllDigits(s[11..13]) && AllDigits(s[14..16]) && AllDigits(s[17..19])
  }

  /** The length of the run of digits that starts at `i`. */
  function DigitRun(s: string, i: nat): (n: nat)
    requires i <= |s|
    ensures i + n <= |s| && forall k :: i <= k < i + n ==> IsDigit(s[k])
    decreases |s| - i
  {
    if i < |s| && IsDigit(s[i]) then 1 + DigitRun(s, i + 1) else 0
  }

  function Zeros(n: nat): (r: string)
    ensures |r| == n && AllDigits(r)
  {
    if n == 0 then "" else "0" + Zeros(n - 1)
  }

  /** Exactly six fraction digits: the given ones, cut or padded with
      zeros. */
  function Micros(frac: string): (r: string)
    requires AllDigits(frac)
    ensures |r| == 6 && AllDigits(r)
  {
    if |frac| >= 6 then frac[..6] else frac + Zeros(6 - |frac|)
  }

  /** The fraction digits after a "." that follows the seconds. */
  function Fraction(s: string): (r: string)
    requires |s| >= 19
    ensures AllDigits(r)
  {
    if |s| > 19 && s[19] == '.' then
      var frac := s[20..20 + DigitRun(s, 20)];
      assert forall k :: 0 <= k < |frac| ==> frac[k] == s[20 + k];
      frac
    else ""
  }

  /** Year to second as 14 digits, read from the first 19 characters. */
  function Seconds(s: string): (r: string)
    requires IsoShape(s)
    ensures |r| == 14 && AllDigits(r)
  {
    var head := s[..19];
    var r := head[0..4] + head[5..7] + head[8..10] + head[11..13] + head[14..16] + head[17..19];
    assert forall k :: 0 <= k < 14 ==> IsDigit(r[k]) by {
      forall k | 0 <= k < 14 ensures IsDigit(r[k]) {
        if k < 4 { assert r[k] == s[0..4][k]; }
        else if k < 6 { assert r[k] == s[5..7][k - 4]; }
        else if k < 8 { assert r[k] == s[8..10][k - 6]; }
        else if k < 10 { assert r[k] == s[11..13][k - 8]; }
        else if k < 12 { assert r[k] == s[14..16][k - 10]; }
        else { assert r[k] == s[17..19][k - 12]; }
      }
    }
    r
  }

  /** Year to microsecond as 20 digits. */
  function Clock(s: string): (r: string)
    requires IsoShape(s)
    ensures |r| == 20 && AllDigits(r)
    ensures r[..14] == Seconds(s) && r[14..] == Micros(Fraction(s))
  {
    var r := Seconds(s) + Micros(Fraction(s));
    assert forall k :: 14 <= k < 20 ==> r[k] == Micros(Fraction(s))[k - 14];
    r
  }

  /** The ordering key of an ISO-8601 timestamp, `None` for text of another
      shape. */
  function IsoKey(s: string): Option<int> {
    if IsoShape(s) then Some(DigitsValue(Clock(s))) else None
  }

  /** A timestamp whose clock reading is later, digit by digit, has the
      larger key. */
  lemma LaterClockHasLargerKey(s: string, t: string, k: nat)
    requires IsoShape(s) && IsoShape(t)
    requires k < 20 && Clock(s)[..k] == Clock(t)[..k] && Clock(s)[k] < Clock(t)[k]
    ensures IsoKey(s).Some? && IsoKey(t).Some? && IsoKey(s).value < IsoKey(t).value
  {
    DigitsOrder(Clock(s), Clock(t), k);
  }

  /** Within one second, a timestamp with a fraction is newer than the
      same second written without one. */
  lemma FractionBreaksTies(s: string, t: string)
    requires IsoShape(s) && IsoShape(t) && s[..19] == t[..19]
    requires Fraction(s) == "" && Fraction(t) != "" && Fraction(t)[0] != '0'
    ensures IsoKey(s).Some? && IsoKey(t).Some? && IsoKey(s).value < IsoKey(t).value
  {
    var cs, ct := Clock(s), Clock(t);
    assert Seconds(s) == Seconds(t);
    assert cs[..14] == ct[..14];
    assert Micros(Fraction(s)) == Zeros(6);
    assert cs[14] == cs[14..][0] == '0';
    assert ct[14] == ct[14..][0] == Fraction(t)[0];
    LaterClockHasLargerKey(s, t, 14);
  }
}

=== FILE: wrappers.dfy ===
/** The optional value used wherever the application reads something that
    may be missing: an absent cookie, an undefined field, a lookup that
    found no row. */
module Wrappers {

  datatype Option<+T> = None | Some(value: T) {

    /** The value, or `default` when absent; JavaScript's `x ?? default`. */
    function GetOr(default: T): T {
      match this
      case Some(v) => v
      case None => default
    }
  }
}
